=== FILE: README.md ===
# Thesis formatting rule checkers, modelled in Dafny

The repository checks a thesis written as a `.docx` file against the Russian
formatting rules for theses. Each check under `modules/` is one deterministic pass
over a read-only document. It returns either a pass sentence or a list of error
messages. This project models those checks and the template that runs them:

- `structure.py`: heading presence, required sections credited by a
  case-insensitive prefix, the missing-sections error and the section order.
- `page_params.py`: A4 page size within 0.1 cm, and the minimum margin on each
  side, for every section.
- `formatting.py`: the font and size of every run, with a page estimate of five
  paragraphs per page.
- `references.py`: the three sentinel answers, the reference block between the
  first bibliography title and the next part, the evidence filter, and the three
  entry grammars.
- `tables.py`, `illustrations.py`, `appendices.py`: these share most of their logic.
  - The chapter in force at each paragraph.
  - The caption grammar `Табл./Рис. N – Title`.
  - A numbering counter that never resynchronises with the numbers actually found.
  - The title rules.
  - The cross-check of labels against in-text references. The caption or header that carries a label is one of the texts scanned, so this check never reports anything.
  - The table-of-contents capture.
  - The list-of-illustrations rule.
  - The appendix contents rule for 1, 2–5 and more than 5 appendices.
- `template.py`: the default parameters, the four-entry result map, and the
  report with its total error count.

Files:

| file | module | contents |
|---|---|---|
| `opt.dfy` | `Opt` | `Option` |
| `text.dfy` | `Text` | Python's `isspace`, the case map, `strip`, prefix and substring tests, greedy digit and space runs, `str(n)`, `join` |
| `document.dfy` | `DocModel` | paragraphs with runs, tables, sections, documents |
| `violations.dfy` | `Violations` | one constructor per error the checks report; `Verdict = Message | Errors`; flattening |
| `patterns.dfy` | `Patterns` | chapters, labels, `findall` of references, caption parsing, whole-text titles, the table of contents, the title rules, the expected number, the unreferenced rule |
| `structure.dfy`, `page_params.dfy`, `formatting.dfy`, `references.dfy`, `tables.dfy`, `illustrations.dfy`, `appendices.dfy`, `template.dfy` | one module per source file | the check, and the lemmas about it |

Errors are values of the `Violation` datatype. They carry the facts a message
prints (the paragraph, the number found, the number expected, the side, and so
on) rather than the formatted Russian text. Every regular expression of the
core is written out as the deterministic scan it performs. The exceptions are
the three bibliography entry grammars, which are parameters.

## Model

| member | source | states |
|---|---|---|
| Structure.DefaultParams | modules/structure.py:9-16 | absent keys give headings required and the five standard sections, in order |
| Structure.HeadingErrors | modules/structure.py:19-22 | at most one headings error, present exactly when headings are required and no paragraph's style starts with `Heading` |
| Structure.NoHeadingsIff | modules/structure.py:19-22 | in the whole check, the headings error appears iff headings are required and no heading exists |
| Structure.CreditedTo | modules/structure.py:28-31 | a paragraph is credited to at most one section, the first required name (in required order) that is a case-insensitive prefix of its stripped text, and to none when no name is |
| Structure.FirstCredit | modules/structure.py:28-31 | the search over required names stops at the first that credits the text; no earlier name credits it |
| Structure.FoundInDomain | modules/structure.py:25-31 | a section is recorded exactly when some paragraph is credited to it |
| Structure.FoundInLast | modules/structure.py:25-31 | the recorded position is that of the last credited paragraph: a later paragraph overwrites an earlier one |
| Structure.FoundSpec | modules/structure.py:25-31 | over a document: recorded iff ever credited, and the recorded paragraph is credited to the section with none after it |
| Structure.FoundAreRequired | modules/structure.py:28-30 | only required names are ever recorded |
| Structure.Missing | modules/structure.py:34 | the missing list holds exactly the required names never recorded, and is no longer than the required list |
| Structure.MissingInRequiredOrder | modules/structure.py:34 | the missing list is the subsequence of the required list absent from the found sections: required order kept, a name listed twice missing twice |
| Structure.MissingConcat | modules/structure.py:34 | the comprehension distributes over concatenation: the missing list of `a + b` is that of `a` followed by that of `b` |
| Structure.MissingSpec | modules/structure.py:34-36 | at most one missing-sections error; it is present iff some required section is never credited, and it lists exactly those sections, as the subsequence of the required list in required order |
| Structure.MissingErrorIff | modules/structure.py:34-36 | with the headings error in front, a missing-sections error is present iff a required section was not found |
| Structure.AtMostOneMissingError | modules/structure.py:34-36 | no two entries of the error list are missing-sections errors |
| Structure.Descents | modules/structure.py:42-48 | reference definition: one order error per adjacent pair of found sections (in required order) whose positions decrease, naming the later one and its predecessor |
| Structure.DescentsEmptyIff | modules/structure.py:42-48 | there is no descent iff the found positions never decrease along the required order |
| Structure.OrderErrorsAreDescents | modules/structure.py:40-48 | the source's loop, started from position -1, reports exactly the descents |
| Structure.OrderPartSpec | modules/structure.py:39-48 | the order part holds only order errors; it is empty with at most one found section and otherwise equals the descents |
| Structure.OrderSpec | modules/structure.py:39-48 | every order error of the check comes with at least two sections found and names a section found before its predecessor in required order |
| Structure.InOrderIff | modules/structure.py:39-48 | the check reports no order error iff the found sections appear in required order |
| Structure.ErrorsBound | modules/structure.py:19-48 | never more than one error per required section plus one, i.e. 2 + (sections - 1) |
| Structure.Check | modules/structure.py:50 | the pass sentence exactly when the error list is empty |
| PageParams.DefaultParams | modules/page_params.py:6-7 | absent keys give `A4` and margins left 3, right 1, top 2, bottom 2 |
| PageParams.SectionErrorsSpec | modules/page_params.py:11-40 | per section: at most five errors, all naming that section; the size error iff the profile is `A4` and width or height is more than 0.1 cm off 21.0 × 29.7; one margin error per side iff that margin is strictly below its minimum (equality passes), carrying both values |
| PageParams.SectionErrorsOrdered | modules/page_params.py:23-40 | a section's errors come in the order size, left, right, top, bottom |
| PageParams.OtherProfileSkipsSize | modules/page_params.py:23-26 | any profile other than `A4` never draws a size error |
| PageParams.SectionsErrorsSplit | modules/page_params.py:18-40 | sections are independent: the errors of a split sequence are those of each part, with numbering continued |
| PageParams.SectionsErrorsBound | modules/page_params.py:18-40 | at most five errors per section, each naming a section in range (numbered from 1) |
| PageParams.SectionIsolated | modules/page_params.py:18-40 | section k contributes exactly its own errors, after those of sections before it and before those of sections after it |
| PageParams.Check | modules/page_params.py:46 | the pass sentence exactly when no section has an error; otherwise at most five errors per section |
| Formatting.DefaultParams | modules/formatting.py:7-8 | absent keys give Times New Roman and 12 points, i.e. 24 half-points |
| Formatting.FractionalSize | modules/formatting.py:8 | a fractional point size is doubled exactly: at 10.5 points a 21 half-point run passes and a 22 half-point run is reported |
| Formatting.PageOfRange | modules/formatting.py:39-41 | the page estimate `i // 5 + 1` puts position i on page p exactly when 5(p-1) ≤ i < 5p |
| Formatting.PageOfMonotone | modules/formatting.py:39-41 | the page estimate is at least 1 and never decreases |
| Formatting.Excerpt | modules/formatting.py:34 | the quoted text is a prefix of the stripped paragraph text, at most 50 characters, and as long as possible |
| Formatting.ReportNamesWrongSettings | modules/formatting.py:19-30 | a report names the font iff the run's non-empty font differs, names the size iff the run's non-zero size differs, and always names at least one |
| Formatting.RunsErrorsSpec | modules/formatting.py:18-35 | one report per flagged run, and a report exactly for the flagged runs |
| Formatting.ParagraphsErrorsSpec | modules/formatting.py:11-35 | a report exists exactly for each flagged run of a paragraph whose text is not blank, with that paragraph's page and excerpt |
| Formatting.ParagraphsErrorsCount | modules/formatting.py:11-35 | the number of reports is the number of flagged runs in non-blank paragraphs |
| Formatting.Check | modules/formatting.py:37 | the pass sentence exactly when nothing is reported; otherwise one error per flagged run of a non-blank paragraph |
| Formatting.PassIff | modules/formatting.py:11-37 | the check passes iff every run of every non-blank paragraph has the expected font or none, and the expected size or none |
| References.Check | modules/references.py:5-62 | errors only under GOST R 7.0.5-2008, and each error names an entry of the block that no grammar matches; the sentinels are stated by `References.OtherStandard`, `References.NoSectionIff`, `References.EmptySectionIff` and `References.EntriesVerdict` |
| References.OtherStandard | modules/references.py:6-8 | any standard other than GOST R 7.0.5-2008 yields its not-implemented sentinel, whatever the document |
| References.FirstHeaderFrom | modules/references.py:25-30 | finds the first paragraph whose lower-cased text is one of the four bibliography titles |
| References.BlockEnd | modules/references.py:31-34 | the block ends at the first paragraph opening with Приложение, Выводы, Заключение, Рисунок or Таблица, or at the end |
| References.ExtractBlock | modules/references.py:19-34 | the source's scan finds a title iff one exists, and then collects exactly the paragraphs between the first title and the first terminator |
| References.NoSectionIff | modules/references.py:21-38 | under GOST, the no-section sentinel iff no paragraph is a bibliography title |
| References.GostBlock | modules/references.py:18-34 | under GOST, a document with a title is judged by the block after its first title |
| References.EmptySectionIff | modules/references.py:41-43 | the empty-section sentinel iff no line of the block is non-empty with evidence, even when other lines have text |
| References.EntryErrorsSpec | modules/references.py:46-60 | the errors are exactly the non-empty evidence-bearing lines that match no grammar, each reported as its own text |
| References.NonEntriesIgnored | modules/references.py:46-51 | a line without evidence, or an empty one, never changes the errors |
| References.EntriesVerdict | modules/references.py:41-62 | with an entry present: the pass sentence iff every entry matches a grammar, otherwise exactly the malformed entries |
| References.BlockNeverNoSection | modules/references.py:37-43 | the verdict on a block is never the no-section sentinel |
| Patterns.ChapterOf | modules/tables.py:48-51 | a chapter heading yields a string of digits |
| Patterns.ChapterIff | modules/tables.py:48-51 | a text announces chapter d iff it opens with `ГЛАВА` in any case, then a non-empty whitespace run, then the digits d, and no further digit follows; every other text announces none |
| Patterns.ChapterRoundTrip | modules/tables.py:48-51 | a paragraph `ГЛАВА n` followed by a non-digit announces exactly `n` |
| Patterns.ChaptersAreLatest | modules/tables.py:42-52 | the chapter map gives each paragraph the latest chapter heading up to and including it |
| Patterns.ChapterBeforeFirstHeading | modules/tables.py:42-52 | before the first chapter heading every paragraph is in chapter "0" |
| Patterns.ChapterOfMostRecentHeading | modules/tables.py:45-52 | after a heading, a paragraph is in the chapter of the most recent heading at or before it |
| Patterns.NumberLengthIsLabel | modules/tables.py:12 | what `\d+(?:\.\d+)?` matches is a number label: digits, or digits, a dot and digits |
| Patterns.FindLabelsSound | modules/tables.py:55-57 | every label `findall` yields is the capture of a match at some position of the text |
| Patterns.ReferenceFound | modules/tables.py:12 | a keyword in any case, a non-empty whitespace run and a complete label yield that label first, and the scan resumes right after it; a number label is complete at the end of the text or before anything but a digit or a dot followed by a digit |
| Patterns.FindLabelsSkip | modules/tables.py:55 | text in which no match starts adds nothing: the scan of `u + s` finds exactly what the scan of `s` finds |
| Patterns.FindLabelsAfter | modules/tables.py:55 | a label the scan finds in `s` is still found when text with no match in it is put in front |
| Patterns.AllReferencesSpec | modules/tables.py:54-57 | a label is referenced iff the scan of some paragraph finds it |
| Patterns.ParseCaption | modules/tables.py:14 | a parsed caption has a number label and a one-line title starting with a non-space |
| Patterns.CaptionIff | modules/tables.py:14 | a text parses to number N and title T iff, once stripped, it is the prefix, a non-empty whitespace run, N, optional whitespace, an en dash, optional whitespace and T, with T one line starting with a non-space; every other text parses to none |
| Patterns.CaptionReferencesItself | modules/tables.py:12-14 | when the caption prefix, lower-cased, is one of the reference keywords, the caption's own number is found by the reference scan of the caption |
| Patterns.CaptionRoundTrip | modules/illustrations.py:14 | `prefix N – Title` with a label N and a one-line title parses back to N and Title |
| Patterns.LastMatching | modules/appendices.py:57-63 | the last paragraph matching a title (a later match overwrites), or none when no paragraph matches |
| Patterns.WordsMatchJoin | modules/appendices.py:17-19 | a title written with single spaces matches its own word pattern |
| Patterns.TocNeverCloses | modules/illustrations.py:72-77 | the capture opens on `оглавление` and its closing branch never fires |
| Patterns.TocLinesSpec | modules/illustrations.py:72-77 | a line is captured iff it is non-empty, not `оглавление` itself, and follows an `оглавление` paragraph |
| Patterns.TitleErrorsSpec | modules/tables.py:105-110 | the three title rules are independent: one error for a first character that is not upper case, one for a final full stop, one for an alignment other than centred, nothing else |
| Patterns.CaptionErrorsSpec | modules/illustrations.py:111-126 | a caption draws its numbering error iff its number is not the expected one; every other error is a title error |
| Patterns.ExpectedNumberInjective | modules/tables.py:95-99 | different counter values never expect the same number within one chapter |
| Patterns.ExpectedNumberIsLabel | modules/tables.py:95-99 | the expected number is a number label, flat or `chapter.k` |
| Patterns.UnreferencedSpec | modules/tables.py:119-122 | the errors are exactly the labels no reference names |
| Tables.Check | modules/tables.py:16-124 | a table draws the missing-caption error iff no caption paragraph is paired with it, and no caption-format error is ever reported; numbering in `Tables.WrongNumberIff`, the title and cell rules in `Tables.CaptionedErrorsSpec`, references in `Tables.NoUnreferencedError` |
| Tables.NextTableFrom | modules/tables.py:70-74 | the first table with at least i + 1 paragraphs before it |
| Tables.CaptionFrom | modules/tables.py:63-77 | the caption of a table is the first caption paragraph whose next table is that table |
| Tables.MissingCaptionIff | modules/tables.py:79-81 | a table draws the missing-caption error iff no caption is paired with it |
| Tables.NoCaptionFormatError | modules/tables.py:64-88 | the caption-format error never appears: only a paragraph that already matched the pattern is paired |
| Tables.CountersClosedForm | modules/tables.py:60-102 | the counter at each table is one more than the captioned tables before it; it never resynchronises and a table without a caption leaves it |
| Tables.CounterAtClosedForm | modules/tables.py:60-102 | the counter at table t is one more than the number of captioned tables before t |
| Tables.WrongNumberIff | modules/tables.py:94-102 | a captioned table draws a numbering error iff its number differs from the closed-form expectation, flat or in its caption's chapter |
| Tables.CaptionedErrorsSpec | modules/tables.py:91-116 | a captioned table's errors: numbering iff the number is unexpected, the title rules, and empty-cell errors naming only that table |
| Tables.TableErrorsTags | modules/tables.py:79-116 | which table each error names, and what holds of it: no caption for the missing-caption error, a caption for the others |
| Tables.EmptyCellErrorsEmptyIff | modules/tables.py:113-116 | no empty-cell error iff every cell's stripped text is non-empty |
| Tables.EmptyCellErrorsShape | modules/tables.py:113-116 | every error of the cell rule is that table's empty-cell error |
| Tables.RowErrorsShape | modules/tables.py:113-116 | at most one error per cell of a row |
| Tables.UnreferencedIff | modules/tables.py:119-122 | a captioned table's number draws an unreferenced error iff no in-text reference names it |
| Tables.NoUnreferencedError | modules/tables.py:119-122 | no document draws an unreferenced-table error, because the reference scan of line 55 also runs over each caption, which names its own number |
| Illustrations.Check | modules/illustrations.py:18-144 | a figure draws the missing-caption error iff it is in the last paragraph, and the caption-format error iff the next paragraph does not parse as a caption; numbering in `Illustrations.WrongNumberIff`, the list rule in `Illustrations.MissingListIff` and `Illustrations.ListNotInTocIff` |
| Illustrations.StatesClosedForm | modules/illustrations.py:85-118 | both counters in closed form: every drawing advances the figure count, and only a parsed caption advances the expected number |
| Illustrations.StateAtClosedForm | modules/illustrations.py:85-118 | at each paragraph the counters are the figures before it and one more than the parsed captions before it |
| Illustrations.OrdinalIncreasing | modules/illustrations.py:86-92 | drawings get ordinals that increase in document order |
| Illustrations.OrdinalInjective | modules/illustrations.py:86-92 | two drawings with the same ordinal are the same paragraph |
| Illustrations.FigureErrorsTags | modules/illustrations.py:87-126 | what each error of a paragraph says about its figure: a missing caption only in the last paragraph, the format error with the next paragraph's text, the numbering error with the expected number |
| Illustrations.MissingCaptionIff | modules/illustrations.py:95-98 | a figure draws the missing-caption error iff it is in the last paragraph |
| Illustrations.CaptionFormatIff | modules/illustrations.py:99-104 | a figure draws the format error iff its next paragraph does not parse as a caption, and it still counts as a figure |
| Illustrations.CaptionFormatOrigin | modules/illustrations.py:99-104 | every format error names a paragraph after a figure that does not parse as a caption |
| Illustrations.WrongNumberIff | modules/illustrations.py:110-118 | a captioned figure draws a numbering error iff its number differs from the closed-form expectation, and no other numbering error carries its ordinal |
| Illustrations.UnreferencedIff | modules/illustrations.py:128-132 | a parsed caption number draws an unreferenced error iff no in-text reference names it |
| Illustrations.NoUnreferencedError | modules/illustrations.py:128-132 | no document draws an unreferenced-figure error, because the reference scan of line 80 also runs over each caption, which names its own number |
| Illustrations.MissingListIff | modules/illustrations.py:135-137 | the missing-list error iff no paragraph opens with `приложение`, there is a figure, and no paragraph is a list title |
| Illustrations.ListNotInTocIff | modules/illustrations.py:135-142 | the not-in-contents error iff the rule applies, a list title exists, and the last one is not a case-insensitive substring of any captured line |
| Illustrations.NoListRuleWithoutFigures | modules/illustrations.py:135 | without figures, or with an appendix paragraph, no list error is reported |
| Appendices.Check | modules/appendices.py:21-170 | a header draws a style error iff its label is not of the style asked for, the alignment error iff it is not right-aligned, and the page-break error iff it is past paragraph 0 with no break before it; the other header rules in `Appendices.HeaderRulesIff`, the contents rule in `Appendices.TocErrorsSpec` |
| Appendices.AppendixHeader | modules/appendices.py:13 | a header yields an appendix label, the text after `Приложение` and its spaces |
| Appendices.HeaderIff | modules/appendices.py:13 | a text carries label l iff it is `Приложение`, a non-empty whitespace run, and l (a letter А–Я or digits) running to the end of the text; every other text has no label |
| Appendices.HeaderRoundTrip | modules/appendices.py:13 | `Приложение N` with a letter А–Я or digits reads back as N |
| Appendices.StyleErrors | modules/appendices.py:90-94 | the numeric style error iff the label is not all digits; the alpha style error iff it is not one letter А–Я; none for any other style |
| Appendices.HeaderNumberingSpec | modules/appendices.py:90-103 | for one header, the style error and the sequence error are independent, each present iff its own defect is |
| Appendices.HeaderLayoutSpec | modules/appendices.py:105-113 | the alignment error iff the header is not right-aligned; the page-break error iff there is no break and the header is not paragraph 0 |
| Appendices.TitledErrorsSpec | modules/appendices.py:115-138 | a missing or empty next paragraph draws the missing-title error alone; with a title, the position errors fire iff the header precedes the last bibliography or list title |
| Appendices.HeaderTitleSpec | modules/appendices.py:115-138 | the title and position errors of a header, among all its errors |
| Appendices.HeaderRulesIff | modules/appendices.py:78-138 | in the whole check, each header error appears exactly when its defect is present |
| Appendices.ContextOf | modules/appendices.py:51-63 | the bibliography and list positions are the last matching paragraphs; the headers are read off the stripped texts |
| Appendices.LetterSequenceEnds | modules/appendices.py:96-103 | in the alpha style the expected label is the character k code points after А, so from the 33rd header on no letter А–Я is in sequence |
| Appendices.OrdinalIsLabelIndex | modules/appendices.py:87-88 | the k-th header carries the k-th label the reference and contents rules see |
| Appendices.TocErrorsSpec | modules/appendices.py:146-168 | no requirement for no appendix; `Приложение` for one; each `Приложение N` for two to five; the range `Приложения first–last` for more |
| Appendices.ListedErrorsSpec | modules/appendices.py:164-168 | one error exactly per label whose `Приложение N` entry no captured line contains |
| Appendices.UnreferencedIff | modules/appendices.py:140-144 | a header label draws an unreferenced error iff no in-text reference names it |
| Appendices.HeaderReferencesItself | modules/appendices.py:13-15 | a header `Приложение N` is itself found as a reference to N |
| Appendices.NoUnreferencedError | modules/appendices.py:140-144 | no document draws an unreferenced-appendix error, because the reference scan of line 74 also runs over each header, which names its own label |
| Template.Make | modules/template.py:10-17 | a dict given with a recognised key is kept, a missing one takes the template default, and no checker receives an empty dict |
| Template.Or | modules/template.py:11-17 | a missing parameter dict, or one with none of the recognised keys, selects the template default; any other is kept |
| Template.Defaults | modules/template.py:11-17 | with no dicts: headings required, A4, Times New Roman 12 (24 half-points), GOST R 7.0.5-2008 |
| Template.LeftMarginDefaults | modules/template.py:12-15 | the template asks for a 2 cm left margin, but a page dict without margins falls back to the checker's 3 cm |
| Template.Apply | modules/template.py:19-34 | exactly four results, keyed structure, page_params, formatting, references, in that order |
| Template.ApplyAndReport | modules/template.py:36-38 | a report exists exactly when one is asked for, and it reports the returned results |
| Template.Report | modules/template.py:40-56 | the report opens with its title and closes with the total of the list-valued results |
| Template.SectionBullets | modules/template.py:47-55 | a list result writes one bullet line per error; a string result writes none |
| Template.ReportCountsBullets | modules/template.py:45-56 | the total equals the number of bullet lines when no message is itself a bullet |
| Template.ApplyReportCounts | modules/template.py:19-56 | the report of `apply` closes with a total that equals its number of error lines |
| Violations.Conclude | modules/structure.py:50 | `errors if errors else message`: the message iff the list is empty, otherwise exactly the list |
| Text.Strip | modules/structure.py:27 | the result is a slice of the text with only whitespace cut from either end; empty iff the text is all whitespace; otherwise starts and ends with a non-space |

## Left out

- File and XML input (python-docx, `document.xml`, `styles.xml`) is replaced by the `DocModel` datatypes. Paragraph text, style name, alignment, runs, drawings, page breaks, tables and sections arrive already read.
- Drawing detection in a paragraph's runs is the input flag `hasDrawing`, because it is an XPath query.
- The page-break search among a header's preceding siblings is the input flag `pageBreakBefore`, for the same reason. What that search can find is described under "Behaviour as written".
- Table-to-caption pairing uses an input per table, `parasBefore`: how many `w:p` elements precede it in document order, which is what `preceding::w:p[i+1]` tests. Paragraphs inside earlier tables count there, as in the source.
- The parameter guards of the table, figure and appendix checks (`isinstance` on `params` and `document`) are left out, because a typed model cannot receive a non-dict or a non-document.
- The three GOST entry grammars are parameters (`References.Grammars`). They are regular expressions with lazy groups; the model keeps only "matches one of three".
- Case mapping is an explicit Latin and Cyrillic (U+0400–U+045F) table rather than Python's full Unicode `upper`, `lower` and `isupper`. `\d` and `isdigit` are the ASCII digits. `isspace` and `strip` follow Python's whitespace set.
- Page sizes and margins are exact reals in centimetres, not IEEE doubles converted from EMU.
- PageParams.SectionErrorsSpec: states the tolerance on exact reals, so a measurement whose floating-point distance from 21.0 or 29.7 rounds across 0.1 can differ from the source.
- A section without a page size or margins (no `w:pgSz` or `w:pgMar`, or an absent attribute) is not modelled. python-docx then gives `None`, and `page_params.py:19-20` and `:28-37` raise `AttributeError` calling `.cm` on it. In the model every `Section` carries all six lengths.
- A `margins` dict missing one side (`margins.get` returning `None`, which makes the comparison raise) is not modelled; the margins parameter is all four sides or absent.
- A `w:sz` whose value is not an integer (`int(...)` raises) is not modelled; the size is an optional integer. The expected `font_size` is any real number of points.
- The `styles` argument of `FormattingCheck.check` is unused by the source and is not modelled.
- Formatting.ParagraphsErrorsSpec: states which reports exist and how many, not their order; the function itself produces them in document order.
- Message texts (f-strings, `%.2f`, the `", ".join` of missing sections) are left out; each `Violation` carries the values the message prints.
- The report's clock and file are left out: the time stamp `now` and the rendering of one error `show` are parameters, and the report is returned as its lines.
- Logging configuration is left out, as it has no effect on results.
- Template.Or: a parameter dict is modelled by the keys its checker reads, so a non-empty dict holding only unrecognised keys (such as `{"orientation": "portrait"}`) is indistinguishable from an empty one and is replaced by the template default, where Python keeps it and the checker falls back to its own defaults.
- `parser.py`, `xml_utils.py`, `main.py`, `ui.py` and the load test are not part of this model; they are I/O, GUI and process orchestration.

## Behaviour as written

These are behaviours of the code that a reader might not expect; the model keeps them:

- Structure: a later paragraph credited to a section overwrites the position recorded for it, so the last occurrence wins (`structure.py:30`).
- Structure: the order rule compares each found section with the previous found one in required order, and only when more than one section is found.
- Tables and figures, chapter mode: the counter is document-wide and is not reset per chapter (`tables.py:95-102`, `illustrations.py:111-118`). A caption is expected to read `chapter.k`, with k counting captions since the start of the document.
- The table caption-format error cannot fire, because only a paragraph that already matched the caption pattern is paired with a table (`Tables.NoCaptionFormatError`).
- Tables, figures and appendices: the unreferenced rule never fires. The reference scan (`tables.py:55`, `illustrations.py:80`, `appendices.py:74`) runs over every paragraph, the captions and headers included. A caption `Табл. N – …` or `Рис. N – …` is itself a reference `табл. N` or `рис. N`, and a header `Приложение N` is a reference `приложение N`, so every label is referenced by the paragraph that carries it (`Tables.NoUnreferencedError`, `Illustrations.NoUnreferencedError`, `Appendices.NoUnreferencedError`).
- The table of contents never closes. The branch meant to close it is tested only on an empty paragraph, and no exit phrase starts an empty text (`Patterns.TocNeverCloses`).
- Appendices in any style other than `numeric` are expected to be `А`, `Б`, `В`, … by code point. That sequence includes letters the standard skips, and it leaves А–Я after 32 headers (`Appendices.LetterSequenceEnds`).
- The template's `x or default` also replaces an empty dict by the template default. The template's left-margin default is 2 cm, not the checker's 3 cm (`Template.LeftMarginDefaults`).
- The bibliography, structure, page and formatting checks answer with a sentence when there is nothing to report. The table, figure and appendix checks return an empty list.
- Appendices: the page-break search looks for a `br` element among the header paragraph's preceding siblings (`appendices.py:110-111`). Those siblings are body-level elements (`w:p`, `w:tbl`, `w:sectPr`), and a `w:br` always sits inside a `w:r`, so the search never succeeds. Every appendix header after the first paragraph therefore draws the page-break error, whatever breaks the document holds. The model keeps the result of the search as the input flag `pageBreakBefore`, which for a document read by python-docx is always false.

=== FILE: appendices.dfy ===
/**
 * The appendices checker (modules/appendices.py). An appendix starts at a paragraph
 * reading exactly `Приложение N` (N one capital letter А–Я or a decimal number);
 * each header is checked for its numbering style, its place in the sequence, right
 * alignment, a page break, a thematic title in the next paragraph, and its position
 * after the bibliography and the list of illustrations, and every appendix must be
 * named by the table of contents. Every label is also looked up among the references
 * `приложение N` / `прил. N` of all paragraphs; since that scan includes the header
 * itself, which reads `Приложение N`, the lookup always succeeds (`NoUnreferencedError`).
 */
module Appendices {
  import opened Opt
  import opened Text
  import opened DocModel
  import opened Violations
  import opened Patterns

  const HeaderWord: string := "Приложение"
  const ReferenceKeywords: seq<string> := ["приложение", "прил."]
  const NumericStyle: string := "numeric"
  const AlphaStyle: string := "alpha"
  /** The plural that opens a range entry of the table of contents. */
  const PluralWord: string := "Приложения"
  /** More appendices than this are named in the table of contents as one range. */
  const MaxListed: nat := 5

  /** `Список источников`, `Список литературы`, `Литература`, `Bibliography`, `References`, `Список использованных источников`. */
  const ReferencesTitles: seq<seq<string>> := [
    ["список", "источников"],
    ["список", "литературы"],
    ["литература"],
    ["bibliography"],
    ["references"],
    ["список", "использованных", "источников"]
  ]

  /** The checker's parameters; `None` is a key absent from the parameter dict. */
  datatype Params = Params(appendixNumberStyle: Option<string>)

  function StyleOf(p: Params): string {
    p.appendixNumberStyle.GetOr(NumericStyle)
  }

  // ---------------------------------------------------------------------------
  // Headers

  /** A single capital letter А–Я. */
  predicate IsLetterLabel(l: string) {
    |l| == 1 && '\U{0410}' <= l[0] <= '\U{042F}'
  }

  /**
   * The label of a header: the stripped text is `Приложение` (this exact case),
   * whitespace, and a label that runs to the end of the text.
   */
  function AppendixHeader(s: string): (r: Option<string>)
    ensures r.Some? ==> IsAppendixLabel(r.value)
    ensures r.Some? ==> HeaderWord <= s && r.value <= s[|HeaderWord|..][SpaceRun(s[|HeaderWord|..])..]
  {
    if |HeaderWord| <= |s| && s[..|HeaderWord|] == HeaderWord then
      var rest := s[|HeaderWord|..];
      var found := rest[SpaceRun(rest)..];
      if SpaceRun(rest) > 0 && IsAppendixLabel(found) then Some(found) else None
    else None
  }

  /**
   * The header pattern exactly: a text carries label `l` iff it is `Приложение`, a
   * non-empty run of whitespace, and `l` running to the end of the text. Every other
   * text, including `Приложение 1 (продолжение)`, has no label.
   */
  lemma HeaderIff(s: string, l: string)
    ensures AppendixHeader(s) == Some(l) <==>
      IsAppendixLabel(l) && exists w :: |w| > 0 && IsBlank(w) && s == HeaderWord + w + l
  {
    if AppendixHeader(s) == Some(l) {
      var w := HeaderJoin(s, l);
    }
    if IsAppendixLabel(l) && exists w :: |w| > 0 && IsBlank(w) && s == HeaderWord + w + l {
      var w :| |w| > 0 && IsBlank(w) && s == HeaderWord + w + l;
      HeaderSplit(s, w, l);
    }
  }

  /** A text carrying label `l` is `Приложение`, the whitespace run `w`, and `l`. */
  lemma HeaderJoin(s: string, l: string) returns (w: string)
    requires AppendixHeader(s) == Some(l)
    ensures IsAppendixLabel(l) && |w| > 0 && IsBlank(w) && s == HeaderWord + w + l
  {
    var rest := s[|HeaderWord|..];
    w := rest[..SpaceRun(rest)];
    assert rest == w + l;
    assert s == s[..|HeaderWord|] + rest;
  }

  /** Reading `Приложение`, blanks `w` and a label `l` back: the space run is all of `w`. */
  lemma HeaderSplit(s: string, w: string, l: string)
    requires IsAppendixLabel(l) && |w| > 0 && IsBlank(w) && s == HeaderWord + w + l
    ensures AppendixHeader(s) == Some(l)
  {
    assert s[..|HeaderWord|] == HeaderWord;
    var rest := s[|HeaderWord|..];
    assert rest == w + l;
    assert !IsSpace(l[0]);
    SpaceRunOf(w, l);
    assert rest[|w|..] == l;
  }

  /** A header written `Приложение N` reads back as `N`. */
  lemma HeaderRoundTrip(l: string)
    requires IsAppendixLabel(l)
    ensures AppendixHeader(HeaderWord + " " + l) == Some(l)
  {
    var s := HeaderWord + " " + l;
    assert s[..|HeaderWord|] == HeaderWord;
    assert s[|HeaderWord|..] == " " + l;
    if IsLetterLabel(l) {
      assert !IsSpace(l[0]);
    } else {
      assert IsDigit(l[0]);
    }
    OneSpace(l);
  }

  /**
   * The label the counter expects of the `k`-th header (from 0): `k + 1` in the
   * numeric style; otherwise the character `k` code points after `А`.
   */
  predicate ExpectedLabel(style: string, k: nat, l: string) {
    if style == NumericStyle then l == NatToString(k + 1)
    else |l| == 1 && l[0] as int == 0x410 + k
  }

  /** The numbering-style rule: only the "numeric" and "alpha" styles are enforced. */
  function StyleErrors(style: string, p: nat, l: string): (r: seq<Violation>)
    ensures AppendixStyle(p, l, Numeric) in r <==> style == NumericStyle && !IsDigitString(l)
    ensures AppendixStyle(p, l, Alpha) in r <==> style == AlphaStyle && !IsLetterLabel(l)
    ensures forall v :: v in r ==> v.AppendixStyle? && v.paragraph == p && v.number == l
  {
    if style == NumericStyle && !IsDigitString(l) then [AppendixStyle(p, l, Numeric)]
    else if style == AlphaStyle && !IsLetterLabel(l) then [AppendixStyle(p, l, Alpha)]
    else []
  }

  /**
   * What the checker reads of each paragraph: the header label it carries, its
   * stripped text, its alignment and whether a page break precedes it; the style in
   * force; the last bibliography title and the last list-of-illustrations title.
   */
  datatype Context = Context(headers: seq<Option<string>>, texts: seq<string>, alignments: seq<Alignment>,
                             pageBreaks: seq<bool>, style: string,
                             referencesAt: Option<nat>, listAt: Option<nat>)
  {
    predicate Valid() {
      |headers| == |texts| == |alignments| == |pageBreaks|
    }
  }

  function ContextOf(doc: Document, params: Params): (x: Context)
    ensures x.Valid() && |x.texts| == |doc.paragraphs|
    ensures forall i :: 0 <= i < |doc.paragraphs| ==>
      && x.texts[i] == Strip(doc.paragraphs[i].text) && x.headers[i] == AppendixHeader(x.texts[i])
      && x.alignments[i] == doc.paragraphs[i].alignment && x.pageBreaks[i] == doc.paragraphs[i].pageBreakBefore
    ensures x.style == StyleOf(params)
    ensures x.referencesAt == LastMatching(x.texts, ReferencesTitles)
    ensures x.listAt == LastMatching(x.texts, IllustrationsListTitles)
  {
    var ps := doc.paragraphs;
    var texts := Texts(ps);
    Context(seq(|ps|, i requires 0 <= i < |ps| => AppendixHeader(texts[i])),
            texts,
            seq(|ps|, i requires 0 <= i < |ps| => ps[i].alignment),
            seq(|ps|, i requires 0 <= i < |ps| => ps[i].pageBreakBefore),
            StyleOf(params),
            LastMatching(texts, ReferencesTitles),
            LastMatching(texts, IllustrationsListTitles))
  }

  /** The header at `p` has a non-empty thematic title in the next paragraph. */
  predicate HasTitle(x: Context, p: nat)
    requires x.Valid()
  {
    p + 1 < |x.texts| && x.texts[p + 1] != ""
  }

  /** An appendix placed before the last bibliography title or the last list of illustrations. */
  function PositionErrors(x: Context, p: nat, l: string): (r: seq<Violation>)
    ensures AppendixBeforeReferences(l, p) in r <==> x.referencesAt.Some? && p < x.referencesAt.value
    ensures AppendixBeforeIllustrations(l, p) in r <==> x.listAt.Some? && p < x.listAt.value
    ensures forall v :: v in r ==> (v.AppendixBeforeReferences? || v.AppendixBeforeIllustrations?) && v.paragraph == p
  {
    (if x.referencesAt.Some? && p < x.referencesAt.value then [AppendixBeforeReferences(l, p)] else [])
      + (if x.listAt.Some? && p < x.listAt.value then [AppendixBeforeIllustrations(l, p)] else [])
  }

  /** The alignment and page-break rules; the first paragraph needs no page break. */
  function LayoutErrors(x: Context, p: nat, l: string): (r: seq<Violation>)
    requires x.Valid() && p < |x.texts|
    ensures AppendixNotRightAligned(l, p) in r <==> x.alignments[p] != Right
    ensures AppendixNoPageBreak(l, p) in r <==> !x.pageBreaks[p] && p > 0
    ensures forall v :: v in r ==> (v.AppendixNotRightAligned? || v.AppendixNoPageBreak?) && v.paragraph == p
  {
    (if x.alignments[p] != Right then [AppendixNotRightAligned(l, p)] else [])
      + (if !x.pageBreaks[p] && p > 0 then [AppendixNoPageBreak(l, p)] else [])
  }

  /** Without a title the header's check stops; with one, the title and the position rules apply. */
  function TitledErrors(x: Context, p: nat, l: string): seq<Violation>
    requires x.Valid() && p < |x.texts|
  {
    if !HasTitle(x, p) then [AppendixMissingTitle(l, p)]
    else TitleErrors(AppendixKind, l, p + 1, x.texts[p + 1], x.alignments[p + 1]) + PositionErrors(x, p, l)
  }

  /** The errors of the header at `p` with label `l`, the `k`-th header (from 0). */
  function HeaderErrors(x: Context, p: nat, l: string, k: nat): seq<Violation>
    requires x.Valid() && p < |x.texts|
  {
    StyleErrors(x.style, p, l)
      + (if !ExpectedLabel(x.style, k, l) then [AppendixWrongNumber(p, k, l)] else [])
      + LayoutErrors(x, p, l)
      + TitledErrors(x, p, l)
  }

  /** The headers before paragraph `p`: the counter advances on every header. */
  function CountHeaders(x: Context, p: nat): nat
    requires x.Valid() && p <= |x.texts|
  {
    if p == 0 then 0 else CountHeaders(x, p - 1) + (if x.headers[p - 1].Some? then 1 else 0)
  }

  function ParagraphErrors(x: Context, p: nat): seq<Violation>
    requires x.Valid() && p < |x.texts|
  {
    match x.headers[p]
    case None => []
    case Some(l) => HeaderErrors(x, p, l, CountHeaders(x, p))
  }

  function Parts(x: Context): (r: seq<seq<Violation>>)
    requires x.Valid()
    ensures |r| == |x.texts|
  {
    seq(|x.texts|, p requires 0 <= p < |x.texts| => ParagraphErrors(x, p))
  }

  /** The header labels from paragraph `p` on, in order. */
  function Labels(x: Context, p: nat): seq<string>
    requires x.Valid()
    decreases |x.texts| - p
  {
    if p >= |x.texts| then []
    else (match x.headers[p] case Some(l) => [l] case None => []) + Labels(x, p + 1)
  }

  function References(x: Context): set<string> {
    AllReferences(x.texts, ReferenceKeywords, AppendixShape)
  }

  // ---------------------------------------------------------------------------
  // The table of contents

  function SingleEntry(l: string): string {
    HeaderWord + " " + l
  }

  function RangeEntry(first: string, last: string): string {
    PluralWord + " " + first + [EnDash] + last
  }

  /** One error for each label, in order, whose entry the table of contents lacks. */
  function ListedErrors(labels: seq<string>, toc: seq<string>): seq<Violation>
    decreases |labels|
  {
    if |labels| == 0 then []
    else
      (if InToc(SingleEntry(labels[0]), toc) then [] else [AppendixNotInToc(SingleEntry(labels[0]))])
        + ListedErrors(labels[1..], toc)
  }

  /**
   * The table of contents must name one appendix as `Приложение`, two to five each
   * as `Приложение N`, and more as one range `Приложения first–last`.
   */
  function TocErrors(labels: seq<string>, toc: seq<string>): seq<Violation> {
    if |labels| == 0 then []
    else if |labels| == 1 then (if InToc(HeaderWord, toc) then [] else [AppendixNotInToc(HeaderWord)])
    else if |labels| > MaxListed then
      var entry := RangeEntry(labels[0], labels[|labels| - 1]);
      if InToc(entry, toc) then [] else [AppendixNotInToc(entry)]
    else ListedErrors(labels, toc)
  }

  function Errors(x: Context): seq<Violation>
    requires x.Valid()
  {
    var labels := Labels(x, 0);
    Flatten(Parts(x))
      + UnreferencedErrors(AppendixKind, labels, References(x))
      + TocErrors(labels, Toc(x.texts))
  }

  /**
   * `AppendicesCheck.check`: per-header errors in document order, the unreferenced
   * appendices, the contents rule. A header draws the style errors exactly when its
   * label is not of the style asked for, the alignment error exactly when it is not
   * right-aligned, and the page-break error exactly when it is not the first paragraph
   * and has no page break before it.
   */
  function Check(doc: Document, params: Params): (r: seq<Violation>)
    ensures forall p :: 0 <= p < |doc.paragraphs| && AppendixHeader(Strip(doc.paragraphs[p].text)).Some? ==>
      var l := AppendixHeader(Strip(doc.paragraphs[p].text)).value;
      && (AppendixStyle(p, l, Numeric) in r <==> StyleOf(params) == NumericStyle && !IsDigitString(l))
      && (AppendixStyle(p, l, Alpha) in r <==> StyleOf(params) == AlphaStyle && !IsLetterLabel(l))
      && (AppendixNotRightAligned(l, p) in r <==> doc.paragraphs[p].alignment != Right)
      && (AppendixNoPageBreak(l, p) in r <==> !doc.paragraphs[p].pageBreakBefore && p > 0)
  {
    var x := ContextOf(doc, params);
    AllHeaderRulesIff(x);
    Errors(x)
  }

  // ---------------------------------------------------------------------------
  // Properties

  /** Errors that a header rule reports, naming the header's paragraph. */
  predicate HeaderRule(v: Violation) {
    || v.AppendixStyle? || v.AppendixWrongNumber? || v.AppendixNotRightAligned? || v.AppendixNoPageBreak?
    || v.AppendixMissingTitle? || v.AppendixBeforeReferences? || v.AppendixBeforeIllustrations?
  }

  /**
   * A missing title is reported alone; with a title, the position rules report an
   * appendix before the last bibliography or list-of-illustrations title.
   */
  lemma TitledErrorsSpec(x: Context, p: nat, l: string)
    requires x.Valid() && p < |x.texts|
    ensures var r := TitledErrors(x, p, l);
      && (AppendixMissingTitle(l, p) in r <==> !HasTitle(x, p))
      && (AppendixBeforeReferences(l, p) in r <==>
            HasTitle(x, p) && x.referencesAt.Some? && p < x.referencesAt.value)
      && (AppendixBeforeIllustrations(l, p) in r <==>
            HasTitle(x, p) && x.listAt.Some? && p < x.listAt.value)
  {
    if HasTitle(x, p) {
      var t := TitleErrors(AppendixKind, l, p + 1, x.texts[p + 1], x.alignments[p + 1]);
      var q := PositionErrors(x, p, l);
      TitleErrorsTags(AppendixKind, l, p + 1, x.texts[p + 1], x.alignments[p + 1]);
      assert TitledErrors(x, p, l) == t + q;
      assert AppendixMissingTitle(l, p) !in t;
      assert AppendixBeforeReferences(l, p) !in t;
      assert AppendixBeforeIllustrations(l, p) !in t;
    }
  }

  /** Errors the title part of a header check can report. */
  predicate TitledRule(v: Violation) {
    || v.AppendixMissingTitle? || v.AppendixBeforeReferences? || v.AppendixBeforeIllustrations?
    || v.TitleNotCapitalised? || v.TitleEndsWithPeriod? || v.NotCentred?
  }

  /** The title part reports title and position errors only, and its header-rule errors name `p`. */
  lemma TitledErrorsTags(x: Context, p: nat, l: string)
    requires x.Valid() && p < |x.texts|
    ensures forall v :: v in TitledErrors(x, p, l) ==> TitledRule(v)
    ensures forall v :: v in TitledErrors(x, p, l) && HeaderRule(v) ==> v.paragraph == p
  {
    if HasTitle(x, p) {
      var t := TitleErrors(AppendixKind, l, p + 1, x.texts[p + 1], x.alignments[p + 1]);
      TitleErrorsTags(AppendixKind, l, p + 1, x.texts[p + 1], x.alignments[p + 1]);
      assert TitledErrors(x, p, l) == t + PositionErrors(x, p, l);
    }
  }

  /** The numbering rules of a header report exactly a label out of style and a label out of sequence. */
  lemma HeaderNumberingSpec(x: Context, p: nat, l: string, k: nat)
    requires x.Valid() && p < |x.texts|
    ensures var r := HeaderErrors(x, p, l, k);
      && (AppendixStyle(p, l, Numeric) in r <==> x.style == NumericStyle && !IsDigitString(l))
      && (AppendixStyle(p, l, Alpha) in r <==> x.style == AlphaStyle && !IsLetterLabel(l))
      && (AppendixWrongNumber(p, k, l) in r <==> !ExpectedLabel(x.style, k, l))
  {
    var s := StyleErrors(x.style, p, l);
    var n := if !ExpectedLabel(x.style, k, l) then [AppendixWrongNumber(p, k, l)] else [];
    var a := LayoutErrors(x, p, l);
    var t := TitledErrors(x, p, l);
    assert HeaderErrors(x, p, l, k) == s + n + a + t;
    TitledErrorsTags(x, p, l);
    var numeric, alpha, wrong := AppendixStyle(p, l, Numeric), AppendixStyle(p, l, Alpha), AppendixWrongNumber(p, k, l);
    assert !TitledRule(numeric) && !TitledRule(alpha) && !TitledRule(wrong);
    assert numeric !in n + a + t && alpha !in n + a + t;
    assert wrong !in s && wrong !in a + t;
  }

  /** The layout rules of a header report exactly a header not aligned right and a missing page break (not for the first paragraph). */
  lemma HeaderLayoutSpec(x: Context, p: nat, l: string, k: nat)
    requires x.Valid() && p < |x.texts|
    ensures var r := HeaderErrors(x, p, l, k);
      && (AppendixNotRightAligned(l, p) in r <==> x.alignments[p] != Right)
      && (AppendixNoPageBreak(l, p) in r <==> !x.pageBreaks[p] && p > 0)
  {
    var s := StyleErrors(x.style, p, l);
    var n := if !ExpectedLabel(x.style, k, l) then [AppendixWrongNumber(p, k, l)] else [];
    var a := LayoutErrors(x, p, l);
    var t := TitledErrors(x, p, l);
    assert HeaderErrors(x, p, l, k) == s + n + a + t;
    TitledErrorsTags(x, p, l);
    var aligned, broken := AppendixNotRightAligned(l, p), AppendixNoPageBreak(l, p);
    assert !TitledRule(aligned) && !TitledRule(broken);
    assert aligned !in s + n && aligned !in t;
    assert broken !in s + n && broken !in t;
  }

  /** A header reports a missing title exactly without one, and the position rules only with one. */
  lemma HeaderTitleSpec(x: Context, p: nat, l: string, k: nat)
    requires x.Valid() && p < |x.texts|
    ensures var r := HeaderErrors(x, p, l, k);
      && (AppendixMissingTitle(l, p) in r <==> !HasTitle(x, p))
      && (AppendixBeforeReferences(l, p) in r <==>
            HasTitle(x, p) && x.referencesAt.Some? && p < x.referencesAt.value)
      && (AppendixBeforeIllustrations(l, p) in r <==>
            HasTitle(x, p) && x.listAt.Some? && p < x.listAt.value)
  {
    var s := StyleErrors(x.style, p, l);
    var n := if !ExpectedLabel(x.style, k, l) then [AppendixWrongNumber(p, k, l)] else [];
    var a := LayoutErrors(x, p, l);
    var t := TitledErrors(x, p, l);
    assert HeaderErrors(x, p, l, k) == s + n + a + t;
    TitledErrorsSpec(x, p, l);
  }

  /** Every error of a header is a header-rule or title error, and the header rules name `p`. */
  lemma HeaderErrorsTags(x: Context, p: nat, l: string, k: nat)
    requires x.Valid() && p < |x.texts|
    ensures forall v :: v in HeaderErrors(x, p, l, k) ==> !v.Unreferenced? && !v.AppendixNotInToc?
    ensures forall v :: v in HeaderErrors(x, p, l, k) && HeaderRule(v) ==> v.paragraph == p
  {
    var s := StyleErrors(x.style, p, l);
    var n := if !ExpectedLabel(x.style, k, l) then [AppendixWrongNumber(p, k, l)] else [];
    var a := LayoutErrors(x, p, l);
    var t := TitledErrors(x, p, l);
    assert HeaderErrors(x, p, l, k) == s + n + a + t;
    TitledErrorsTags(x, p, l);
    forall v | v in HeaderErrors(x, p, l, k)
      ensures !v.Unreferenced? && !v.AppendixNotInToc?
    {
      if v in t {
        assert TitledRule(v);
      }
    }
  }

  /** `v` is among the errors of paragraph `p`. */
  predicate InParagraph(x: Context, p: nat, v: Violation)
    requires x.Valid() && p < |x.texts|
  {
    v in Parts(x)[p]
  }

  /** The per-header errors are exactly the errors of some paragraph. */
  lemma ScanSpec(x: Context, v: Violation)
    requires x.Valid()
    ensures v in Flatten(Parts(x)) <==> exists p :: 0 <= p < |x.texts| && InParagraph(x, p, v)
  {
    var parts := Parts(x);
    FlattenSpec(parts, v);
    if v in Flatten(parts) {
      var p :| 0 <= p < |parts| && v in parts[p];
      assert InParagraph(x, p, v);
    }
    if exists p :: 0 <= p < |x.texts| && InParagraph(x, p, v) {
      var p :| 0 <= p < |x.texts| && InParagraph(x, p, v);
      assert v in parts[p];
    }
  }

  /** An error of paragraph `q` comes from a header there; a header-rule error names `q`. */
  lemma InParagraphTags(x: Context, q: nat, v: Violation)
    requires x.Valid() && q < |x.texts| && InParagraph(x, q, v)
    ensures x.headers[q].Some?
    ensures !v.Unreferenced? && !v.AppendixNotInToc?
    ensures HeaderRule(v) ==> v.paragraph == q
  {
    assert Parts(x)[q] == ParagraphErrors(x, q);
    HeaderErrorsTags(x, q, x.headers[q].value, CountHeaders(x, q));
  }

  /** Every error outside the per-header scan is an unreferenced appendix or a missing contents entry. */
  lemma ErrorsSplit(x: Context, v: Violation)
    requires x.Valid() && v in Errors(x) && !v.Unreferenced? && !v.AppendixNotInToc?
    ensures v in Flatten(Parts(x))
  {
    UnreferencedSpec(AppendixKind, Labels(x, 0), References(x), v);
    TocErrorsTags(Labels(x, 0), Toc(x.texts));
  }

  /** A header-rule error naming paragraph `p` is reported exactly when paragraph `p` reports it. */
  lemma HeaderRuleAt(x: Context, p: nat, v: Violation)
    requires x.Valid() && p < |x.texts|
    requires HeaderRule(v) && v.paragraph == p
    ensures v in Errors(x) <==> InParagraph(x, p, v)
  {
    ScanSpec(x, v);
    if v in Errors(x) {
      ErrorsSplit(x, v);
      var q :| 0 <= q < |x.texts| && InParagraph(x, q, v);
      InParagraphTags(x, q, v);
    }
  }

  /**
   * The header rules as the whole check reports them: for the header at `p`, the
   * `k`-th from 0, each error appears exactly when its defect is present.
   */
  lemma HeaderRulesIff(x: Context, p: nat)
    requires x.Valid() && p < |x.texts| && x.headers[p].Some?
    ensures var l := x.headers[p].value;
      var k := CountHeaders(x, p);
      var e := Errors(x);
      && (AppendixStyle(p, l, Numeric) in e <==> x.style == NumericStyle && !IsDigitString(l))
      && (AppendixStyle(p, l, Alpha) in e <==> x.style == AlphaStyle && !IsLetterLabel(l))
      && (AppendixWrongNumber(p, k, l) in e <==> !ExpectedLabel(x.style, k, l))
      && (AppendixNotRightAligned(l, p) in e <==> x.alignments[p] != Right)
      && (AppendixNoPageBreak(l, p) in e <==> !x.pageBreaks[p] && p > 0)
      && (AppendixMissingTitle(l, p) in e <==> !HasTitle(x, p))
      && (AppendixBeforeReferences(l, p) in e <==>
            HasTitle(x, p) && x.referencesAt.Some? && p < x.referencesAt.value)
      && (AppendixBeforeIllustrations(l, p) in e <==>
            HasTitle(x, p) && x.listAt.Some? && p < x.listAt.value)
  {
    var l := x.headers[p].value;
    var k := CountHeaders(x, p);
    HeaderNumberingSpec(x, p, l, k);
    HeaderLayoutSpec(x, p, l, k);
    HeaderTitleSpec(x, p, l, k);
    assert Parts(x)[p] == HeaderErrors(x, p, l, k);
    HeaderRuleAt(x, p, AppendixStyle(p, l, Numeric));
    HeaderRuleAt(x, p, AppendixStyle(p, l, Alpha));
    HeaderRuleAt(x, p, AppendixWrongNumber(p, k, l));
    HeaderRuleAt(x, p, AppendixNotRightAligned(l, p));
    HeaderRuleAt(x, p, AppendixNoPageBreak(l, p));
    HeaderRuleAt(x, p, AppendixMissingTitle(l, p));
    HeaderRuleAt(x, p, AppendixBeforeReferences(l, p));
    HeaderRuleAt(x, p, AppendixBeforeIllustrations(l, p));
  }

  /** The style, alignment and page-break parts of `HeaderRulesIff`, for every header at once. */
  lemma AllHeaderRulesIff(x: Context)
    requires x.Valid()
    ensures forall p :: 0 <= p < |x.texts| && x.headers[p].Some? ==>
      var l := x.headers[p].value;
      && (AppendixStyle(p, l, Numeric) in Errors(x) <==> x.style == NumericStyle && !IsDigitString(l))
      && (AppendixStyle(p, l, Alpha) in Errors(x) <==> x.style == AlphaStyle && !IsLetterLabel(l))
      && (AppendixNotRightAligned(l, p) in Errors(x) <==> x.alignments[p] != Right)
      && (AppendixNoPageBreak(l, p) in Errors(x) <==> !x.pageBreaks[p] && p > 0)
  {
    forall p | 0 <= p < |x.texts| && x.headers[p].Some?
      ensures var l := x.headers[p].value;
        && (AppendixStyle(p, l, Numeric) in Errors(x) <==> x.style == NumericStyle && !IsDigitString(l))
        && (AppendixStyle(p, l, Alpha) in Errors(x) <==> x.style == AlphaStyle && !IsLetterLabel(l))
        && (AppendixNotRightAligned(l, p) in Errors(x) <==> x.alignments[p] != Right)
        && (AppendixNoPageBreak(l, p) in Errors(x) <==> !x.pageBreaks[p] && p > 0)
    {
      HeaderRulesIff(x, p);
    }
  }

  /**
   * The counter and the label list agree: the header at `p` is entry
   * `CountHeaders(x, p) - CountHeaders(x, q)` of the labels from paragraph `q` on.
   */
  lemma {:induction false} LabelsFrom(x: Context, q: nat, p: nat, l: string)
    requires x.Valid() && q <= p < |x.texts| && x.headers[p] == Some(l)
    ensures CountHeaders(x, q) <= CountHeaders(x, p)
    ensures CountHeaders(x, p) - CountHeaders(x, q) < |Labels(x, q)|
    ensures Labels(x, q)[CountHeaders(x, p) - CountHeaders(x, q)] == l
    decreases p - q
  {
    var head: seq<string> := match x.headers[q] case Some(m) => [m] case None => [];
    assert Labels(x, q) == head + Labels(x, q + 1);
    if q < p {
      LabelsFrom(x, q + 1, p, l);
      var k := CountHeaders(x, p) - CountHeaders(x, q + 1);
      assert CountHeaders(x, q + 1) == CountHeaders(x, q) + |head|;
      assert Labels(x, q)[|head| + k] == Labels(x, q + 1)[k];
    } else {
      assert head == [l];
    }
  }

  /** The `k`-th header (from 0) carries the `k`-th label the reference and contents rules see. */
  lemma OrdinalIsLabelIndex(x: Context, p: nat, l: string)
    requires x.Valid() && p < |x.texts| && x.headers[p] == Some(l)
    ensures CountHeaders(x, p) < |Labels(x, 0)| && Labels(x, 0)[CountHeaders(x, p)] == l
  {
    LabelsFrom(x, 0, p, l);
  }

  /**
   * In any other style the headers must run А, Б, В, … by code point, so from the
   * 33rd header on no label written А–Я is ever in sequence.
   */
  lemma LetterSequenceEnds(style: string, k: nat, l: string)
    requires style != NumericStyle && k >= 32 && IsLetterLabel(l)
    ensures !ExpectedLabel(style, k, l)
  {
  }

  /** Every error of the contents rule names a missing entry. */
  lemma TocErrorsTags(labels: seq<string>, toc: seq<string>)
    ensures forall v :: v in TocErrors(labels, toc) ==> v.AppendixNotInToc?
  {
    if 1 < |labels| <= MaxListed {
      ListedErrorsSpec(labels, toc);
    }
  }

  /** Listing rule: one error per label, in order, whose `Приложение N` entry is missing. */
  lemma {:induction false} ListedErrorsSpec(labels: seq<string>, toc: seq<string>)
    ensures forall v :: v in ListedErrors(labels, toc) ==> v.AppendixNotInToc?
    ensures forall l :: AppendixNotInToc(SingleEntry(l)) in ListedErrors(labels, toc) <==>
      l in labels && !InToc(SingleEntry(l), toc)
    decreases |labels|
  {
    if |labels| > 0 {
      ListedErrorsSpec(labels[1..], toc);
      forall l
        ensures AppendixNotInToc(SingleEntry(l)) in ListedErrors(labels, toc) <==>
          l in labels && !InToc(SingleEntry(l), toc)
      {
        SingleEntryInjective(l, labels[0]);
        assert l in labels <==> l == labels[0] || l in labels[1..];
      }
    }
  }

  lemma SingleEntryInjective(a: string, b: string)
    ensures SingleEntry(a) == SingleEntry(b) ==> a == b
  {
    if SingleEntry(a) == SingleEntry(b) {
      assert a == SingleEntry(a)[|HeaderWord| + 1..];
      assert b == SingleEntry(b)[|HeaderWord| + 1..];
    }
  }

  /**
   * The contents rule by count: one appendix needs `Приложение`, two to five need
   * `Приложение N` each, more need the range from the first label to the last.
   */
  lemma TocErrorsSpec(labels: seq<string>, toc: seq<string>)
    ensures |labels| == 0 ==> TocErrors(labels, toc) == []
    ensures |labels| == 1 ==> (TocErrors(labels, toc) == [] <==> InToc(HeaderWord, toc))
    ensures |labels| > MaxListed ==>
      (TocErrors(labels, toc) == [] <==> InToc(RangeEntry(labels[0], labels[|labels| - 1]), toc))
    ensures 1 < |labels| <= MaxListed ==> forall l ::
      AppendixNotInToc(SingleEntry(l)) in TocErrors(labels, toc) <==> l in labels && !InToc(SingleEntry(l), toc)
  {
    ListedErrorsSpec(labels, toc);
  }

  /** An appendix draws an unreferenced error exactly when no reference names its label. */
  lemma UnreferencedIff(x: Context, l: string)
    requires x.Valid()
    ensures Unreferenced(AppendixKind, l) in Errors(x) <==> l in Labels(x, 0) && l !in References(x)
  {
    var v := Unreferenced(AppendixKind, l);
    ScanSpec(x, v);
    UnreferencedSpec(AppendixKind, Labels(x, 0), References(x), v);
    TocErrorsTags(Labels(x, 0), Toc(x.texts));
    forall p | 0 <= p < |x.texts|
      ensures !InParagraph(x, p, v)
    {
      if InParagraph(x, p, v) {
        InParagraphTags(x, p, v);
      }
    }
  }

  /** The header word is one of the reference keywords, and the keywords are lower case and unnested. */
  lemma KeywordFacts()
    ensures Lower(HeaderWord) == "приложение" && "приложение" in ReferenceKeywords && Unnested(ReferenceKeywords, "приложение")
    ensures forall k :: 0 <= k < |ReferenceKeywords| ==> Lower(ReferenceKeywords[k]) == ReferenceKeywords[k]
  {
    assert Lower(HeaderWord) == "приложение";
    assert Lower("прил.") == "прил.";
    assert "приложение"[4] != "прил."[4];
  }

  /** Every appendix label from paragraph `p` on is found by the reference scan of its own header. */
  lemma {:induction false} LabelsReferenced(x: Context, p: nat)
    requires x.Valid()
    requires forall i :: 0 <= i < |x.headers| && x.headers[i].Some? ==>
      x.headers[i].value in FindLabels(x.texts[i], ReferenceKeywords, AppendixShape)
    ensures forall l :: l in Labels(x, p) ==> l in References(x)
    decreases |x.texts| - p
  {
    if p < |x.texts| {
      LabelsReferenced(x, p + 1);
      if x.headers[p].Some? {
        AllReferencesSpec(x.texts, ReferenceKeywords, AppendixShape, x.headers[p].value);
      }
    }
  }

  /** A header `Приложение N` is itself a reference `приложение N`. */
  lemma HeaderReferencesItself(s: string, l: string)
    requires AppendixHeader(s) == Some(l)
    ensures l in FindLabels(s, ReferenceKeywords, AppendixShape)
  {
    HeaderIff(s, l);
    var w :| |w| > 0 && IsBlank(w) && s == HeaderWord + w + l;
    KeywordFacts();
    assert LabelEndsAt(AppendixShape, l, "");
    ReferenceFound(ReferenceKeywords, HeaderWord, "приложение", AppendixShape, w, l, "");
    assert s == HeaderWord + w + l + "";
  }

  /**
   * The unreferenced rule never fires: the scan that collects references runs over
   * every paragraph, the header included, and a header `Приложение N` is itself a
   * reference `приложение N`.
   */
  lemma NoUnreferencedError(doc: Document, params: Params)
    ensures forall l :: Unreferenced(AppendixKind, l) !in Check(doc, params)
  {
    var x := ContextOf(doc, params);
    forall i | 0 <= i < |x.headers| && x.headers[i].Some?
      ensures x.headers[i].value in FindLabels(x.texts[i], ReferenceKeywords, AppendixShape)
    {
      HeaderReferencesItself(x.texts[i], x.headers[i].value);
    }
    LabelsReferenced(x, 0);
    forall l
      ensures Unreferenced(AppendixKind, l) !in Check(doc, params)
    {
      UnreferencedIff(x, l);
    }
  }
}

=== FILE: document.dfy ===
/**
 * The read-only document the checkers walk. Decoding the word-processing file is
 * not part of this model: a `Document` is what the decoder hands over, with the
 * facts the checkers read through XPath (drawings, page breaks, the position of a
 * table among the paragraphs) supplied as plain fields.
 */
module DocModel {
  import opened Opt

  /** `WD_ALIGN_PARAGRAPH` as far as the checkers distinguish it; `Unset` is python-docx's `None`. */
  datatype Alignment = Unset | Left | Center | Right | Justify | OtherAlignment

  /**
   * One `w:r`. `font` is the `w:ascii` attribute of its `w:rFonts`, `halfPoints` the
   * `w:val` of its `w:sz`; a run without `w:rPr` has neither.
   */
  datatype Run = Run(font: Option<string>, halfPoints: Option<int>)

  /**
   * One body paragraph: its text, style name and alignment as python-docx reports
   * them, whether one of its runs holds a `w:drawing` or `w:pict`, whether the
   * XPath page-break search before it succeeds, and its runs.
   */
  datatype Paragraph = Paragraph(
    text: string,
    style: string,
    alignment: Alignment,
    hasDrawing: bool,
    pageBreakBefore: bool,
    runs: seq<Run>)

  /**
   * A table: the text of each cell, row by row, and the number of `w:p` elements
   * that precede it in document order (what the XPath `preceding::w:p` axis counts).
   */
  datatype Table = Table(rows: seq<seq<string>>, parasBefore: nat)

  /** A page section: page size and the four margins, in centimetres. */
  datatype Section = Section(
    width: real,
    height: real,
    left: real,
    right: real,
    top: real,
    bottom: real)

  datatype Document = Document(
    paragraphs: seq<Paragraph>,
    tables: seq<Table>,
    sections: seq<Section>)
}

=== FILE: formatting.dfy ===
/**
 * The run formatting checker (modules/formatting.py): every run of every paragraph
 * of the body XML is compared with the expected font and size. A run is reported
 * only when it names a different font or a different size and its paragraph has
 * visible text; the page number is an estimate of five paragraphs per page.
 *
 * The paragraphs this checker receives are every `w:p` of the body XML in document
 * order, including those inside table cells and text boxes, and a paragraph's text
 * is the concatenation of its `w:t` elements only (no tabs or breaks).
 */
module Formatting {
  import opened Opt
  import opened Text
  import opened DocModel
  import opened Violations

  const PassedMessage: string := "Formatting check passed"
  const DefaultFont: string := "Times New Roman"
  const DefaultFontSize: real := 12.0
  /** How many characters of the paragraph's stripped text a report quotes. */
  const ExcerptLength: nat := 50

  /**
   * The checker's parameters; `None` is a key absent from the parameter dict. The
   * size is any number of points, so a fractional size such as 10.5 expects 21
   * half-points.
   */
  datatype Params = Params(font: Option<string>, fontSize: Option<real>)

  function ExpectedFont(p: Params): string {
    p.font.GetOr(DefaultFont)
  }

  /** The expected size in half-points, the unit of `w:sz`. */
  function ExpectedHalfPoints(p: Params): real {
    2.0 * p.fontSize.GetOr(DefaultFontSize)
  }

  /** Absent keys fall back to Times New Roman at 12 points, that is 24 half-points. */
  lemma DefaultParams()
    ensures ExpectedFont(Params(None, None)) == "Times New Roman"
    ensures ExpectedHalfPoints(Params(None, None)) == 24.0
  {
  }

  /** A fractional point size is doubled exactly: at 10.5 points a 21 half-point run passes and a 22 one does not. */
  lemma FractionalSize()
    ensures ExpectedHalfPoints(Params(None, Some(10.5))) == 21.0
    ensures !WrongSize(Run(None, Some(21)), ExpectedHalfPoints(Params(None, Some(10.5))))
    ensures WrongSize(Run(None, Some(22)), ExpectedHalfPoints(Params(None, Some(10.5))))
  {
  }

  /** The estimated page of the paragraph at 1-based `position`. */
  function PageOf(position: nat): nat {
    position / 5 + 1
  }

  /**
   * The first page holds positions 1 to 4 and every later page five positions:
   * page `p` is exactly positions `5 * (p - 1)` to `5 * p - 1`.
   */
  lemma PageOfRange(position: nat, p: nat)
    requires position >= 1
    ensures PageOf(position) == p <==> p >= 1 && 5 * (p - 1) <= position < 5 * p
  {
  }

  /** Later paragraphs never sit on earlier pages. */
  lemma PageOfMonotone(a: nat, b: nat)
    requires a <= b
    ensures 1 <= PageOf(a) <= PageOf(b)
  {
  }

  /** The run names a font, the name is not empty, and it differs from the expected one. */
  predicate WrongFont(r: Run, font: string) {
    r.font.Some? && r.font.value != "" && r.font.value != font
  }

  /** The run gives a size, the size is not zero, and it differs from the expected one. */
  predicate WrongSize(r: Run, halfPoints: real) {
    r.halfPoints.Some? && r.halfPoints.value != 0 && r.halfPoints.value as real != halfPoints
  }

  predicate Flagged(r: Run, font: string, halfPoints: real) {
    WrongFont(r, font) || WrongSize(r, halfPoints)
  }

  /** At most the first fifty characters of the paragraph's stripped text. */
  function Excerpt(text: string): (e: string)
    ensures e <= Strip(text)
    ensures |e| == if |Strip(text)| <= ExcerptLength then |Strip(text)| else ExcerptLength
  {
    var t := Strip(text);
    if |t| <= ExcerptLength then t else t[..ExcerptLength]
  }

  /** The report for a flagged run, carrying only the wrong settings. */
  function Report(page: nat, r: Run, excerpt: string, font: string, halfPoints: real): Violation {
    RunFormat(
      page,
      if WrongFont(r, font) then r.font else None,
      if WrongSize(r, halfPoints) then r.halfPoints else None,
      excerpt)
  }

  /** Reports name a setting exactly when that setting is wrong, and always name one. */
  lemma ReportNamesWrongSettings(page: nat, r: Run, excerpt: string, font: string, halfPoints: real)
    requires Flagged(r, font, halfPoints)
    ensures var v := Report(page, r, excerpt, font, halfPoints);
      && (v.wrongFont.Some? <==> WrongFont(r, font))
      && (v.wrongHalfPoints.Some? <==> WrongSize(r, halfPoints))
      && (v.wrongFont.Some? || v.wrongHalfPoints.Some?)
      && (v.wrongFont.Some? ==> v.wrongFont.value != font)
      && (v.wrongHalfPoints.Some? ==> v.wrongHalfPoints.value as real != halfPoints)
  {
  }

  /** The reports for the runs of one paragraph, in run order. */
  function RunsErrors(runs: seq<Run>, page: nat, excerpt: string, font: string, halfPoints: real): seq<Violation>
    decreases |runs|
  {
    if |runs| == 0 then []
    else
      (if Flagged(runs[0], font, halfPoints) then [Report(page, runs[0], excerpt, font, halfPoints)] else [])
        + RunsErrors(runs[1..], page, excerpt, font, halfPoints)
  }

  /** How many runs are flagged. */
  function CountFlagged(runs: seq<Run>, font: string, halfPoints: real): (n: nat)
    ensures n <= |runs|
    decreases |runs|
  {
    if |runs| == 0 then 0
    else (if Flagged(runs[0], font, halfPoints) then 1 else 0) + CountFlagged(runs[1..], font, halfPoints)
  }

  /** One report per flagged run, and a report exactly for the flagged runs. */
  lemma {:induction false} RunsErrorsSpec(runs: seq<Run>, page: nat, excerpt: string, font: string, halfPoints: real)
    ensures |RunsErrors(runs, page, excerpt, font, halfPoints)| == CountFlagged(runs, font, halfPoints)
    ensures forall v :: v in RunsErrors(runs, page, excerpt, font, halfPoints) <==>
      exists j :: 0 <= j < |runs| && Flagged(runs[j], font, halfPoints) && v == Report(page, runs[j], excerpt, font, halfPoints)
    decreases |runs|
  {
    if |runs| > 0 {
      RunsErrorsSpec(runs[1..], page, excerpt, font, halfPoints);
      forall v | v in RunsErrors(runs[1..], page, excerpt, font, halfPoints)
        ensures exists j :: 0 <= j < |runs| && Flagged(runs[j], font, halfPoints) && v == Report(page, runs[j], excerpt, font, halfPoints)
      {
        var j :| 0 <= j < |runs| - 1 && Flagged(runs[1..][j], font, halfPoints) && v == Report(page, runs[1..][j], excerpt, font, halfPoints);
        assert runs[1..][j] == runs[j + 1];
      }
      forall v | exists j :: 0 <= j < |runs| && Flagged(runs[j], font, halfPoints) && v == Report(page, runs[j], excerpt, font, halfPoints)
        ensures v in RunsErrors(runs, page, excerpt, font, halfPoints)
      {
        var j :| 0 <= j < |runs| && Flagged(runs[j], font, halfPoints) && v == Report(page, runs[j], excerpt, font, halfPoints);
        if j > 0 {
          assert runs[1..][j - 1] == runs[j];
        }
      }
    }
  }

  /** A flagged run is reported. */
  lemma {:induction false} RunsErrorsComplete(runs: seq<Run>, page: nat, excerpt: string, font: string, halfPoints: real, j: nat)
    requires j < |runs| && Flagged(runs[j], font, halfPoints)
    ensures Report(page, runs[j], excerpt, font, halfPoints) in RunsErrors(runs, page, excerpt, font, halfPoints)
    decreases j
  {
    if j > 0 {
      assert runs[1..][j - 1] == runs[j];
      RunsErrorsComplete(runs[1..], page, excerpt, font, halfPoints, j - 1);
    }
  }

  /** The reports of the paragraph at 1-based `position`: none when its text is blank. */
  function ParagraphErrors(p: Paragraph, position: nat, font: string, halfPoints: real): seq<Violation> {
    if IsBlank(p.text) then []
    else RunsErrors(p.runs, PageOf(position), Excerpt(p.text), font, halfPoints)
  }

  /** The reports of `paras`, the first of which is at 1-based `first`. */
  function ParagraphsErrors(paras: seq<Paragraph>, first: nat, font: string, halfPoints: real): seq<Violation>
    decreases |paras|
  {
    if |paras| == 0 then []
    else ParagraphErrors(paras[0], first, font, halfPoints) + ParagraphsErrors(paras[1..], first + 1, font, halfPoints)
  }

  function Errors(paras: seq<Paragraph>, params: Params): seq<Violation> {
    ParagraphsErrors(paras, 1, ExpectedFont(params), ExpectedHalfPoints(params))
  }

  /** The run `j` of paragraph `i` (0-based) of `paras` is reported. */
  predicate ReportedAt(paras: seq<Paragraph>, i: int, j: int, font: string, halfPoints: real)
  {
    && 0 <= i < |paras|
    && !IsBlank(paras[i].text)
    && 0 <= j < |paras[i].runs|
    && Flagged(paras[i].runs[j], font, halfPoints)
  }

  /** `v` is the report for run `j` of paragraph `i` of `paras`, whose first paragraph is at `first`. */
  predicate ReportOf(paras: seq<Paragraph>, first: nat, i: int, j: int, font: string, halfPoints: real, v: Violation) {
    && ReportedAt(paras, i, j, font, halfPoints)
    && v == Report(PageOf(first + i), paras[i].runs[j], Excerpt(paras[i].text), font, halfPoints)
  }

  /** Every report belongs to a flagged run of a paragraph with visible text. */
  lemma {:induction false} ParagraphsErrorsSound(paras: seq<Paragraph>, first: nat, font: string, halfPoints: real, v: Violation)
    requires v in ParagraphsErrors(paras, first, font, halfPoints)
    ensures exists i, j :: ReportOf(paras, first, i, j, font, halfPoints, v)
    decreases |paras|
  {
    var p := paras[0];
    var rest := paras[1..];
    if v in ParagraphErrors(p, first, font, halfPoints) {
      RunsErrorsSpec(p.runs, PageOf(first), Excerpt(p.text), font, halfPoints);
      var j :| 0 <= j < |p.runs| && Flagged(p.runs[j], font, halfPoints)
        && v == Report(PageOf(first), p.runs[j], Excerpt(p.text), font, halfPoints);
      assert ReportOf(paras, first, 0, j, font, halfPoints, v);
    } else {
      ParagraphsErrorsSound(rest, first + 1, font, halfPoints, v);
      var i, j :| ReportOf(rest, first + 1, i, j, font, halfPoints, v);
      assert rest[i] == paras[i + 1];
      assert ReportOf(paras, first, i + 1, j, font, halfPoints, v);
    }
  }

  /** Every flagged run of a paragraph with visible text is reported. */
  lemma {:induction false} ParagraphsErrorsComplete(paras: seq<Paragraph>, first: nat, font: string, halfPoints: real, i: nat, j: nat, v: Violation)
    requires ReportOf(paras, first, i, j, font, halfPoints, v)
    ensures v in ParagraphsErrors(paras, first, font, halfPoints)
    decreases i
  {
    var rest := paras[1..];
    assert ParagraphsErrors(paras, first, font, halfPoints)
      == ParagraphErrors(paras[0], first, font, halfPoints) + ParagraphsErrors(rest, first + 1, font, halfPoints);
    if i == 0 {
      var p := paras[0];
      RunsErrorsComplete(p.runs, PageOf(first), Excerpt(p.text), font, halfPoints, j);
      assert v in ParagraphErrors(p, first, font, halfPoints);
    } else {
      ReportOfTail(paras, first, i, j, font, halfPoints, v);
      ParagraphsErrorsComplete(rest, first + 1, font, halfPoints, i - 1, j, v);
      assert v in ParagraphsErrors(rest, first + 1, font, halfPoints);
    }
  }

  /** A report for a paragraph after the first is the same report of the tail, one position on. */
  lemma ReportOfTail(paras: seq<Paragraph>, first: nat, i: nat, j: nat, font: string, halfPoints: real, v: Violation)
    requires i > 0 && ReportOf(paras, first, i, j, font, halfPoints, v)
    ensures ReportOf(paras[1..], first + 1, i - 1, j, font, halfPoints, v)
  {
    assert paras[1..][i - 1] == paras[i];
    assert first + 1 + (i - 1) == first + i;
  }

  /**
   * A report exists exactly for each flagged run of a paragraph with visible text,
   * and it names that paragraph's page and quotes that paragraph's text.
   */
  lemma ParagraphsErrorsSpec(paras: seq<Paragraph>, first: nat, font: string, halfPoints: real)
    ensures forall v :: v in ParagraphsErrors(paras, first, font, halfPoints) <==>
      (exists i, j :: ReportOf(paras, first, i, j, font, halfPoints, v))
  {
    forall v | v in ParagraphsErrors(paras, first, font, halfPoints)
      ensures exists i, j :: ReportOf(paras, first, i, j, font, halfPoints, v)
    {
      ParagraphsErrorsSound(paras, first, font, halfPoints, v);
    }
    forall v | exists i, j :: ReportOf(paras, first, i, j, font, halfPoints, v)
      ensures v in ParagraphsErrors(paras, first, font, halfPoints)
    {
      var i: nat, j: nat :| ReportOf(paras, first, i, j, font, halfPoints, v);
      ParagraphsErrorsComplete(paras, first, font, halfPoints, i, j, v);
    }
  }

  /** How many runs are flagged in the paragraphs with visible text. */
  function CountReported(paras: seq<Paragraph>, font: string, halfPoints: real): nat
    decreases |paras|
  {
    if |paras| == 0 then 0
    else
      (if IsBlank(paras[0].text) then 0 else CountFlagged(paras[0].runs, font, halfPoints))
        + CountReported(paras[1..], font, halfPoints)
  }

  /** One report per flagged run of a paragraph with visible text. */
  lemma {:induction false} ParagraphsErrorsCount(paras: seq<Paragraph>, first: nat, font: string, halfPoints: real)
    ensures |ParagraphsErrors(paras, first, font, halfPoints)| == CountReported(paras, font, halfPoints)
    decreases |paras|
  {
    if |paras| > 0 {
      RunsErrorsSpec(paras[0].runs, PageOf(first), Excerpt(paras[0].text), font, halfPoints);
      ParagraphsErrorsCount(paras[1..], first + 1, font, halfPoints);
    }
  }

  /** `FormattingCheck.check`: the pass message exactly when no run is reported. */
  function Check(paras: seq<Paragraph>, params: Params): (r: Verdict)
    ensures r.Message? <==> |Errors(paras, params)| == 0
    ensures r.Message? ==> r.text == PassedMessage
    ensures r.Errors? ==> |r.violations| == CountReported(paras, ExpectedFont(params), ExpectedHalfPoints(params))
  {
    ParagraphsErrorsCount(paras, 1, ExpectedFont(params), ExpectedHalfPoints(params));
    Conclude(Errors(paras, params), PassedMessage)
  }

  /**
   * The check passes exactly when every run of every paragraph with visible text
   * has the expected font (or none) and the expected size (or none).
   */
  lemma PassIff(paras: seq<Paragraph>, params: Params)
    ensures Check(paras, params).Message? <==>
      forall i, j :: !ReportedAt(paras, i, j, ExpectedFont(params), ExpectedHalfPoints(params))
  {
    var font := ExpectedFont(params);
    var hp := ExpectedHalfPoints(params);
    var errors := Errors(paras, params);
    if exists i, j :: ReportedAt(paras, i, j, font, hp) {
      var i: nat, j: nat :| ReportedAt(paras, i, j, font, hp);
      ParagraphsErrorsComplete(paras, 1, font, hp, i, j, Report(PageOf(1 + i), paras[i].runs[j], Excerpt(paras[i].text), font, hp));
    } else if |errors| > 0 {
      ParagraphsErrorsSound(paras, 1, font, hp, errors[0]);
    }
  }
}

=== FILE: illustrations.dfy ===
/**
 * The illustrations checker (modules/illustrations.py). A figure is a paragraph
 * holding a drawing; its caption must be the very next paragraph and read
 * `Рис. N – Title`. The caption number is compared with a document-wide counter,
 * the title with the title rules, and a document with figures and no appendix
 * needs a list of illustrations that the table of contents names. Every caption
 * number is also looked up among the references `рисунок N` / `рис. N` of all
 * paragraphs; since that scan includes the caption itself, which reads `Рис. N`,
 * the lookup always succeeds (`NoUnreferencedError`).
 */
module Illustrations {
  import opened Opt
  import opened Text
  import opened DocModel
  import opened Violations
  import opened Patterns

  const CaptionPrefix: string := "Рис."
  const ReferenceKeywords: seq<string> := ["рисунок", "рис."]
  /** The opening that marks the document as having appendices. */
  const AppendixWord: string := "приложение"

  /** The checker's parameters; `None` is a key absent from the parameter dict. */
  datatype Params = Params(useChapterNumbering: Option<bool>)

  function ChapterMode(p: Params): bool {
    p.useChapterNumbering.GetOr(false)
  }

  /**
   * What the checker reads of each paragraph: whether it holds a drawing, the caption
   * it carries, its stripped text, its alignment and its chapter.
   */
  datatype Context = Context(drawings: seq<bool>, captions: seq<Option<Caption>>, texts: seq<string>,
                             alignments: seq<Alignment>, chapters: seq<string>, chapterMode: bool)
  {
    predicate Valid() {
      && |drawings| == |captions| == |texts| == |alignments| == |chapters|
      && (forall i :: 0 <= i < |captions| && captions[i].Some? ==> |captions[i].value.title| > 0)
    }
  }

  /** The context read off a document: drawings, parsed captions, stripped texts, chapters. */
  function ContextOf(doc: Document, params: Params): (x: Context)
    ensures x.Valid() && |x.drawings| == |doc.paragraphs|
    ensures forall i :: 0 <= i < |doc.paragraphs| ==>
      x.drawings[i] == doc.paragraphs[i].hasDrawing
      && x.captions[i] == ParseCaption(CaptionPrefix, doc.paragraphs[i].text)
      && x.texts[i] == Strip(doc.paragraphs[i].text)
  {
    var ps := doc.paragraphs;
    var texts := Texts(ps);
    Context(seq(|ps|, i requires 0 <= i < |ps| => ps[i].hasDrawing),
            seq(|ps|, i requires 0 <= i < |ps| => ParseCaption(CaptionPrefix, ps[i].text)),
            texts,
            seq(|ps|, i requires 0 <= i < |ps| => ps[i].alignment),
            Chapters(texts, "0"), ChapterMode(params))
  }

  // ---------------------------------------------------------------------------
  // Figures

  /** The figure at paragraph `p` has a caption that parses in the next paragraph. */
  predicate HasCaption(x: Context, p: nat)
    requires x.Valid() && p < |x.drawings|
  {
    p + 1 < |x.drawings| && x.captions[p + 1].Some?
  }

  function CaptionAt(x: Context, p: nat): Caption
    requires x.Valid() && p < |x.drawings| && HasCaption(x, p)
  {
    x.captions[p + 1].value
  }

  /**
   * The errors of paragraph `p`, the `f`-th figure if it holds a drawing, when the
   * counter expects `k`.
   */
  function FigureErrors(x: Context, p: nat, f: nat, k: nat): seq<Violation>
    requires x.Valid() && p < |x.drawings|
  {
    if !x.drawings[p] then []
    else if p + 1 >= |x.drawings| then [MissingFigureCaption(f, p)]
    else
      match x.captions[p + 1]
      case None => [CaptionFormat(FigureKind, f, p + 1, x.texts[p + 1])]
      case Some(cap) =>
        CaptionErrors(FigureKind, f, p + 1, cap, ExpectedNumber(x.chapterMode, x.chapters[p + 1], k), x.alignments[p + 1])
  }

  /**
   * The scan's two counters at each paragraph from `p` on: the figures found before
   * it, and the number the next well-formed caption should carry. Every drawing
   * advances the first; only a drawing followed by a caption that parses advances
   * the second.
   */
  function States(x: Context, p: nat, found: nat, k: nat): (r: seq<(nat, nat)>)
    requires x.Valid() && p <= |x.drawings|
    ensures |r| == |x.drawings| - p
    decreases |x.drawings| - p
  {
    if p == |x.drawings| then []
    else
      var found' := if x.drawings[p] then found + 1 else found;
      var k' := if x.drawings[p] && HasCaption(x, p) then k + 1 else k;
      [(found, k)] + States(x, p + 1, found', k')
  }

  function StateAt(x: Context, p: nat): (nat, nat)
    requires x.Valid() && p < |x.drawings|
  {
    States(x, 0, 0, 1)[p]
  }

  /** The errors of each paragraph under the scan's counters there. */
  function Parts(x: Context): (r: seq<seq<Violation>>)
    requires x.Valid()
    ensures |r| == |x.drawings|
  {
    seq(|x.drawings|, p requires 0 <= p < |x.drawings| => FigureErrors(x, p, StateAt(x, p).0 + 1, StateAt(x, p).1))
  }

  /** The figures before paragraph `p`. */
  function CountFigures(x: Context, p: nat): nat
    requires x.Valid() && p <= |x.drawings|
  {
    if p == 0 then 0 else CountFigures(x, p - 1) + (if x.drawings[p - 1] then 1 else 0)
  }

  /** The figures before paragraph `p` whose caption parses. */
  function CountCaptioned(x: Context, p: nat): nat
    requires x.Valid() && p <= |x.drawings|
  {
    if p == 0 then 0 else CountCaptioned(x, p - 1) + (if x.drawings[p - 1] && HasCaption(x, p - 1) then 1 else 0)
  }

  /** The ordinal of the figure at paragraph `p`, counting every drawing. */
  function Ordinal(x: Context, p: nat): nat
    requires x.Valid() && p < |x.drawings|
  {
    1 + CountFigures(x, p)
  }

  /**
   * The number expected of the figure at paragraph `p`: one more than the figures
   * before it whose caption parses, prefixed in chapter mode by the chapter of its
   * caption paragraph.
   */
  function ExpectedFor(x: Context, p: nat): string
    requires x.Valid() && p + 1 < |x.drawings|
  {
    ExpectedNumber(x.chapterMode, x.chapters[p + 1], 1 + CountCaptioned(x, p))
  }

  /** The caption numbers of the captioned figures from paragraph `p` on, in order. */
  function Labels(x: Context, p: nat): seq<string>
    requires x.Valid()
    decreases |x.drawings| - p
  {
    if p >= |x.drawings| then []
    else (if x.drawings[p] && HasCaption(x, p) then [CaptionAt(x, p).number] else []) + Labels(x, p + 1)
  }

  function References(x: Context): set<string> {
    AllReferences(x.texts, ReferenceKeywords, NumberShape)
  }

  // ---------------------------------------------------------------------------
  // The list of illustrations

  /** Some paragraph opens with `приложение`, in any case. */
  predicate InAppendices(texts: seq<string>) {
    exists i :: 0 <= i < |texts| && AppendixWord <= Lower(texts[i])
  }

  /**
   * A document with figures and no appendix needs a list of illustrations, and the
   * table of contents must name the last such title.
   */
  function ListErrors(texts: seq<string>, figures: nat): seq<Violation> {
    if !InAppendices(texts) && figures > 0 then
      match LastMatching(texts, IllustrationsListTitles)
      case None => [MissingIllustrationsList]
      case Some(i) => if InToc(texts[i], Toc(texts)) then [] else [IllustrationsListNotInToc]
    else []
  }

  function Errors(x: Context): seq<Violation>
    requires x.Valid()
  {
    Flatten(Parts(x))
      + UnreferencedErrors(FigureKind, Labels(x, 0), References(x))
      + ListErrors(x.texts, CountFigures(x, |x.drawings|))
  }

  /**
   * `IllustrationsCheck.check`: per-figure errors in paragraph order, the unreferenced
   * captions, the list rule. A figure draws the missing-caption error exactly when it
   * is in the last paragraph, and the caption-format error exactly when the next
   * paragraph does not parse as a caption.
   */
  function Check(doc: Document, params: Params): (r: seq<Violation>)
    ensures forall p :: 0 <= p < |doc.paragraphs| && doc.paragraphs[p].hasDrawing ==>
      (MissingFigureCaption(Ordinal(ContextOf(doc, params), p), p) in r <==> p + 1 == |doc.paragraphs|)
    ensures forall p :: 0 <= p < |doc.paragraphs| - 1 && doc.paragraphs[p].hasDrawing ==>
      (CaptionFormat(FigureKind, Ordinal(ContextOf(doc, params), p), p + 1, Strip(doc.paragraphs[p + 1].text)) in r <==>
       ParseCaption(CaptionPrefix, doc.paragraphs[p + 1].text).None?)
  {
    DocumentCaptionsIff(doc, params);
    Errors(ContextOf(doc, params))
  }

  /** `FigureCaptionsIff` restated on the document's own paragraphs. */
  lemma DocumentCaptionsIff(doc: Document, params: Params)
    ensures forall p :: 0 <= p < |doc.paragraphs| && doc.paragraphs[p].hasDrawing ==>
      (MissingFigureCaption(Ordinal(ContextOf(doc, params), p), p) in Errors(ContextOf(doc, params)) <==> p + 1 == |doc.paragraphs|)
    ensures forall p :: 0 <= p < |doc.paragraphs| - 1 && doc.paragraphs[p].hasDrawing ==>
      (CaptionFormat(FigureKind, Ordinal(ContextOf(doc, params), p), p + 1, Strip(doc.paragraphs[p + 1].text)) in Errors(ContextOf(doc, params)) <==>
       ParseCaption(CaptionPrefix, doc.paragraphs[p + 1].text).None?)
  {
    var x := ContextOf(doc, params);
    var e := Errors(x);
    forall p | 0 <= p < |doc.paragraphs| && doc.paragraphs[p].hasDrawing
      ensures MissingFigureCaption(Ordinal(x, p), p) in e <==> p + 1 == |doc.paragraphs|
    {
      MissingCaptionIff(x, p);
    }
    forall p | 0 <= p < |doc.paragraphs| - 1 && doc.paragraphs[p].hasDrawing
      ensures CaptionFormat(FigureKind, Ordinal(x, p), p + 1, Strip(doc.paragraphs[p + 1].text)) in e <==>
        ParseCaption(CaptionPrefix, doc.paragraphs[p + 1].text).None?
    {
      assert x.texts[p + 1] == Strip(doc.paragraphs[p + 1].text);
      CaptionFormatIff(x, p);
    }
  }

  // ---------------------------------------------------------------------------
  // Properties

  /** The counters at paragraph `p0 + i` are the closed forms: figures before it, and one more than the captioned ones. */
  lemma {:induction false} StatesClosedForm(x: Context, p0: nat, i: nat)
    requires x.Valid() && p0 + i < |x.drawings|
    ensures States(x, p0, CountFigures(x, p0), 1 + CountCaptioned(x, p0))[i]
      == (CountFigures(x, p0 + i), 1 + CountCaptioned(x, p0 + i))
    decreases i
  {
    var tail := StatesStep(x, p0);
    if i > 0 {
      StatesClosedForm(x, p0 + 1, i - 1);
      assert tail[i - 1] == (CountFigures(x, p0 + i), 1 + CountCaptioned(x, p0 + i));
    }
  }

  /** One step of the scan from the closed-form counters lands on the closed-form counters. */
  lemma StatesStep(x: Context, p0: nat) returns (tail: seq<(nat, nat)>)
    requires x.Valid() && p0 < |x.drawings|
    ensures tail == States(x, p0 + 1, CountFigures(x, p0 + 1), 1 + CountCaptioned(x, p0 + 1))
    ensures States(x, p0, CountFigures(x, p0), 1 + CountCaptioned(x, p0))
      == [(CountFigures(x, p0), 1 + CountCaptioned(x, p0))] + tail
  {
    tail := States(x, p0 + 1, CountFigures(x, p0 + 1), 1 + CountCaptioned(x, p0 + 1));
  }

  /** At each paragraph the scan's counters are the closed forms: the counter never resynchronises. */
  lemma StateAtClosedForm(x: Context, p: nat)
    requires x.Valid() && p < |x.drawings|
    ensures StateAt(x, p) == (CountFigures(x, p), 1 + CountCaptioned(x, p))
  {
    StatesClosedForm(x, 0, p);
  }

  /** Drawings get distinct ordinals, increasing in document order. */
  lemma {:induction false} OrdinalIncreasing(x: Context, p: nat, q: nat)
    requires x.Valid() && p < q < |x.drawings| && x.drawings[p]
    ensures Ordinal(x, p) < Ordinal(x, q)
    decreases q - p
  {
    if q > p + 1 {
      OrdinalIncreasing(x, p, q - 1);
    }
  }

  /** `v` is among the errors of paragraph `p`. */
  predicate InParagraph(x: Context, p: nat, v: Violation)
    requires x.Valid() && p < |x.drawings|
  {
    v in Parts(x)[p]
  }

  /** An error of the per-figure part is an error of some paragraph, and conversely. */
  lemma ScanSpec(x: Context, v: Violation)
    requires x.Valid()
    ensures v in Flatten(Parts(x)) <==> exists p :: 0 <= p < |x.drawings| && InParagraph(x, p, v)
  {
    var parts := Parts(x);
    FlattenSpec(parts, v);
    if v in Flatten(parts) {
      var p :| 0 <= p < |parts| && v in parts[p];
      assert InParagraph(x, p, v);
    }
    if exists p :: 0 <= p < |x.drawings| && InParagraph(x, p, v) {
      var p :| 0 <= p < |x.drawings| && InParagraph(x, p, v);
      assert v in parts[p];
    }
  }

  /** What each error of a paragraph says about the figure there. */
  lemma FigureErrorsTags(x: Context, p: nat, f: nat, k: nat)
    requires x.Valid() && p < |x.drawings|
    ensures forall v :: v in FigureErrors(x, p, f, k) ==>
      && x.drawings[p]
      && !v.Unreferenced? && !v.MissingIllustrationsList? && !v.IllustrationsListNotInToc?
      && (v.MissingFigureCaption? ==> v == MissingFigureCaption(f, p) && p + 1 == |x.drawings|)
      && (v.CaptionFormat? ==> (
            && p + 1 < |x.drawings| && x.captions[p + 1].None?
            && v == CaptionFormat(FigureKind, f, p + 1, x.texts[p + 1])))
      && (v.WrongNumber? ==> (
            && HasCaption(x, p)
            && v == WrongNumber(FigureKind, f, ExpectedNumber(x.chapterMode, x.chapters[p + 1], k), CaptionAt(x, p).number)))
  {
    if !x.drawings[p] {
      assert FigureErrors(x, p, f, k) == [];
    } else if p + 1 >= |x.drawings| {
      assert FigureErrors(x, p, f, k) == [MissingFigureCaption(f, p)];
    } else if x.captions[p + 1].None? {
      assert FigureErrors(x, p, f, k) == [CaptionFormat(FigureKind, f, p + 1, x.texts[p + 1])];
    } else {
      var cap := x.captions[p + 1].value;
      var expected := ExpectedNumber(x.chapterMode, x.chapters[p + 1], k);
      CaptionErrorsTags(FigureKind, f, p + 1, cap, expected, x.alignments[p + 1]);
      assert FigureErrors(x, p, f, k) == CaptionErrors(FigureKind, f, p + 1, cap, expected, x.alignments[p + 1]);
    }
  }

  /** The tags of an error of paragraph `p` under the scan's counters, in closed form. */
  lemma InParagraphTags(x: Context, p: nat, v: Violation)
    requires x.Valid() && p < |x.drawings| && InParagraph(x, p, v)
    ensures x.drawings[p]
    ensures !v.Unreferenced? && !v.MissingIllustrationsList? && !v.IllustrationsListNotInToc?
    ensures v.MissingFigureCaption? ==> v == MissingFigureCaption(Ordinal(x, p), p) && p + 1 == |x.drawings|
    ensures v.CaptionFormat? ==>
      p + 1 < |x.drawings| && x.captions[p + 1].None? && v == CaptionFormat(FigureKind, Ordinal(x, p), p + 1, x.texts[p + 1])
    ensures v.WrongNumber? ==>
      HasCaption(x, p) && v == WrongNumber(FigureKind, Ordinal(x, p), ExpectedFor(x, p), CaptionAt(x, p).number)
  {
    StateAtClosedForm(x, p);
    FigureErrorsTags(x, p, StateAt(x, p).0 + 1, StateAt(x, p).1);
    assert Parts(x)[p] == FigureErrors(x, p, StateAt(x, p).0 + 1, StateAt(x, p).1);
  }

  /** The per-figure part of the errors, the unreferenced part and the list part are told apart by kind. */
  lemma ErrorsSplit(x: Context, v: Violation)
    requires x.Valid() && v in Errors(x)
    requires !v.Unreferenced? && !v.MissingIllustrationsList? && !v.IllustrationsListNotInToc?
    ensures v in Flatten(Parts(x))
  {
    UnreferencedSpec(FigureKind, Labels(x, 0), References(x), v);
  }

  /** The paragraph a per-figure error comes from. */
  lemma ParagraphOf(x: Context, v: Violation) returns (q: nat)
    requires x.Valid() && v in Errors(x)
    requires !v.Unreferenced? && !v.MissingIllustrationsList? && !v.IllustrationsListNotInToc?
    ensures q < |x.drawings| && InParagraph(x, q, v)
  {
    ErrorsSplit(x, v);
    ScanSpec(x, v);
    q :| 0 <= q < |x.drawings| && InParagraph(x, q, v);
  }

  /** A numbering error of paragraph `q` carries the ordinal of the figure there. */
  lemma WrongNumberOrdinal(x: Context, q: nat, v: Violation)
    requires x.Valid() && q < |x.drawings| && InParagraph(x, q, v) && v.WrongNumber?
    ensures x.drawings[q] && v.ordinal == Ordinal(x, q)
  {
    InParagraphTags(x, q, v);
  }

  /** A figure in the last paragraph draws the missing-caption error, and no other figure does. */
  lemma MissingCaptionIff(x: Context, p: nat)
    requires x.Valid() && p < |x.drawings| && x.drawings[p]
    ensures MissingFigureCaption(Ordinal(x, p), p) in Errors(x) <==> p + 1 == |x.drawings|
  {
    var v := MissingFigureCaption(Ordinal(x, p), p);
    if p + 1 == |x.drawings| {
      StateAtClosedForm(x, p);
      assert InParagraph(x, p, v);
      ScanSpec(x, v);
    }
    if v in Errors(x) {
      var q := ParagraphOf(x, v);
      MissingCaptionAt(x, q, v);
    }
  }

  /** A missing-caption error of paragraph `q` names `q`, the last paragraph. */
  lemma MissingCaptionAt(x: Context, q: nat, v: Violation)
    requires x.Valid() && q < |x.drawings| && InParagraph(x, q, v) && v.MissingFigureCaption?
    ensures v.paragraph == q && q + 1 == |x.drawings|
  {
    InParagraphTags(x, q, v);
  }

  /** A figure whose next paragraph is not a well-formed caption draws the format error carrying that text. */
  lemma CaptionFormatIff(x: Context, p: nat)
    requires x.Valid() && p + 1 < |x.drawings| && x.drawings[p]
    ensures CaptionFormat(FigureKind, Ordinal(x, p), p + 1, x.texts[p + 1]) in Errors(x) <==> x.captions[p + 1].None?
  {
    if x.captions[p + 1].None? {
      CaptionFormatReported(x, p);
    }
    var v := CaptionFormat(FigureKind, Ordinal(x, p), p + 1, x.texts[p + 1]);
    if v in Errors(x) {
      CaptionFormatOrigin(x, v);
    }
  }

  /** A figure followed by a paragraph that is not a caption draws the format error. */
  lemma CaptionFormatReported(x: Context, p: nat)
    requires x.Valid() && p + 1 < |x.drawings| && x.drawings[p] && x.captions[p + 1].None?
    ensures CaptionFormat(FigureKind, Ordinal(x, p), p + 1, x.texts[p + 1]) in Errors(x)
  {
    var v := CaptionFormat(FigureKind, Ordinal(x, p), p + 1, x.texts[p + 1]);
    StateAtClosedForm(x, p);
    assert InParagraph(x, p, v);
    ScanSpec(x, v);
  }

  /** A reported format error names the paragraph after a figure, and that paragraph has no caption. */
  lemma CaptionFormatOrigin(x: Context, v: Violation)
    requires x.Valid() && v in Errors(x) && v.CaptionFormat?
    ensures 0 < v.paragraph < |x.drawings| && x.captions[v.paragraph].None?
  {
    ErrorsSplit(x, v);
    CaptionFormatInParts(x, v);
  }

  /** A format error of the per-figure part names a paragraph without a caption. */
  lemma CaptionFormatInParts(x: Context, v: Violation)
    requires x.Valid() && v in Flatten(Parts(x)) && v.CaptionFormat?
    ensures 0 < v.paragraph < |x.drawings| && x.captions[v.paragraph].None?
  {
    ScanSpec(x, v);
    var q :| 0 <= q < |x.drawings| && InParagraph(x, q, v);
    CaptionFormatAt(x, q, v);
  }

  /** A format error of paragraph `q` names the paragraph after it, which has no caption. */
  lemma CaptionFormatAt(x: Context, q: nat, v: Violation)
    requires x.Valid() && q < |x.drawings| && InParagraph(x, q, v) && v.CaptionFormat?
    ensures 0 < v.paragraph < |x.drawings| && x.captions[v.paragraph].None?
  {
    InParagraphTags(x, q, v);
  }

  /** A numbering error carrying the ordinal of the figure at `p` comes from paragraph `p`. */
  lemma WrongNumberAt(x: Context, p: nat, w: Violation)
    requires x.Valid() && p < |x.drawings| && x.drawings[p]
    requires w in Errors(x) && w.WrongNumber? && w.ordinal == Ordinal(x, p)
    ensures InParagraph(x, p, w)
  {
    var q := ParagraphOf(x, w);
    WrongNumberOrdinal(x, q, w);
    OrdinalInjective(x, p, q);
  }

  /** Two drawings with the same ordinal are the same paragraph. */
  lemma OrdinalInjective(x: Context, p: nat, q: nat)
    requires x.Valid() && p < |x.drawings| && q < |x.drawings| && x.drawings[p] && x.drawings[q]
    requires Ordinal(x, p) == Ordinal(x, q)
    ensures p == q
  {
    if q < p {
      OrdinalIncreasing(x, q, p);
    } else if p < q {
      OrdinalIncreasing(x, p, q);
    }
  }

  /**
   * A captioned figure draws a numbering error exactly when its number differs from
   * the closed-form expectation, and it draws no other numbering error.
   */
  lemma WrongNumberIff(x: Context, p: nat)
    requires x.Valid() && p < |x.drawings| && x.drawings[p] && HasCaption(x, p)
    ensures var number := CaptionAt(x, p).number;
      WrongNumber(FigureKind, Ordinal(x, p), ExpectedFor(x, p), number) in Errors(x) <==> number != ExpectedFor(x, p)
    ensures forall v :: v in Errors(x) && v.WrongNumber? && v.ordinal == Ordinal(x, p) ==>
      v == WrongNumber(FigureKind, Ordinal(x, p), ExpectedFor(x, p), CaptionAt(x, p).number)
  {
    var cap := CaptionAt(x, p);
    var v := WrongNumber(FigureKind, Ordinal(x, p), ExpectedFor(x, p), cap.number);
    StateAtClosedForm(x, p);
    CaptionErrorsSpec(FigureKind, Ordinal(x, p), p + 1, cap, ExpectedFor(x, p), x.alignments[p + 1]);
    assert Parts(x)[p] == FigureErrors(x, p, Ordinal(x, p), 1 + CountCaptioned(x, p));
    assert InParagraph(x, p, v) <==> cap.number != ExpectedFor(x, p);
    if v in Errors(x) {
      WrongNumberAt(x, p, v);
    }
    if InParagraph(x, p, v) {
      ScanSpec(x, v);
    }
    forall w | w in Errors(x) && w.WrongNumber? && w.ordinal == Ordinal(x, p)
      ensures w == v
    {
      WrongNumberAt(x, p, w);
      InParagraphTags(x, p, w);
    }
  }

  /** A caption number draws an unreferenced error exactly when no reference names it. */
  lemma UnreferencedIff(x: Context, l: string)
    requires x.Valid()
    ensures Unreferenced(FigureKind, l) in Errors(x) <==> l in Labels(x, 0) && l !in References(x)
  {
    var v := Unreferenced(FigureKind, l);
    ScanSpec(x, v);
    UnreferencedSpec(FigureKind, Labels(x, 0), References(x), v);
    forall p | 0 <= p < |x.drawings|
      ensures !InParagraph(x, p, v)
    {
      if InParagraph(x, p, v) {
        InParagraphTags(x, p, v);
      }
    }
  }

  /** The caption prefix is one of the reference keywords, and the keywords are lower case and unnested. */
  lemma KeywordFacts()
    ensures Lower(CaptionPrefix) == "рис." && "рис." in ReferenceKeywords && Unnested(ReferenceKeywords, "рис.")
    ensures forall k :: 0 <= k < |ReferenceKeywords| ==> Lower(ReferenceKeywords[k]) == ReferenceKeywords[k]
  {
    assert Lower(CaptionPrefix) == "рис.";
    assert Lower("рисунок") == "рисунок";
    assert "рисунок"[3] != "рис."[3];
  }

  /** Every caption number from paragraph `p` on is found by the reference scan of its own caption. */
  lemma {:induction false} LabelsReferenced(x: Context, p: nat)
    requires x.Valid()
    requires forall i :: 0 <= i < |x.captions| && x.captions[i].Some? ==>
      x.captions[i].value.number in FindLabels(x.texts[i], ReferenceKeywords, NumberShape)
    ensures forall l :: l in Labels(x, p) ==> l in References(x)
    decreases |x.drawings| - p
  {
    if p < |x.drawings| {
      LabelsReferenced(x, p + 1);
      if x.drawings[p] && HasCaption(x, p) {
        AllReferencesSpec(x.texts, ReferenceKeywords, NumberShape, CaptionAt(x, p).number);
      }
    }
  }

  /**
   * The unreferenced rule never fires: the scan that collects references runs over
   * every paragraph, the caption included, and a caption `Рис. N – …` is itself a
   * reference `рис. N`.
   */
  lemma NoUnreferencedError(doc: Document, params: Params)
    ensures forall l :: Unreferenced(FigureKind, l) !in Check(doc, params)
  {
    var x := ContextOf(doc, params);
    KeywordFacts();
    forall i | 0 <= i < |x.captions| && x.captions[i].Some?
      ensures x.captions[i].value.number in FindLabels(x.texts[i], ReferenceKeywords, NumberShape)
    {
      CaptionReferencesItself(CaptionPrefix, ReferenceKeywords, "рис.", doc.paragraphs[i].text);
    }
    LabelsReferenced(x, 0);
    forall l
      ensures Unreferenced(FigureKind, l) !in Check(doc, params)
    {
      UnreferencedIff(x, l);
    }
  }

  /** Without a list title the rule reports the missing list, exactly when the document has figures and no appendix. */
  lemma MissingListIff(texts: seq<string>, figures: nat)
    ensures MissingIllustrationsList in ListErrors(texts, figures) <==>
      !InAppendices(texts) && figures > 0 && forall i :: 0 <= i < |texts| ==> !MatchesPhrase(texts[i], IllustrationsListTitles)
  {
    var r := ListErrors(texts, figures);
    var found := LastMatching(texts, IllustrationsListTitles);
    if !InAppendices(texts) && figures > 0 {
      if found.Some? {
        var i := found.value;
        assert MatchesPhrase(texts[i], IllustrationsListTitles);
        assert r == (if InToc(texts[i], Toc(texts)) then [] else [IllustrationsListNotInToc]);
      } else {
        assert r == [MissingIllustrationsList];
      }
    } else {
      assert r == [];
    }
  }

  /** The list must be named by the table of contents: only the last list title is looked up. */
  lemma ListNotInTocIff(texts: seq<string>, figures: nat)
    ensures IllustrationsListNotInToc in ListErrors(texts, figures) <==>
      && !InAppendices(texts) && figures > 0
      && exists i :: 0 <= i < |texts| && MatchesPhrase(texts[i], IllustrationsListTitles)
          && (forall j :: i < j < |texts| ==> !MatchesPhrase(texts[j], IllustrationsListTitles))
          && !InToc(texts[i], Toc(texts))
  {
    var r := LastMatching(texts, IllustrationsListTitles);
    if r.Some? {
      var i := r.value;
      forall i' | 0 <= i' < |texts| && MatchesPhrase(texts[i'], IllustrationsListTitles)
          && (forall j :: i' < j < |texts| ==> !MatchesPhrase(texts[j], IllustrationsListTitles))
        ensures i' == i
      {
      }
    }
  }

  /** A document without figures, or with an appendix, is not asked for a list. */
  lemma NoListRuleWithoutFigures(x: Context)
    requires x.Valid()
    requires CountFigures(x, |x.drawings|) == 0 || InAppendices(x.texts)
    ensures forall v :: v in Errors(x) ==> !v.MissingIllustrationsList? && !v.IllustrationsListNotInToc?
  {
    forall v | v in Errors(x)
      ensures !v.MissingIllustrationsList? && !v.IllustrationsListNotInToc?
    {
      ScanSpec(x, v);
      UnreferencedSpec(FigureKind, Labels(x, 0), References(x), v);
      if v in Flatten(Parts(x)) {
        var p :| 0 <= p < |x.drawings| && InParagraph(x, p, v);
        InParagraphTags(x, p, v);
      }
    }
  }
}

=== FILE: opt.dfy ===
/** An optional value: the model's stand-in for Python's `None`. */
module Opt {

  datatype Option<+T> = None | Some(value: T) {

    /** The wrapped value, or `default` when there is none (Python's `d.get(key, default)`). */
    function GetOr(default: T): T {
      match this
      case Some(v) => v
      case None => default
    }
  }
}

=== FILE: page_params.dfy ===
/**
 * The page parameters checker (modules/page_params.py): every section's page size
 * against A4 within a tolerance, and each margin against its configured minimum.
 * Lengths are exact reals; the EMU-to-centimetre conversion and floating-point
 * rounding are not modelled.
 */
module PageParams {
  import opened Opt
  import opened DocModel
  import opened Violations

  const PassedMessage: string := "Page parameters check passed"
  const A4: string := "A4"
  const A4Width: real := 21.0
  const A4Height: real := 29.7
  const Tolerance: real := 0.1

  /** Minimum margins in centimetres. */
  datatype Margins = Margins(left: real, right: real, top: real, bottom: real)

  const DefaultMargins: Margins := Margins(3.0, 1.0, 2.0, 2.0)

  /** The checker's parameters; `None` is a key absent from the parameter dict. */
  datatype Params = Params(pageSize: Option<string>, margins: Option<Margins>)

  function Profile(p: Params): string {
    p.pageSize.GetOr(A4)
  }

  function MarginsOf(p: Params): Margins {
    p.margins.GetOr(DefaultMargins)
  }

  /** Absent keys fall back to A4 and margins left 3, right 1, top 2, bottom 2. */
  lemma DefaultParams()
    ensures Profile(Params(None, None)) == "A4"
    ensures MarginsOf(Params(None, None)) == Margins(3.0, 1.0, 2.0, 2.0)
  {
  }

  function Abs(x: real): real {
    if x < 0.0 then -x else x
  }

  /** Both page dimensions within the tolerance of A4 portrait. */
  predicate IsA4(s: Section) {
    Abs(s.width - A4Width) <= Tolerance && Abs(s.height - A4Height) <= Tolerance
  }

  function MarginOf(s: Section, side: Side): real {
    match side
    case LeftSide => s.left
    case RightSide => s.right
    case TopSide => s.top
    case BottomSide => s.bottom
  }

  function MinimumOf(m: Margins, side: Side): real {
    match side
    case LeftSide => m.left
    case RightSide => m.right
    case TopSide => m.top
    case BottomSide => m.bottom
  }

  /** The error for one side, if that margin is strictly below its minimum. */
  function MarginError(index: nat, s: Section, m: Margins, side: Side): seq<Violation> {
    if MarginOf(s, side) < MinimumOf(m, side)
    then [MarginTooSmall(index, side, MarginOf(s, side), MinimumOf(m, side))]
    else []
  }

  /** The size error, if the profile is "A4" and the page is not A4 within the tolerance. */
  function SizeError(index: nat, s: Section, size: string): seq<Violation> {
    if size == A4 && !IsA4(s) then [PageSize(index, s.width, s.height)] else []
  }

  /** Where an error of one section sits in that section's list: size, left, right, top, bottom. */
  function Rank(v: Violation): nat {
    match v
    case MarginTooSmall(_, side, _, _) =>
      (match side
       case LeftSide => 1
       case RightSide => 2
       case TopSide => 3
       case BottomSide => 4)
    case _ => 0
  }

  /**
   * The errors of section `index` (1-based): at most one per rule, each naming
   * that section.
   */
  function SectionErrors(index: nat, s: Section, size: string, m: Margins): seq<Violation> {
    SizeError(index, s, size)
      + MarginError(index, s, m, LeftSide)
      + MarginError(index, s, m, RightSide)
      + MarginError(index, s, m, TopSide)
      + MarginError(index, s, m, BottomSide)
  }

  /**
   * Which errors a section draws: the size error exactly when the profile is "A4"
   * and the page is not A4 within the tolerance, a margin error for a side exactly
   * when that margin is strictly below its minimum (equality passes), and every
   * margin error carries the measured margin and its minimum. Nothing else is
   * reported, at most five errors in all, each naming the section.
   */
  lemma SectionErrorsSpec(index: nat, s: Section, size: string, m: Margins)
    ensures var r := SectionErrors(index, s, size, m);
      && |r| <= 5
      && (forall v :: v in r ==> (v.PageSize? || v.MarginTooSmall?) && v.section == index)
      && (PageSize(index, s.width, s.height) in r <==> size == A4 && !IsA4(s))
      && (forall side ::
            (MarginTooSmall(index, side, MarginOf(s, side), MinimumOf(m, side)) in r <==> MarginOf(s, side) < MinimumOf(m, side)))
      && (forall v :: v in r && v.MarginTooSmall? ==>
            v.actual == MarginOf(s, v.side) && v.minimum == MinimumOf(m, v.side) && v.actual < v.minimum)
  {
  }

  predicate Increasing(r: seq<Violation>) {
    forall i, j :: 0 <= i < j < |r| ==> Rank(r[i]) < Rank(r[j])
  }

  lemma IncreasingConcat(a: seq<Violation>, b: seq<Violation>)
    requires Increasing(a) && Increasing(b)
    requires forall x, y :: x in a && y in b ==> Rank(x) < Rank(y)
    ensures Increasing(a + b)
  {
    forall i, j | 0 <= i < j < |a + b|
      ensures Rank((a + b)[i]) < Rank((a + b)[j])
    {
      if j < |a| {
      } else if i >= |a| {
        assert (a + b)[i] == b[i - |a|] && (a + b)[j] == b[j - |a|];
      } else {
        assert (a + b)[i] in a && (a + b)[j] in b;
      }
    }
  }

  /** Every error of `r` has a rank in `lo..hi - 1`. */
  predicate RanksIn(r: seq<Violation>, lo: nat, hi: nat) {
    forall v :: v in r ==> lo <= Rank(v) < hi
  }

  /** Increasing lists with ranks in adjacent ranges concatenate to an increasing list. */
  lemma IncreasingAdjacent(a: seq<Violation>, b: seq<Violation>, lo: nat, mid: nat, hi: nat)
    requires lo <= mid <= hi && Increasing(a) && Increasing(b) && RanksIn(a, lo, mid) && RanksIn(b, mid, hi)
    ensures Increasing(a + b) && RanksIn(a + b, lo, hi)
  {
    IncreasingConcat(a, b);
    forall v | v in a + b
      ensures lo <= Rank(v) < hi
    {
      if v in a {
        assert Rank(v) < mid;
      } else {
        assert v in b;
      }
    }
  }

  /** A side's error, if any, has that side's rank. */
  lemma MarginErrorRank(index: nat, s: Section, m: Margins, side: Side, rank: nat)
    requires rank == match side case LeftSide => 1 case RightSide => 2 case TopSide => 3 case BottomSide => 4
    ensures Increasing(MarginError(index, s, m, side)) && RanksIn(MarginError(index, s, m, side), rank, rank + 1)
  {
  }

  /** A section's errors come in the order size, left, right, top, bottom. */
  lemma SectionErrorsOrdered(index: nat, s: Section, size: string, m: Margins)
    ensures Increasing(SectionErrors(index, s, size, m))
  {
    var a := SizeError(index, s, size);
    var l := MarginError(index, s, m, LeftSide);
    var rt := MarginError(index, s, m, RightSide);
    var t := MarginError(index, s, m, TopSide);
    var b := MarginError(index, s, m, BottomSide);
    assert Increasing(a) && RanksIn(a, 0, 1);
    MarginErrorRank(index, s, m, LeftSide, 1);
    MarginErrorRank(index, s, m, RightSide, 2);
    MarginErrorRank(index, s, m, TopSide, 3);
    MarginErrorRank(index, s, m, BottomSide, 4);
    IncreasingAdjacent(a, l, 0, 1, 2);
    IncreasingAdjacent(a + l, rt, 0, 2, 3);
    IncreasingAdjacent(a + l + rt, t, 0, 3, 4);
    IncreasingAdjacent(a + l + rt + t, b, 0, 4, 5);
  }

  /** The errors of `sections`, the first of which is section number `first`. */
  function SectionsErrors(sections: seq<Section>, first: nat, size: string, m: Margins): seq<Violation>
    decreases |sections|
  {
    if |sections| == 0 then []
    else SectionErrors(first, sections[0], size, m) + SectionsErrors(sections[1..], first + 1, size, m)
  }

  /** Sections are checked independently: the errors of a split document are the errors of its parts. */
  lemma {:induction false} SectionsErrorsSplit(a: seq<Section>, b: seq<Section>, first: nat, size: string, m: Margins)
    ensures SectionsErrors(a + b, first, size, m)
      == SectionsErrors(a, first, size, m) + SectionsErrors(b, first + |a|, size, m)
    decreases |a|
  {
    if |a| == 0 {
      assert a + b == b;
    } else {
      assert (a + b)[0] == a[0];
      assert (a + b)[1..] == a[1..] + b;
      SectionsErrorsSplit(a[1..], b, first + 1, size, m);
      var h := SectionErrors(first, a[0], size, m);
      var x := SectionsErrors(a[1..], first + 1, size, m);
      var y := SectionsErrors(b, first + |a|, size, m);
      assert SectionsErrors(a + b, first, size, m) == h + (x + y);
      assert h + (x + y) == (h + x) + y;
    }
  }

  /** At most five errors per section, each tagged with a section number in range. */
  lemma {:induction false} SectionsErrorsBound(sections: seq<Section>, first: nat, size: string, m: Margins)
    ensures |SectionsErrors(sections, first, size, m)| <= 5 * |sections|
    ensures forall v :: v in SectionsErrors(sections, first, size, m) ==>
      (v.PageSize? || v.MarginTooSmall?) && first <= v.section < first + |sections|
    decreases |sections|
  {
    if |sections| > 0 {
      SectionErrorsSpec(first, sections[0], size, m);
      SectionsErrorsBound(sections[1..], first + 1, size, m);
    }
  }

  function Errors(doc: Document, params: Params): seq<Violation> {
    SectionsErrors(doc.sections, 1, Profile(params), MarginsOf(params))
  }

  /** `PageParamsCheck.check`: the pass message exactly when no section has an error. */
  function Check(doc: Document, params: Params): (r: Verdict)
    ensures r.Message? <==> |Errors(doc, params)| == 0
    ensures r.Message? ==> r.text == PassedMessage
    ensures r.Errors? ==> |r.violations| <= 5 * |doc.sections|
  {
    SectionsErrorsBound(doc.sections, 1, Profile(params), MarginsOf(params));
    Conclude(Errors(doc, params), PassedMessage)
  }

  /**
   * Section `k` (1-based) contributes exactly its own errors, between the errors of
   * the sections before it and those after it.
   */
  lemma SectionIsolated(doc: Document, params: Params, k: nat)
    requires 1 <= k <= |doc.sections|
    ensures var size := Profile(params);
      var m := MarginsOf(params);
      var s := doc.sections;
      var before := SectionsErrors(s[..k - 1], 1, size, m);
      var after := SectionsErrors(s[k..], k + 1, size, m);
      && Errors(doc, params) == before + SectionErrors(k, s[k - 1], size, m) + after
      && (forall v :: v in before ==> (v.PageSize? || v.MarginTooSmall?) && v.section < k)
      && (forall v :: v in after ==> (v.PageSize? || v.MarginTooSmall?) && v.section > k)
  {
    var size := Profile(params);
    var m := MarginsOf(params);
    var s := doc.sections;
    assert s == s[..k - 1] + [s[k - 1]] + s[k..];
    SectionsErrorsSplit(s[..k - 1] + [s[k - 1]], s[k..], 1, size, m);
    SectionsErrorsSplit(s[..k - 1], [s[k - 1]], 1, size, m);
    SectionsErrorsBound(s[..k - 1], 1, size, m);
    SectionsErrorsBound(s[k..], k + 1, size, m);
    assert SectionsErrors([s[k - 1]], k, size, m) == SectionErrors(k, s[k - 1], size, m);
  }

  /** A page for any profile other than "A4" never draws a size error. */
  lemma OtherProfileSkipsSize(doc: Document, params: Params)
    requires Profile(params) != A4
    ensures forall v :: v in Errors(doc, params) ==> v.MarginTooSmall?
  {
    SizeFree(doc.sections, 1, Profile(params), MarginsOf(params));
  }

  /** Under a profile other than "A4" every section's errors are margin errors. */
  lemma {:induction false} SizeFree(sections: seq<Section>, first: nat, size: string, m: Margins)
    requires size != A4
    ensures forall v :: v in SectionsErrors(sections, first, size, m) ==> v.MarginTooSmall?
    decreases |sections|
  {
    if |sections| > 0 {
      SizeFree(sections[1..], first + 1, size, m);
    }
  }
}

=== FILE: patterns.dfy ===
/**
 * The text patterns the table, figure and appendix checkers share: chapter
 * headings and the chapter in force at each paragraph, caption parsing, the
 * left-to-right scan for in-text references, the whole-paragraph section titles,
 * the table-of-contents capture, the caption title rules and the cross-check of
 * labels against references. Each regular expression of the source is written out
 * as the deterministic scan it performs on a stripped paragraph text.
 */
module Patterns {
  import opened Opt
  import opened Text
  import opened DocModel
  import opened Violations

  // ---------------------------------------------------------------------------
  // Chapters

  const ChapterWord: string := "ГЛАВА"

  /**
   * The chapter number a paragraph announces: its text starts with ГЛАВА in any
   * case, then at least one whitespace character, then at least one digit; the
   * number is the whole run of digits.
   */
  function ChapterOf(text: string): (r: Option<string>)
    ensures r.Some? ==> IsDigitString(r.value)
  {
    if |text| >= |ChapterWord| && Upper(text[..|ChapterWord|]) == ChapterWord then
      var rest := text[|ChapterWord|..];
      var sp := SpaceRun(rest);
      var d := DigitRun(rest[sp..]);
      if sp > 0 && d > 0 then Some(rest[sp..][..d]) else None
    else None
  }

  /** A text opening with ГЛАВА announces what its remainder announces. */
  lemma ChapterOfWord(tail: string)
    ensures var sp := SpaceRun(tail);
      var d := DigitRun(tail[sp..]);
      ChapterOf(ChapterWord + tail) == if sp > 0 && d > 0 then Some(tail[sp..][..d]) else None
  {
    var text := ChapterWord + tail;
    assert text[..|ChapterWord|] == ChapterWord;
    assert text[|ChapterWord|..] == tail;
    assert Upper(ChapterWord) == ChapterWord;
  }

  /** A heading written as `ГЛАВА <n>` announces exactly `n`. */
  lemma ChapterRoundTrip(n: nat, rest: string)
    requires |rest| == 0 || !IsDigit(rest[0])
    ensures ChapterOf(ChapterWord + " " + NatToString(n) + rest) == Some(NatToString(n))
  {
    var d := NatToString(n);
    var tail := " " + (d + rest);
    assert ChapterWord + " " + d + rest == ChapterWord + tail;
    ChapterOfWord(tail);
    SpacedDigits(d, rest);
  }

  /** `text` is ГЛАВА (as written in `text`), the whitespace `w`, the digits `d`, and a `rest` not continuing them. */
  predicate AnnouncesChapter(text: string, w: string, d: string, rest: string) {
    && |text| >= |ChapterWord| && Upper(text[..|ChapterWord|]) == ChapterWord
    && |w| > 0 && IsBlank(w) && IsDigitString(d) && (|rest| == 0 || !IsDigit(rest[0]))
    && text == text[..|ChapterWord|] + w + d + rest
  }

  /**
   * The chapter pattern exactly: a text announces chapter `d` iff it is ГЛАВА in any
   * case, at least one whitespace character, and the whole run of digits `d`.
   */
  lemma ChapterIff(text: string, d: string)
    ensures ChapterOf(text) == Some(d) <==> exists w, rest :: AnnouncesChapter(text, w, d, rest)
  {
    if ChapterOf(text) == Some(d) {
      ChapterJoin(text, d);
    }
    if exists w, rest :: AnnouncesChapter(text, w, d, rest) {
      var w, rest :| AnnouncesChapter(text, w, d, rest);
      ChapterSplit(text, w, d, rest);
    }
  }

  lemma ChapterJoin(text: string, d: string)
    requires ChapterOf(text) == Some(d)
    ensures exists w, rest :: AnnouncesChapter(text, w, d, rest)
  {
    var tail := text[|ChapterWord|..];
    var sp := SpaceRun(tail);
    var w := tail[..sp];
    var rest := tail[sp..][|d|..];
    assert tail[sp..] == d + rest;
    assert tail == w + d + rest;
    assert text == text[..|ChapterWord|] + tail;
    assert AnnouncesChapter(text, w, d, rest);
  }

  lemma ChapterSplit(text: string, w: string, d: string, rest: string)
    requires AnnouncesChapter(text, w, d, rest)
    ensures ChapterOf(text) == Some(d)
  {
    var tail := text[|ChapterWord|..];
    assert tail == w + (d + rest);
    assert !IsSpace(d[0]);
    SpaceRunOf(w, d + rest);
    assert tail[|w|..] == d + rest;
    DigitRunOf(d, rest);
    assert (d + rest)[..|d|] == d;
  }

  /** One space, the digits `d`, and a remainder that does not continue them: `\s+(\d+)` captures `d`. */
  lemma SpacedDigits(d: string, rest: string)
    requires IsDigitString(d)
    requires |rest| == 0 || !IsDigit(rest[0])
    ensures var tail := " " + (d + rest);
      SpaceRun(tail) == 1 && DigitRun(tail[1..]) == |d| && tail[1..][..|d|] == d
  {
    var tail := " " + (d + rest);
    SpaceRunOf(" ", d + rest);
    assert tail[1..] == d + rest;
    DigitRunOf(d, rest);
  }

  /** The chapter in force after `text`, given the one in force before it. */
  function NextChapter(current: string, text: string): string {
    match ChapterOf(text)
    case Some(d) => d
    case None => current
  }

  /** The chapter in force at each paragraph, the source's `chapter_numbers` map, starting from `current`. */
  function Chapters(texts: seq<string>, current: string): (r: seq<string>)
    ensures |r| == |texts|
    decreases |texts|
  {
    if |texts| == 0 then []
    else
      var c := NextChapter(current, texts[0]);
      [c] + Chapters(texts[1..], c)
  }

  /** Reference definition: the number of the latest chapter heading in `texts`, or `default` when there is none. */
  function LatestChapter(texts: seq<string>, default: string): string
    decreases |texts|
  {
    if |texts| == 0 then default
    else
      match ChapterOf(texts[|texts| - 1])
      case Some(d) => d
      case None => LatestChapter(texts[..|texts| - 1], default)
  }

  lemma {:induction false} LatestChapterSplit(a: seq<string>, b: seq<string>, default: string)
    ensures LatestChapter(a + b, default) == LatestChapter(b, LatestChapter(a, default))
    decreases |b|
  {
    if |b| == 0 {
      assert a + b == a;
    } else {
      assert (a + b)[..|a + b| - 1] == a + b[..|b| - 1];
      assert (a + b)[|a + b| - 1] == b[|b| - 1];
      LatestChapterSplit(a, b[..|b| - 1], default);
    }
  }

  /** The fold computes the reference definition: paragraph `i` sits in the latest chapter up to and including it. */
  lemma {:induction false} ChaptersAreLatest(texts: seq<string>, current: string, i: nat)
    requires i < |texts|
    ensures Chapters(texts, current)[i] == LatestChapter(texts[..i + 1], current)
    decreases i
  {
    var c := NextChapter(current, texts[0]);
    assert LatestChapter(texts[..1], current) == c by {
      assert texts[..1][..0] == [];
    }
    if i > 0 {
      ChaptersAreLatest(texts[1..], c, i - 1);
      assert texts[..i + 1] == texts[..1] + texts[1..][..i];
      LatestChapterSplit(texts[..1], texts[1..][..i], current);
    }
  }

  /** Until the first chapter heading every paragraph is in chapter "0". */
  lemma {:induction false} ChapterBeforeFirstHeading(texts: seq<string>, i: nat)
    requires i < |texts|
    requires forall j :: 0 <= j <= i ==> ChapterOf(texts[j]).None?
    ensures Chapters(texts, "0")[i] == "0"
  {
    ChaptersAreLatest(texts, "0", i);
    NoHeadingKeepsDefault(texts[..i + 1], "0");
  }

  lemma {:induction false} NoHeadingKeepsDefault(texts: seq<string>, default: string)
    requires forall j :: 0 <= j < |texts| ==> ChapterOf(texts[j]).None?
    ensures LatestChapter(texts, default) == default
    decreases |texts|
  {
    if |texts| > 0 {
      NoHeadingKeepsDefault(texts[..|texts| - 1], default);
    }
  }

  /** After a heading, a paragraph is in the chapter of the most recent heading at or before it. */
  lemma {:induction false} ChapterOfMostRecentHeading(texts: seq<string>, j: nat, i: nat)
    requires j <= i < |texts|
    requires ChapterOf(texts[j]).Some?
    requires forall m :: j < m <= i ==> ChapterOf(texts[m]).None?
    ensures Chapters(texts, "0")[i] == ChapterOf(texts[j]).value
  {
    var a := texts[..j + 1];
    var b := texts[j + 1..i + 1];
    ChaptersAreLatest(texts, "0", i);
    assert texts[..i + 1] == a + b;
    LatestChapterSplit(a, b, "0");
    var d := LatestChapter(a, "0");
    assert d == ChapterOf(texts[j]).value by {
      assert a[|a| - 1] == texts[j];
    }
    forall k | 0 <= k < |b|
      ensures ChapterOf(b[k]).None?
    {
      assert b[k] == texts[j + 1 + k];
    }
    NoHeadingKeepsDefault(b, d);
  }

  // ---------------------------------------------------------------------------
  // Labels

  /** Length of the `\d+(?:\.\d+)?` match at the start of `s`; 0 when there is none. */
  function NumberLength(s: string): (n: nat)
    ensures n <= |s|
  {
    var d := DigitRun(s);
    if d == 0 then 0
    else if d < |s| && s[d] == '.' && DigitRun(s[d + 1..]) > 0 then d + 1 + DigitRun(s[d + 1..])
    else d
  }

  /** A table or figure number: digits, or digits, a dot and digits. */
  predicate IsNumberLabel(l: string) {
    IsDigitString(l) || exists k :: 0 < k < |l| && l[k] == '.' && IsDigitString(l[..k]) && IsDigitString(l[k + 1..])
  }

  /** The `n.m` form of a label. */
  function Dotted(a: string, b: string): string {
    a + "." + b
  }

  /** The match is always a label. */
  lemma NumberLengthIsLabel(s: string)
    requires NumberLength(s) > 0
    ensures IsNumberLabel(s[..NumberLength(s)])
  {
    var d := DigitRun(s);
    var l := s[..NumberLength(s)];
    if NumberLength(s) > d {
      assert l[d] == '.';
      assert l[..d] == s[..d];
      assert l[d + 1..] == s[d + 1..][..DigitRun(s[d + 1..])];
    }
  }

  /**
   * A label followed by a character that can neither extend its digits nor start a
   * dotted part is matched in full.
   */
  lemma NumberLengthOf(l: string, rest: string)
    requires IsNumberLabel(l)
    requires NumberStops(rest)
    ensures NumberLength(l + rest) == |l|
  {
    if IsDigitString(l) {
      DigitRunOf(l, rest);
    } else {
      var k :| 0 < k < |l| && l[k] == '.' && IsDigitString(l[..k]) && IsDigitString(l[k + 1..]);
      assert l == Dotted(l[..k], l[k + 1..]);
      DottedLength(l[..k], l[k + 1..], rest);
    }
  }

  lemma DottedLength(a: string, b: string, rest: string)
    requires IsDigitString(a) && IsDigitString(b)
    requires NumberStops(rest)
    ensures NumberLength(Dotted(a, b) + rest) == |a| + 1 + |b|
  {
    var s := Dotted(a, b) + rest;
    assert s == a + ("." + b + rest);
    DigitRunOf(a, "." + b + rest);
    assert s[|a|] == '.';
    assert s[|a| + 1..] == b + rest;
    DigitRunOf(b, rest);
  }

  /** An appendix header label: one capital letter А..Я, or digits. */
  predicate IsAppendixLabel(l: string) {
    (|l| == 1 && '\U{0410}' <= l[0] <= '\U{042F}') || IsDigitString(l)
  }

  /** The labels the in-text reference patterns capture. */
  datatype Shape = NumberShape | AppendixShape

  /**
   * Length of the captured label at the start of `s`; 0 when there is none. An
   * appendix reference is matched case-insensitively, so its letter is any of
   * А..Я and а..я.
   */
  function LabelLength(shape: Shape, s: string): (n: nat)
    ensures n <= |s|
  {
    match shape
    case NumberShape => NumberLength(s)
    case AppendixShape => if |s| > 0 && '\U{0410}' <= s[0] <= '\U{044F}' then 1 else DigitRun(s)
  }

  // ---------------------------------------------------------------------------
  // In-text references: `findall` of `(?:kw1|kw2)\s+(label)`, ignoring case

  /** One match: the captured label and how many characters the whole match spans. */
  datatype Hit = Hit(number: string, length: nat)

  /** The match of keyword `kw` (lower case), whitespace and a label at the start of `s`. */
  function MatchKeyword(s: string, kw: string, shape: Shape): (r: Option<Hit>)
    ensures r.Some? ==> 0 < r.value.length <= |s| && |r.value.number| > 0
  {
    if |kw| <= |s| && Lower(s[..|kw|]) == kw then MatchLabel(s[|kw|..], |kw|, shape) else None
  }

  /** After a keyword of length `offset`: at least one whitespace character, then the label. */
  function MatchLabel(rest: string, offset: nat, shape: Shape): (r: Option<Hit>)
    ensures r.Some? ==> offset < r.value.length <= offset + |rest| && |r.value.number| > 0
  {
    var sp := SpaceRun(rest);
    var n := LabelLength(shape, rest[sp..]);
    if sp > 0 && n > 0 then Some(Hit(rest[sp..][..n], offset + sp + n)) else None
  }

  /** The first alternative, in order, that matches at the start of `s`. */
  function MatchAt(s: string, kws: seq<string>, shape: Shape): (r: Option<Hit>)
    ensures r.Some? ==> 0 < r.value.length <= |s| && |r.value.number| > 0
    decreases |kws|
  {
    if |kws| == 0 then None
    else
      match MatchKeyword(s, kws[0], shape)
      case Some(h) => Some(h)
      case None => MatchAt(s, kws[1..], shape)
  }

  /** Python's `findall`: non-overlapping matches from left to right, each resuming where the last ended. */
  function FindLabels(s: string, kws: seq<string>, shape: Shape): seq<string>
    decreases |s|
  {
    if |s| == 0 then []
    else
      match MatchAt(s, kws, shape)
      case Some(h) => [h.number] + FindLabels(s[h.length..], kws, shape)
      case None => FindLabels(s[1..], kws, shape)
  }

  /** Every label found is a match of some alternative at some position of the text. */
  lemma {:induction false} FindLabelsSound(s: string, kws: seq<string>, shape: Shape, l: string)
    requires l in FindLabels(s, kws, shape)
    ensures exists i :: 0 <= i < |s| && MatchAt(s[i..], kws, shape).Some? && MatchAt(s[i..], kws, shape).value.number == l
    decreases |s|
  {
    match MatchAt(s, kws, shape)
    case Some(h) =>
      if l != h.number {
        FindLabelsSound(s[h.length..], kws, shape, l);
        var i :| 0 <= i < |s[h.length..]| && MatchAt(s[h.length..][i..], kws, shape).Some?
          && MatchAt(s[h.length..][i..], kws, shape).value.number == l;
        assert s[h.length..][i..] == s[h.length + i..];
      } else {
        assert s[0..] == s;
      }
    case None =>
      FindLabelsSound(s[1..], kws, shape, l);
      var i :| 0 <= i < |s[1..]| && MatchAt(s[1..][i..], kws, shape).Some? && MatchAt(s[1..][i..], kws, shape).value.number == l;
      assert s[1..][i..] == s[i + 1..];
  }

  /** No keyword of the list is a prefix of another: at most one alternative can start at a position. */
  predicate Unnested(kws: seq<string>, kw: string) {
    forall k :: 0 <= k < |kws| && kws[k] != kw ==> !(kws[k] <= kw) && !(kw <= kws[k])
  }

  /** What may follow a complete `\d+(?:\.\d+)?` match: the end, or neither a digit nor a dot before a digit. */
  predicate NumberStops(rest: string) {
    |rest| == 0 || (!IsDigit(rest[0]) && !(rest[0] == '.' && |rest| > 1 && IsDigit(rest[1])))
  }

  /** A label that ends where the text after it begins. */
  predicate LabelEndsAt(shape: Shape, l: string, rest: string) {
    match shape
    case NumberShape => IsNumberLabel(l) && NumberStops(rest)
    case AppendixShape =>
      || (|l| == 1 && '\U{0410}' <= l[0] <= '\U{044F}')
      || (IsDigitString(l) && (|rest| == 0 || !IsDigit(rest[0])))
  }

  /** A single space before a non-space character is one greedy whitespace run. */
  lemma OneSpace(x: string)
    requires |x| > 0 && !IsSpace(x[0])
    ensures SpaceRun(" " + x) == 1 && (" " + x)[1..] == x
  {
    SpaceRunOf(" ", x);
  }

  lemma LabelLengthOf(shape: Shape, l: string, rest: string)
    requires LabelEndsAt(shape, l, rest)
    ensures LabelLength(shape, l + rest) == |l|
  {
    match shape
    case NumberShape => NumberLengthOf(l, rest);
    case AppendixShape =>
      if !(|l| == 1 && '\U{0410}' <= l[0] <= '\U{044F}') {
        DigitRunOf(l, rest);
      }
  }

  /** The text starts with keyword `kw` in any case, as `MatchKeyword` tests it. */
  predicate StartsWithKeyword(s: string, kw: string) {
    |kw| <= |s| && Lower(s[..|kw|]) == kw
  }

  lemma MatchKeywordOther(s: string, kw: string, other: string, shape: Shape)
    requires StartsWithKeyword(s, kw) && Lower(other) == other
    requires !(other <= kw) && !(kw <= other)
    ensures MatchKeyword(s, other, shape).None?
  {
    if |other| <= |kw| {
      assert s[..|kw|][..|other|] == s[..|other|];
      LowerPrefix(s[..|kw|], |other|);
      assert Lower(s[..|other|]) == kw[..|other|] != other;
    } else if |other| <= |s| {
      assert s[..|other|][..|kw|] == s[..|kw|];
      LowerPrefix(s[..|other|], |kw|);
      assert Lower(s[..|other|])[..|kw|] == kw != other[..|kw|];
    }
  }

  lemma {:induction false} MatchAtNone(s: string, kws: seq<string>, kw: string, shape: Shape)
    requires StartsWithKeyword(s, kw)
    requires Unnested(kws, kw)
    requires forall k :: 0 <= k < |kws| ==> Lower(kws[k]) == kws[k]
    requires MatchKeyword(s, kw, shape).None?
    ensures MatchAt(s, kws, shape).None?
    decreases |kws|
  {
    if |kws| > 0 {
      if kws[0] != kw {
        MatchKeywordOther(s, kw, kws[0], shape);
      }
      var rest := kws[1..];
      assert MatchKeyword(s, kws[0], shape).None?;
      assert MatchAt(s, kws, shape) == MatchAt(s, rest, shape);
      assert forall k :: 0 <= k < |rest| ==> rest[k] == kws[k + 1];
      assert Unnested(rest, kw);
      MatchAtNone(s, rest, kw, shape);
    }
  }

  lemma {:induction false} MatchAtOnly(s: string, kws: seq<string>, kw: string, shape: Shape)
    requires StartsWithKeyword(s, kw)
    requires kw in kws && Unnested(kws, kw)
    requires forall k :: 0 <= k < |kws| ==> Lower(kws[k]) == kws[k]
    ensures MatchAt(s, kws, shape) == MatchKeyword(s, kw, shape)
  {
    if MatchKeyword(s, kw, shape).None? {
      MatchAtNone(s, kws, kw, shape);
    } else {
      MatchAtFirst(s, kws, kw, shape);
    }
  }

  lemma {:induction false} MatchAtFirst(s: string, kws: seq<string>, kw: string, shape: Shape)
    requires StartsWithKeyword(s, kw)
    requires kw in kws && Unnested(kws, kw)
    requires forall k :: 0 <= k < |kws| ==> Lower(kws[k]) == kws[k]
    requires MatchKeyword(s, kw, shape).Some?
    ensures MatchAt(s, kws, shape) == MatchKeyword(s, kw, shape)
    decreases |kws|
  {
    if kws[0] != kw {
      MatchKeywordOther(s, kw, kws[0], shape);
      assert kw in kws[1..];
      assert Unnested(kws[1..], kw) by {
        forall k | 0 <= k < |kws| - 1
          ensures kws[1..][k] == kws[k + 1]
        {
        }
      }
      MatchAtFirst(s, kws[1..], kw, shape);
    }
  }

  /** Whitespace and a complete label: the label is captured. */
  lemma MatchLabelOf(offset: nat, shape: Shape, w: string, l: string, rest: string)
    requires |w| > 0 && IsBlank(w)
    requires LabelEndsAt(shape, l, rest)
    ensures MatchLabel(w + l + rest, offset, shape) == Some(Hit(l, offset + |w| + |l|))
  {
    LabelLengthOf(shape, l, rest);
    LabelOpensNonSpace(shape, l, rest);
    MatchLabelAfter(offset, shape, w, l + rest);
    assert w + l + rest == w + (l + rest);
    assert (l + rest)[..|l|] == l;
  }

  /** A complete label is non-empty and opens with a non-space character. */
  lemma LabelOpensNonSpace(shape: Shape, l: string, rest: string)
    requires LabelEndsAt(shape, l, rest)
    ensures |l| > 0 && !IsSpace(l[0])
  {
    if shape.NumberShape? && !IsDigitString(l) {
      var k :| 0 < k < |l| && l[k] == '.' && IsDigitString(l[..k]) && IsDigitString(l[k + 1..]);
      assert l[0] == l[..k][0];
    }
  }

  /** After a whitespace run that ends at a non-space, the label is read from that point on. */
  lemma MatchLabelAfter(offset: nat, shape: Shape, w: string, u: string)
    requires |w| > 0 && IsBlank(w) && |u| > 0 && !IsSpace(u[0])
    ensures var n := LabelLength(shape, u);
      MatchLabel(w + u, offset, shape) == if n > 0 then Some(Hit(u[..n], offset + |w| + n)) else None
  {
    SpaceRunOf(w, u);
    assert (w + u)[|w|..] == u;
  }

  /** A keyword in any case, whitespace and a complete label: the keyword's match captures the label. */
  lemma MatchKeywordOf(k: string, kw: string, shape: Shape, w: string, l: string, rest: string)
    requires Lower(k) == kw
    requires |w| > 0 && IsBlank(w)
    requires LabelEndsAt(shape, l, rest)
    ensures MatchKeyword(k + w + l + rest, kw, shape) == Some(Hit(l, |k| + |w| + |l|))
  {
    var t := w + l + rest;
    assert k + w + l + rest == k + t;
    KeywordThen(k, kw, t, shape);
    MatchLabelOf(|kw|, shape, w, l, rest);
  }

  /** After a keyword written in any case, the match is the match of what follows it. */
  lemma KeywordThen(k: string, kw: string, t: string, shape: Shape)
    requires Lower(k) == kw
    ensures MatchKeyword(k + t, kw, shape) == MatchLabel(t, |kw|, shape)
  {
    assert (k + t)[..|kw|] == k;
    assert (k + t)[|kw|..] == t;
  }

  /**
   * A reference is found: a keyword of the list written in any case, at least one
   * whitespace character and a complete label yield that label, and the scan
   * resumes right after it.
   */
  lemma ReferenceFound(kws: seq<string>, k: string, kw: string, shape: Shape, w: string, l: string, rest: string)
    requires kw in kws && Unnested(kws, kw) && Lower(k) == kw
    requires forall i :: 0 <= i < |kws| ==> Lower(kws[i]) == kws[i]
    requires |w| > 0 && IsBlank(w)
    requires LabelEndsAt(shape, l, rest)
    ensures FindLabels(k + w + l + rest, kws, shape) == [l] + FindLabels(rest, kws, shape)
  {
    var s := k + w + l + rest;
    assert s[..|kw|] == k;
    MatchKeywordOf(k, kw, shape, w, l, rest);
    MatchAtOnly(s, kws, kw, shape);
    assert s[|k| + |w| + |l|..] == rest;
  }

  /** No match starts within `u`, and none runs past its end: the scan finds in `u + s` what it finds in `s`. */
  lemma {:induction false} FindLabelsSkip(u: string, s: string, kws: seq<string>, shape: Shape)
    requires forall i :: 0 <= i < |u| ==> MatchAt((u + s)[i..], kws, shape).None?
    ensures FindLabels(u + s, kws, shape) == FindLabels(s, kws, shape)
    decreases |u|
  {
    if |u| > 0 {
      assert MatchAt((u + s)[0..], kws, shape).None?;
      assert (u + s)[0..] == u + s;
      assert (u + s)[1..] == u[1..] + s;
      forall i | 0 <= i < |u[1..]| ensures MatchAt((u[1..] + s)[i..], kws, shape).None? {
        assert (u[1..] + s)[i..] == (u + s)[i + 1..];
      }
      FindLabelsSkip(u[1..], s, kws, shape);
    } else {
      assert u + s == s;
    }
  }

  /** Every label of `s` is still found after text in which no match starts. */
  lemma FindLabelsAfter(u: string, s: string, kws: seq<string>, shape: Shape, l: string)
    requires forall i :: 0 <= i < |u| ==> MatchAt((u + s)[i..], kws, shape).None?
    requires l in FindLabels(s, kws, shape)
    ensures l in FindLabels(u + s, kws, shape)
  {
    FindLabelsSkip(u, s, kws, shape);
  }

  // ---------------------------------------------------------------------------
  // Captions: `^prefix\s+(label)\s*–\s*(.+)$` on the stripped text

  /** The en dash U+2013 that separates a caption's number from its title. */
  const EnDash: char := '\U{2013}'

  datatype Caption = Caption(number: string, title: string)

  /**
   * The caption a paragraph text carries, if its stripped text is the prefix,
   * whitespace, a label, optional whitespace, an en dash, optional whitespace and a
   * title on one line. The title begins at its first non-whitespace character.
   */
  function ParseCaption(prefix: string, text: string): (r: Option<Caption>)
    ensures r.Some? ==> IsNumberLabel(r.value.number)
    ensures r.Some? ==> |r.value.title| > 0 && !IsSpace(r.value.title[0]) && '\n' !in r.value.title
  {
    var s := Strip(text);
    if |prefix| <= |s| && s[..|prefix|] == prefix then ParseNumber(s[|prefix|..]) else None
  }

  /** After the prefix: whitespace, then the label, then the title part. */
  function ParseNumber(a: string): (r: Option<Caption>)
    ensures r.Some? ==> IsNumberLabel(r.value.number)
    ensures r.Some? ==> |r.value.title| > 0 && !IsSpace(r.value.title[0]) && '\n' !in r.value.title
  {
    var sp := SpaceRun(a);
    var b := a[sp..];
    var n := NumberLength(b);
    if sp > 0 && n > 0 then
      NumberLengthIsLabel(b);
      ParseTitle(b[..n], b[n..])
    else None
  }

  /** After the label: optional whitespace, the dash, optional whitespace, and a one-line title. */
  function ParseTitle(number: string, c: string): (r: Option<Caption>)
    ensures r.Some? ==> r.value.number == number
    ensures r.Some? ==> |r.value.title| > 0 && !IsSpace(r.value.title[0]) && '\n' !in r.value.title
  {
    var sp := SpaceRun(c);
    if sp < |c| && c[sp] == EnDash then
      var d := c[sp + 1..];
      var title := d[SpaceRun(d)..];
      if |title| > 0 && '\n' !in title then Some(Caption(number, title)) else None
    else None
  }

  /**
   * `s` is `prefix`, the whitespace `w1`, the label `number`, the whitespace `w2`, the
   * en dash, the whitespace `w3`, and a one-line `title` starting with a non-space.
   */
  predicate CaptionSplit(prefix: string, s: string, w1: string, number: string, w2: string, w3: string, title: string) {
    && |w1| > 0 && IsBlank(w1) && IsBlank(w2) && IsBlank(w3)
    && IsNumberLabel(number)
    && |title| > 0 && !IsSpace(title[0]) && '\n' !in title
    && s == prefix + w1 + number + w2 + [EnDash] + w3 + title
  }

  /**
   * The caption pattern exactly: a paragraph carries caption (number, title) iff its
   * stripped text splits as `prefix`, whitespace, the label, optional whitespace, the
   * en dash, optional whitespace and the title.
   */
  lemma CaptionIff(prefix: string, text: string, number: string, title: string)
    ensures ParseCaption(prefix, text) == Some(Caption(number, title)) <==>
      exists w1, w2, w3 :: CaptionSplit(prefix, Strip(text), w1, number, w2, w3, title)
  {
    if ParseCaption(prefix, text) == Some(Caption(number, title)) {
      CaptionJoin(prefix, text, number, title);
    }
    if exists w1, w2, w3 :: CaptionSplit(prefix, Strip(text), w1, number, w2, w3, title) {
      var w1, w2, w3 :| CaptionSplit(prefix, Strip(text), w1, number, w2, w3, title);
      CaptionSplitParses(prefix, Strip(text), w1, number, w2, w3, title);
    }
  }

  lemma CaptionJoin(prefix: string, text: string, number: string, title: string)
    requires ParseCaption(prefix, text) == Some(Caption(number, title))
    ensures exists w1, w2, w3 :: CaptionSplit(prefix, Strip(text), w1, number, w2, w3, title)
  {
    var s := Strip(text);
    assert |prefix| <= |s| && s[..|prefix|] == prefix;
    var a := s[|prefix|..];
    assert ParseNumber(a) == Some(Caption(number, title));
    var sp, n := ParsedNumber(a, number, title);
    var w1, c := NumberJoin(a, sp, n);
    var w2, w3 := TitleJoin(number, c, title);
    JoinParts(prefix, s, a, w1, number, c, w2, w3, title);
  }

  lemma JoinParts(prefix: string, s: string, a: string, w1: string, number: string, c: string,
                  w2: string, w3: string, title: string)
    requires |prefix| <= |s| && s[..|prefix|] == prefix && a == s[|prefix|..]
    requires |w1| > 0 && IsBlank(w1) && IsNumberLabel(number) && a == w1 + number + c
    requires IsBlank(w2) && IsBlank(w3) && c == w2 + [EnDash] + w3 + title
    requires |title| > 0 && !IsSpace(title[0]) && '\n' !in title
    ensures CaptionSplit(prefix, s, w1, number, w2, w3, title)
  {
    assert s == prefix + a;
  }

  /** The text after the prefix of a parsed caption: whitespace, the label, and the title part. */
  lemma NumberJoin(a: string, sp: nat, n: nat) returns (w1: string, c: string)
    requires sp == SpaceRun(a) && 0 < sp && n <= |a| - sp
    ensures |w1| > 0 && IsBlank(w1)
    ensures a == w1 + a[sp..][..n] + c && c == a[sp..][n..]
  {
    w1 := a[..sp];
    c := a[sp..][n..];
    assert IsBlank(w1) by {
      forall i | 0 <= i < |w1| ensures IsSpace(w1[i]) {
        assert w1[i] == a[i];
      }
    }
    SplitThree(a, sp, n);
  }

  /** Where the whitespace and the label of a parsed caption end. */
  lemma ParsedNumber(a: string, number: string, title: string) returns (sp: nat, n: nat)
    requires ParseNumber(a) == Some(Caption(number, title))
    ensures sp == SpaceRun(a) && 0 < sp && 0 < n <= |a| - sp
    ensures number == a[sp..][..n] && IsNumberLabel(number)
    ensures ParseTitle(number, a[sp..][n..]) == Some(Caption(number, title))
  {
    sp := SpaceRun(a);
    var b := a[sp..];
    n := NumberLength(b);
    assert ParseTitle(b[..n], b[n..]) == Some(Caption(number, title));
    NumberLengthIsLabel(b);
  }

  lemma SplitThree(a: string, i: nat, j: nat)
    requires i <= |a| && j <= |a| - i
    ensures a == a[..i] + a[i..][..j] + a[i..][j..]
  {
    assert a[i..] == a[i..][..j] + a[i..][j..];
    assert a == a[..i] + a[i..];
  }

  /** The title part of a parsed caption: whitespace, the en dash, whitespace and the title. */
  lemma TitleJoin(number: string, c: string, title: string) returns (w2: string, w3: string)
    requires ParseTitle(number, c) == Some(Caption(number, title))
    ensures IsBlank(w2) && IsBlank(w3) && c == w2 + [EnDash] + w3 + title
  {
    var after, t;
    w2, after := SpaceSplit(c);
    DashAfter(number, c, title, after);
    w3, t := SpaceSplit(after[1..]);
    DashJoin(c, w2, after, w3, t);
  }

  /** What follows the first whitespace run of a parsed title part: the en dash, then whitespace and the title. */
  lemma DashAfter(number: string, c: string, title: string, after: string)
    requires ParseTitle(number, c) == Some(Caption(number, title))
    requires after == c[SpaceRun(c)..]
    ensures |after| > 0 && after[0] == EnDash
    ensures title == after[1..][SpaceRun(after[1..])..]
  {
    assert after[1..] == c[SpaceRun(c) + 1..];
  }

  lemma DashJoin(c: string, w2: string, after: string, w3: string, t: string)
    requires c == w2 + after && |after| > 0 && after[0] == EnDash && after[1..] == w3 + t
    ensures c == w2 + [EnDash] + w3 + t
  {
    assert after == [EnDash] + after[1..];
  }

  /** A text split where its leading whitespace run ends. */
  lemma SpaceSplit(s: string) returns (w: string, t: string)
    ensures IsBlank(w) && s == w + t
    ensures w == s[..SpaceRun(s)] && t == s[SpaceRun(s)..]
  {
    w := s[..SpaceRun(s)];
    t := s[SpaceRun(s)..];
    assert IsBlank(w) by {
      forall i | 0 <= i < |w| ensures IsSpace(w[i]) {
        assert w[i] == s[i];
      }
    }
  }

  lemma CaptionSplitParses(prefix: string, s: string, w1: string, number: string, w2: string, w3: string, title: string)
    requires CaptionSplit(prefix, s, w1, number, w2, w3, title)
    ensures |prefix| <= |s| && s[..|prefix|] == prefix
    ensures ParseNumber(s[|prefix|..]) == Some(Caption(number, title))
  {
    var c := w2 + [EnDash] + w3 + title;
    assert s == prefix + (w1 + number + c);
    assert s[|prefix|..] == w1 + number + c;
    TitleParses(number, w2, w3, title);
    NumberParses(w1, number, c);
  }

  /** Whitespace, a label, and a title part that cannot continue the label: the label is read whole. */
  lemma NumberParses(w1: string, number: string, c: string)
    requires |w1| > 0 && IsBlank(w1) && IsNumberLabel(number)
    requires |c| > 0 && (IsSpace(c[0]) || c[0] == EnDash)
    ensures ParseNumber(w1 + number + c) == ParseTitle(number, c)
  {
    var b := number + c;
    assert |number| > 0 && !IsSpace(number[0]) by {
      if !IsDigitString(number) {
        var k :| 0 < k < |number| && number[k] == '.' && IsDigitString(number[..k]) && IsDigitString(number[k + 1..]);
        assert number[0] == number[..k][0];
      }
    }
    SpaceRunOf(w1, b);
    assert w1 + number + c == w1 + b;
    assert (w1 + b)[|w1|..] == b;
    NumberLengthOf(number, c);
    assert b[..|number|] == number && b[|number|..] == c;
  }

  /** Whitespace, the en dash, whitespace and a one-line title read back as that title. */
  lemma TitleParses(number: string, w2: string, w3: string, title: string)
    requires IsBlank(w2) && IsBlank(w3)
    requires |title| > 0 && !IsSpace(title[0]) && '\n' !in title
    ensures var c := w2 + [EnDash] + w3 + title;
      |c| > 0 && (IsSpace(c[0]) || c[0] == EnDash) && ParseTitle(number, c) == Some(Caption(number, title))
  {
    var dd := w3 + title;
    var c := w2 + [EnDash] + w3 + title;
    assert c == w2 + ([EnDash] + dd);
    SpaceRunOf(w2, [EnDash] + dd);
    assert c[|w2|] == EnDash && c[|w2| + 1..] == dd;
    SpaceRunOf(w3, title);
    assert dd[|w3|..] == title;
  }

  lemma ParseTitleOf(number: string, title: string)
    requires |title| > 0 && !IsSpace(title[0]) && '\n' !in title
    ensures ParseTitle(number, " " + [EnDash] + " " + title) == Some(Caption(number, title))
  {
    var c := " " + [EnDash] + " " + title;
    assert c == " " + ([EnDash] + " " + title);
    OneSpace([EnDash] + " " + title);
    var d := c[2..];
    assert d == " " + title;
    OneSpace(title);
  }

  lemma ParseNumberOf(number: string, title: string)
    requires IsNumberLabel(number)
    requires |title| > 0 && !IsSpace(title[0]) && '\n' !in title
    ensures ParseNumber(" " + number + " " + [EnDash] + " " + title) == Some(Caption(number, title))
  {
    var tail := " " + [EnDash] + " " + title;
    assert " " + number + " " + [EnDash] + " " + title == " " + (number + tail);
    NumberTail(number, tail);
    ParseTitleOf(number, title);
  }

  lemma NumberTail(number: string, tail: string)
    requires IsNumberLabel(number)
    requires |tail| > 0 && !IsDigit(tail[0]) && tail[0] != '.'
    ensures var b := (" " + (number + tail))[SpaceRun(" " + (number + tail))..];
      && b == number + tail
      && NumberLength(b) == |number|
      && b[..|number|] == number && b[|number|..] == tail
  {
    assert |number| > 0 && IsDigit(number[0]);
    OneSpace(number + tail);
    NumberLengthOf(number, tail);
  }

  /** A caption written as `prefix N – Title` parses back to `N` and `Title`. */
  lemma CaptionRoundTrip(prefix: string, number: string, title: string)
    requires |prefix| > 0 && !IsSpace(prefix[0])
    requires IsNumberLabel(number)
    requires |title| > 0 && !IsSpace(title[0]) && !IsSpace(title[|title| - 1]) && '\n' !in title
    ensures ParseCaption(prefix, prefix + " " + number + " " + [EnDash] + " " + title) == Some(Caption(number, title))
  {
    var rest := " " + number + " " + [EnDash] + " " + title;
    var text := prefix + rest;
    assert text == prefix + " " + number + " " + [EnDash] + " " + title;
    assert text[0] == prefix[0];
    assert text[|text| - 1] == title[|title| - 1];
    assert Strip(text) == text;
    assert text[..|prefix|] == prefix;
    assert text[|prefix|..] == rest;
    ParseNumberOf(number, title);
  }

  // ---------------------------------------------------------------------------
  // Whole-paragraph titles: `^(?:w1\s+w2...|...)$`, ignoring case

  /** The text is the words (lower case) in order, separated by runs of whitespace, in any case. */
  predicate WordsMatch(s: string, words: seq<string>)
    decreases |words|
  {
    if |words| == 0 then |s| == 0
    else if |words| == 1 then Lower(s) == words[0]
    else
      && |words[0]| <= |s|
      && Lower(s[..|words[0]|]) == words[0]
      && var rest := s[|words[0]|..];
      && SpaceRun(rest) > 0
      && WordsMatch(rest[SpaceRun(rest)..], words[1..])
  }

  /** The text is one of the alternatives. */
  predicate MatchesPhrase(s: string, phrases: seq<seq<string>>) {
    exists k :: 0 <= k < |phrases| && WordsMatch(s, phrases[k])
  }

  /** The last text that is one of the alternatives (later matches overwrite earlier ones). */
  function LastMatching(texts: seq<string>, phrases: seq<seq<string>>): (r: Option<nat>)
    ensures r.Some? ==> r.value < |texts| && MatchesPhrase(texts[r.value], phrases)
    ensures r.Some? ==> forall j :: r.value < j < |texts| ==> !MatchesPhrase(texts[j], phrases)
    ensures r.None? ==> forall j :: 0 <= j < |texts| ==> !MatchesPhrase(texts[j], phrases)
    decreases |texts|
  {
    if |texts| == 0 then None
    else if MatchesPhrase(texts[|texts| - 1], phrases) then Some(|texts| - 1)
    else
      var r := LastMatching(texts[..|texts| - 1], phrases);
      assert forall j :: 0 <= j < |texts| - 1 ==> texts[..|texts| - 1][j] == texts[j];
      r
  }

  /** A title written with single spaces matches its own words. */
  lemma {:induction false} WordsMatchJoin(words: seq<string>)
    requires forall k :: 0 <= k < |words| ==> |words[k]| > 0 && !IsSpace(words[k][0]) && Lower(words[k]) == words[k]
    ensures WordsMatch(Join(words, " "), words)
    decreases |words|
  {
    if |words| > 1 {
      var s := Join(words, " ");
      var tail := Join(words[1..], " ");
      assert s == words[0] + " " + tail;
      assert s[..|words[0]|] == words[0];
      assert s[|words[0]|..] == " " + tail;
      assert words[1..][0] <= tail;
      SpaceRunOf(" ", tail);
      assert (" " + tail)[1..] == tail;
      WordsMatchJoin(words[1..]);
    } else if |words| == 1 {
      assert Join(words, " ") == words[0];
    }
  }

  /** `Список иллюстративного материала` or `Список рисунков`. */
  const IllustrationsListTitles: seq<seq<string>> := [
    ["список", "иллюстративного", "материала"],
    ["список", "рисунков"]
  ]

  // ---------------------------------------------------------------------------
  // The table of contents

  const TocTitle: string := "оглавление"
  /** The openings that were meant to end the table of contents. */
  const TocExits: seq<string> := ["Введение", "Список сокращений", "Список терминов"]

  /**
   * One step of the capture: a paragraph reading `оглавление` (any case) opens the
   * table of contents; while it is open every non-empty paragraph is captured. The
   * third branch, meant to close it, is tested only on an empty paragraph.
   */
  function TocStep(inToc: bool, text: string): (bool, Option<string>) {
    if Lower(text) == TocTitle then (true, None)
    else if inToc && text != "" then (true, Some(text))
    else if inToc && StartsWithAny(text, TocExits) then (false, None)
    else (inToc, None)
  }

  /** The closing branch never runs: once open, the table of contents stays open. */
  lemma TocNeverCloses(inToc: bool, text: string)
    ensures TocStep(inToc, text).0 == (inToc || Lower(text) == TocTitle)
  {
    if inToc && text == "" && Lower(text) != TocTitle {
      assert !StartsWithAny(text, TocExits);
    }
  }

  /** The captured lines, in order. */
  function TocLines(texts: seq<string>, inToc: bool): seq<string>
    decreases |texts|
  {
    if |texts| == 0 then []
    else
      var (open, line) := TocStep(inToc, texts[0]);
      (match line case Some(l) => [l] case None => []) + TocLines(texts[1..], open)
  }

  /** The table of contents of a document: the capture started closed. */
  function Toc(texts: seq<string>): seq<string> {
    TocLines(texts, false)
  }

  /** Paragraph `i` follows an `оглавление` paragraph, or the capture was already open. */
  predicate AfterTocTitle(texts: seq<string>, i: int, inToc: bool) {
    inToc || exists j :: 0 <= j < i && j < |texts| && Lower(texts[j]) == TocTitle
  }

  /** Paragraph `i` is captured: it is non-empty, not itself `оглавление`, and follows one. */
  predicate Captured(texts: seq<string>, i: int, inToc: bool) {
    && 0 <= i < |texts|
    && texts[i] != ""
    && Lower(texts[i]) != TocTitle
    && AfterTocTitle(texts, i, inToc)
  }

  lemma {:induction false} TocLinesSpec(texts: seq<string>, inToc: bool, line: string)
    ensures line in TocLines(texts, inToc) <==> exists i :: Captured(texts, i, inToc) && texts[i] == line
    decreases |texts|
  {
    if |texts| > 0 {
      var t := texts[0];
      var rest := texts[1..];
      var open := TocStep(inToc, t).0;
      TocNeverCloses(inToc, t);
      TocLinesSpec(rest, open, line);
      if line in TocLines(texts, inToc) {
        if TocStep(inToc, t).1 == Some(line) {
          assert Captured(texts, 0, inToc);
        } else {
          var i :| Captured(rest, i, open) && rest[i] == line;
          assert rest[i] == texts[i + 1];
          if !open {
            var j :| 0 <= j < i && j < |rest| && Lower(rest[j]) == TocTitle;
            assert rest[j] == texts[j + 1];
          } else if !inToc {
            assert Lower(texts[0]) == TocTitle;
          }
          assert Captured(texts, i + 1, inToc);
        }
      }
      if exists i :: Captured(texts, i, inToc) && texts[i] == line {
        var i :| Captured(texts, i, inToc) && texts[i] == line;
        if i > 0 {
          assert rest[i - 1] == texts[i];
          if !inToc {
            var j :| 0 <= j < i && j < |texts| && Lower(texts[j]) == TocTitle;
            if j > 0 {
              assert rest[j - 1] == texts[j];
            }
          }
          assert Captured(rest, i - 1, open);
        }
      }
    }
  }

  /** The upper-cased `entry` occurs in the upper-cased text of some captured line. */
  predicate InToc(entry: string, toc: seq<string>) {
    exists k :: 0 <= k < |toc| && Contains(Upper(toc[k]), Upper(entry))
  }

  // ---------------------------------------------------------------------------
  // Rules shared by captions and appendix titles

  /**
   * The three independent title rules: an error for a title whose first character
   * is not an upper-case letter, one for a title ending with a full stop, and one
   * for a paragraph that is not centred; in that order.
   */
  function TitleErrors(kind: Kind, number: string, paragraph: nat, title: string, alignment: Alignment): seq<Violation>
    requires |title| > 0
  {
    (if !IsUpperChar(title[0]) then [TitleNotCapitalised(kind, number, paragraph)] else [])
      + (if title[|title| - 1] == '.' then [TitleEndsWithPeriod(kind, number, paragraph)] else [])
      + (if alignment != Center then [NotCentred(kind, number, paragraph)] else [])
  }

  /**
   * Each title rule reports exactly its own defect: a first character that is not an
   * upper-case letter, a final full stop, an alignment other than centred. Nothing
   * else is reported.
   */
  lemma TitleErrorsSpec(kind: Kind, number: string, paragraph: nat, title: string, alignment: Alignment)
    requires |title| > 0
    ensures var r := TitleErrors(kind, number, paragraph, title, alignment);
      && (TitleNotCapitalised(kind, number, paragraph) in r <==> !IsUpperChar(title[0]))
      && (TitleEndsWithPeriod(kind, number, paragraph) in r <==> title[|title| - 1] == '.')
      && (NotCentred(kind, number, paragraph) in r <==> alignment != Center)
      && (forall v :: v in r ==>
            v == TitleNotCapitalised(kind, number, paragraph)
            || v == TitleEndsWithPeriod(kind, number, paragraph)
            || v == NotCentred(kind, number, paragraph))
  {
  }

  /** Every title error is one of the three title rules. */
  lemma TitleErrorsTags(kind: Kind, number: string, paragraph: nat, title: string, alignment: Alignment)
    requires |title| > 0
    ensures forall v :: v in TitleErrors(kind, number, paragraph, title, alignment) ==>
      v.TitleNotCapitalised? || v.TitleEndsWithPeriod? || v.NotCentred?
  {
  }

  /**
   * The rules for a numbered caption found at paragraph `c`: a numbering error when
   * its number is not `expected`, then the title rules.
   */
  function CaptionErrors(kind: Kind, ordinal: nat, c: nat, cap: Caption, expected: string, alignment: Alignment): seq<Violation>
    requires |cap.title| > 0
  {
    (if cap.number != expected then [WrongNumber(kind, ordinal, expected, cap.number)] else [])
      + TitleErrors(kind, cap.number, c, cap.title, alignment)
  }

  /**
   * A caption draws its numbering error exactly when its number is not the expected
   * one; every other error is one of its title errors.
   */
  lemma CaptionErrorsSpec(kind: Kind, ordinal: nat, c: nat, cap: Caption, expected: string, alignment: Alignment)
    requires |cap.title| > 0
    ensures var r := CaptionErrors(kind, ordinal, c, cap, expected, alignment);
      && (WrongNumber(kind, ordinal, expected, cap.number) in r <==> cap.number != expected)
      && (forall v :: v in r ==>
            v == WrongNumber(kind, ordinal, expected, cap.number)
            || v == TitleNotCapitalised(kind, cap.number, c)
            || v == TitleEndsWithPeriod(kind, cap.number, c)
            || v == NotCentred(kind, cap.number, c))
  {
    TitleErrorsSpec(kind, cap.number, c, cap.title, alignment);
  }

  /** A caption's errors are its numbering error and title errors, never a figure, list or reference error. */
  lemma CaptionErrorsTags(kind: Kind, ordinal: nat, c: nat, cap: Caption, expected: string, alignment: Alignment)
    requires |cap.title| > 0
    ensures forall v :: v in CaptionErrors(kind, ordinal, c, cap, expected, alignment) ==>
      (v.WrongNumber? ==> v == WrongNumber(kind, ordinal, expected, cap.number))
      && (v.WrongNumber? || v.TitleNotCapitalised? || v.TitleEndsWithPeriod? || v.NotCentred?)
  {
    var t := TitleErrors(kind, cap.number, c, cap.title, alignment);
    TitleErrorsTags(kind, cap.number, c, cap.title, alignment);
    assert CaptionErrors(kind, ordinal, c, cap, expected, alignment)
      == (if cap.number != expected then [WrongNumber(kind, ordinal, expected, cap.number)] else []) + t;
  }

  /** The expected number of the `k`-th numbered element: `k`, or `chapter.k` in chapter mode. */
  function ExpectedNumber(chapterMode: bool, chapter: string, k: nat): string {
    if chapterMode then Dotted(chapter, NatToString(k)) else NatToString(k)
  }

  /** Different counters never expect the same number within one chapter. */
  lemma ExpectedNumberInjective(chapterMode: bool, chapter: string, a: nat, b: nat)
    requires a != b
    ensures ExpectedNumber(chapterMode, chapter, a) != ExpectedNumber(chapterMode, chapter, b)
  {
    NatToStringInjective(a, b);
    if chapterMode {
      var x := Dotted(chapter, NatToString(a));
      var y := Dotted(chapter, NatToString(b));
      assert x[|chapter| + 1..] == NatToString(a);
      assert y[|chapter| + 1..] == NatToString(b);
    }
  }

  /** A flat-mode number is a label; a chapter-mode number is one when the chapter is. */
  lemma ExpectedNumberIsLabel(chapterMode: bool, chapter: string, k: nat)
    requires IsDigitString(chapter)
    ensures IsNumberLabel(ExpectedNumber(chapterMode, chapter, k))
  {
    if chapterMode {
      var l := Dotted(chapter, NatToString(k));
      assert l[|chapter|] == '.';
      assert l[..|chapter|] == chapter;
      assert l[|chapter| + 1..] == NatToString(k);
    }
  }

  /** One error for each label, in order, that no reference names. */
  function UnreferencedErrors(kind: Kind, labels: seq<string>, refs: set<string>): (r: seq<Violation>)
    ensures |r| <= |labels|
    decreases |labels|
  {
    if |labels| == 0 then []
    else
      (if labels[0] in refs then [] else [Unreferenced(kind, labels[0])])
        + UnreferencedErrors(kind, labels[1..], refs)
  }

  /** The errors are exactly the unreferenced labels. */
  lemma {:induction false} UnreferencedSpec(kind: Kind, labels: seq<string>, refs: set<string>, v: Violation)
    ensures v in UnreferencedErrors(kind, labels, refs) <==>
      exists k :: 0 <= k < |labels| && labels[k] !in refs && v == Unreferenced(kind, labels[k])
    decreases |labels|
  {
    if |labels| > 0 {
      UnreferencedSpec(kind, labels[1..], refs, v);
      if exists k :: 0 <= k < |labels| - 1 && labels[1..][k] !in refs && v == Unreferenced(kind, labels[1..][k]) {
        var k :| 0 <= k < |labels| - 1 && labels[1..][k] !in refs && v == Unreferenced(kind, labels[1..][k]);
        assert labels[1..][k] == labels[k + 1];
      }
      if exists k :: 0 <= k < |labels| && labels[k] !in refs && v == Unreferenced(kind, labels[k]) {
        var k :| 0 <= k < |labels| && labels[k] !in refs && v == Unreferenced(kind, labels[k]);
        if k > 0 {
          assert labels[1..][k - 1] == labels[k];
        }
      }
    }
  }

  /**
   * A caption references itself: the reference keyword written as the caption's
   * prefix, the whitespace and the label open the stripped caption text, so the
   * scan of that text finds the caption's own number.
   */
  lemma CaptionReferencesItself(prefix: string, kws: seq<string>, kw: string, text: string)
    requires Lower(prefix) == kw && kw in kws && Unnested(kws, kw)
    requires forall k :: 0 <= k < |kws| ==> Lower(kws[k]) == kws[k]
    ensures ParseCaption(prefix, text).Some? ==>
      ParseCaption(prefix, text).value.number in FindLabels(Strip(text), kws, NumberShape)
  {
    if ParseCaption(prefix, text).Some? {
      var c := ParseCaption(prefix, text).value;
      CaptionJoin(prefix, text, c.number, c.title);
      var w1, w2, w3 :| CaptionSplit(prefix, Strip(text), w1, c.number, w2, w3, c.title);
      SplitReferenced(prefix, kws, kw, Strip(text), w1, c.number, w2, w3, c.title);
    }
  }

  lemma SplitReferenced(prefix: string, kws: seq<string>, kw: string, s: string,
                        w1: string, number: string, w2: string, w3: string, title: string)
    requires CaptionSplit(prefix, s, w1, number, w2, w3, title)
    requires Lower(prefix) == kw && kw in kws && Unnested(kws, kw)
    requires forall k :: 0 <= k < |kws| ==> Lower(kws[k]) == kws[k]
    ensures number in FindLabels(s, kws, NumberShape)
  {
    var rest := TitlePartStops(w2, w3, title);
    SameText(prefix, w1, number, w2, w3, title, s, rest);
    LabelOpensText(kws, prefix, kw, w1, number, rest);
  }

  lemma SameText(prefix: string, w1: string, number: string, w2: string, w3: string, title: string, s: string, rest: string)
    requires s == prefix + w1 + number + w2 + [EnDash] + w3 + title
    requires rest == w2 + [EnDash] + w3 + title
    ensures s == prefix + w1 + number + rest
  {
  }

  /** A label right after a keyword and whitespace at the start of a text is among the labels found. */
  lemma LabelOpensText(kws: seq<string>, k: string, kw: string, w: string, l: string, rest: string)
    requires kw in kws && Unnested(kws, kw) && Lower(k) == kw
    requires forall i :: 0 <= i < |kws| ==> Lower(kws[i]) == kws[i]
    requires |w| > 0 && IsBlank(w)
    requires IsNumberLabel(l) && NumberStops(rest)
    ensures l in FindLabels(k + w + l + rest, kws, NumberShape)
  {
    ReferenceFound(kws, k, kw, NumberShape, w, l, rest);
  }

  /** The part of a caption after its number cannot continue the number. */
  lemma TitlePartStops(w2: string, w3: string, title: string) returns (rest: string)
    requires IsBlank(w2)
    ensures rest == w2 + [EnDash] + w3 + title && NumberStops(rest)
  {
    rest := w2 + [EnDash] + w3 + title;
    assert rest[0] == if |w2| > 0 then w2[0] else EnDash;
  }

  /** The labels found by the scan in every text, as one collection. */
  function AllReferences(texts: seq<string>, kws: seq<string>, shape: Shape): set<string>
    decreases |texts|
  {
    if |texts| == 0 then {}
    else (set l | l in FindLabels(texts[0], kws, shape)) + AllReferences(texts[1..], kws, shape)
  }

  /** A label is referenced exactly when the scan of some paragraph finds it. */
  lemma {:induction false} AllReferencesSpec(texts: seq<string>, kws: seq<string>, shape: Shape, l: string)
    ensures l in AllReferences(texts, kws, shape) <==> exists i :: 0 <= i < |texts| && l in FindLabels(texts[i], kws, shape)
    decreases |texts|
  {
    if |texts| > 0 {
      AllReferencesSpec(texts[1..], kws, shape, l);
      if exists i :: 0 <= i < |texts| && l in FindLabels(texts[i], kws, shape) {
        var i :| 0 <= i < |texts| && l in FindLabels(texts[i], kws, shape);
        if i > 0 {
          assert texts[1..][i - 1] == texts[i];
        }
      }
      if exists i :: 0 <= i < |texts| - 1 && l in FindLabels(texts[1..][i], kws, shape) {
        var i :| 0 <= i < |texts| - 1 && l in FindLabels(texts[1..][i], kws, shape);
        assert texts[1..][i] == texts[i + 1];
      }
    }
  }

  /** Every paragraph's text, stripped. */
  function Texts(paras: seq<Paragraph>): (r: seq<string>)
    ensures |r| == |paras|
    ensures forall i :: 0 <= i < |paras| ==> r[i] == Strip(paras[i].text)
  {
    seq(|paras|, i requires 0 <= i < |paras| => Strip(paras[i].text))
  }
}

=== FILE: references.dfy ===
/**
 * The bibliography checker (modules/references.py). Only the GOST R 7.0.5-2008
 * rules are implemented. The reference block runs from the paragraph after the
 * first bibliography title to the first paragraph opening a later part of the
 * document; every entry of it that looks like a reference (it carries a year, a
 * `//`, a page mark or a URL) must match one of three entry grammars.
 *
 * The three grammars are regular expressions with lazy sub-matches; the model
 * takes them as predicates the caller supplies.
 */
module References {
  import opened Opt
  import opened Text
  import opened DocModel
  import opened Violations
  import opened Patterns

  const Gost: string := "ГОСТ Р 7.0.5-2008"
  const NoSectionMessage: string := "No references section found"
  const EmptySectionMessage: string := "References section is empty"
  const PassedMessage: string := "References check passed"

  /** The sentinel for any other standard. */
  function NotImplementedMessage(standard: string): string {
    "References check for standard " + standard + " is not implemented"
  }

  /** Bibliography titles, compared with the whole lower-cased text of a paragraph. */
  const HeaderPhrases: seq<string> := ["список источников", "список литературы", "литература", "references"]

  /** Openings of the parts that may follow the bibliography, compared case-sensitively. */
  const Terminators: seq<string> := ["Приложение", "Выводы", "Заключение", "Рисунок", "Таблица"]

  /** The checker's parameters; `None` is a key absent from the parameter dict. */
  datatype Params = Params(standard: Option<string>)

  function StandardOf(p: Params): string {
    p.standard.GetOr(Gost)
  }

  /** The journal-article, book and electronic-resource entry grammars. */
  datatype Grammars = Grammars(article: string -> bool, book: string -> bool, electronic: string -> bool)

  predicate MatchesAny(g: Grammars, line: string) {
    g.article(line) || g.book(line) || g.electronic(line)
  }

  // ---------------------------------------------------------------------------
  // The reference block

  predicate IsHeader(text: string) {
    Lower(text) in HeaderPhrases
  }

  predicate IsTerminator(text: string) {
    StartsWithAny(text, Terminators)
  }

  /** The first bibliography title at or after `i`. */
  function FirstHeaderFrom(texts: seq<string>, i: nat): (r: Option<nat>)
    requires i <= |texts|
    ensures r.Some? ==> i <= r.value < |texts| && IsHeader(texts[r.value])
    ensures r.Some? ==> forall j :: i <= j < r.value ==> !IsHeader(texts[j])
    ensures r.None? ==> forall j :: i <= j < |texts| ==> !IsHeader(texts[j])
    decreases |texts| - i
  {
    if i == |texts| then None
    else if IsHeader(texts[i]) then Some(i)
    else FirstHeaderFrom(texts, i + 1)
  }

  function FirstHeader(texts: seq<string>): Option<nat> {
    FirstHeaderFrom(texts, 0)
  }

  /** The first terminator at or after `i`, or the end of the document. */
  function BlockEnd(texts: seq<string>, i: nat): (r: nat)
    requires i <= |texts|
    ensures i <= r <= |texts|
    ensures forall j :: i <= j < r ==> !IsTerminator(texts[j])
    ensures r < |texts| ==> IsTerminator(texts[r])
    decreases |texts| - i
  {
    if i == |texts| || IsTerminator(texts[i]) then i else BlockEnd(texts, i + 1)
  }

  /** The paragraphs after the title at `h`, up to and excluding the first terminator. */
  function Block(texts: seq<string>, h: nat): seq<string>
    requires h < |texts|
  {
    texts[h + 1..BlockEnd(texts, h + 1)]
  }

  /**
   * The scan of the source: before the first title, look for it; after it, stop at
   * a terminator and collect every other paragraph (a second title included). The
   * result agrees with the first title and the block after it.
   */
  method ExtractBlock(texts: seq<string>) returns (found: bool, block: seq<string>)
    ensures found <==> FirstHeader(texts).Some?
    ensures found ==> block == Block(texts, FirstHeader(texts).value)
    ensures !found ==> block == []
  {
    block := [];
    found := false;
    var inReferences := false;
    var i := 0;
    while i < |texts|
      invariant 0 <= i <= |texts|
      invariant inReferences == found
      invariant !found ==> block == [] && FirstHeaderFrom(texts, i) == FirstHeader(texts)
      invariant found ==> FirstHeader(texts).Some? && FirstHeader(texts).value < i
      invariant found ==> block == texts[FirstHeader(texts).value + 1..i]
      invariant found ==> forall j :: FirstHeader(texts).value < j < i ==> !IsTerminator(texts[j])
    {
      var para := texts[i];
      if !inReferences && IsHeader(para) {
        inReferences := true;
        found := true;
      } else if inReferences {
        if IsTerminator(para) {
          BlockEndAt(texts, FirstHeader(texts).value + 1, i);
          return;
        }
        block := block + [para];
      }
      i := i + 1;
    }
    if found {
      BlockEndAt(texts, FirstHeader(texts).value + 1, i);
    }
  }

  /** The block ends at the first terminator: any position with none before it and one (or the end) at it. */
  lemma BlockEndAt(texts: seq<string>, from: nat, i: nat)
    requires from <= i <= |texts|
    requires forall j :: from <= j < i ==> !IsTerminator(texts[j])
    requires i == |texts| || IsTerminator(texts[i])
    ensures BlockEnd(texts, from) == i
  {
  }

  // ---------------------------------------------------------------------------
  // Entries

  /** Four digits starting at `i`. */
  predicate YearAt(s: string, i: nat) {
    i + 4 <= |s| && AllDigits(s[i..i + 4])
  }

  /** Four consecutive digits somewhere in the text (`\d{4}`). */
  predicate HasYear(s: string) {
    exists i: nat :: i < |s| && YearAt(s, i)
  }

  /** A whitespace character followed by `token` somewhere in the text. */
  predicate HasSpacedToken(s: string, token: string) {
    exists i :: 0 <= i < |s| && IsSpace(s[i]) && token <= s[i + 1..]
  }

  /** The evidence that a line is a reference: a year, ` //`, ` С.` or ` URL:`. */
  predicate HasEvidence(s: string) {
    HasYear(s) || HasSpacedToken(s, "//") || HasSpacedToken(s, "С.") || HasSpacedToken(s, "URL:")
  }

  /** A line of the block that the grammar rule inspects; block lines are already stripped. */
  predicate IsEntry(line: string) {
    line != "" && HasEvidence(line)
  }

  /** One error per entry, in order, that matches none of the grammars. */
  function EntryErrors(g: Grammars, lines: seq<string>): seq<Violation>
    decreases |lines|
  {
    if |lines| == 0 then []
    else
      (if IsEntry(lines[0]) && !MatchesAny(g, lines[0]) then [MalformedEntry(lines[0])] else [])
        + EntryErrors(g, lines[1..])
  }

  predicate HasEntry(lines: seq<string>) {
    exists i :: 0 <= i < |lines| && IsEntry(lines[i])
  }

  /**
   * `ReferencesCheck.check`. Errors are reported only under GOST R 7.0.5-2008, and
   * each names an entry of the block that no grammar matches.
   */
  function Check(doc: Document, params: Params, g: Grammars): (r: Verdict)
    ensures r.Errors? ==> StandardOf(params) == Gost && |r.violations| > 0
    ensures r.Errors? ==> forall v :: v in r.violations ==>
      v.MalformedEntry? && IsEntry(v.entry) && !MatchesAny(g, v.entry)
  {
    var standard := StandardOf(params);
    if standard != Gost then Message(NotImplementedMessage(standard))
    else
      var texts := Texts(doc.paragraphs);
      match FirstHeader(texts)
      case None => Message(NoSectionMessage)
      case Some(h) =>
        EntryErrorsMalformed(g, Block(texts, h));
        CheckBlock(Block(texts, h), g)
  }

  /** The verdict on a reference block: the empty-section sentinel, the pass message or the malformed entries. */
  function CheckBlock(block: seq<string>, g: Grammars): Verdict {
    if !HasEntry(block) then Message(EmptySectionMessage)
    else Conclude(EntryErrors(g, block), PassedMessage)
  }

  // ---------------------------------------------------------------------------
  // Properties

  /** The errors are exactly the malformed entries, each reported as its own text. */
  lemma {:induction false} EntryErrorsSpec(g: Grammars, lines: seq<string>, v: Violation)
    ensures v in EntryErrors(g, lines) <==>
      exists i :: 0 <= i < |lines| && IsEntry(lines[i]) && !MatchesAny(g, lines[i]) && v == MalformedEntry(lines[i])
    decreases |lines|
  {
    if |lines| > 0 {
      EntryErrorsSpec(g, lines[1..], v);
      if exists i :: 0 <= i < |lines[1..]| && IsEntry(lines[1..][i]) && !MatchesAny(g, lines[1..][i])
                     && v == MalformedEntry(lines[1..][i]) {
        var i :| 0 <= i < |lines[1..]| && IsEntry(lines[1..][i]) && !MatchesAny(g, lines[1..][i])
                 && v == MalformedEntry(lines[1..][i]);
        assert lines[i + 1] == lines[1..][i];
      }
      if exists i :: 0 <= i < |lines| && IsEntry(lines[i]) && !MatchesAny(g, lines[i]) && v == MalformedEntry(lines[i]) {
        var i :| 0 <= i < |lines| && IsEntry(lines[i]) && !MatchesAny(g, lines[i]) && v == MalformedEntry(lines[i]);
        if i > 0 {
          assert lines[1..][i - 1] == lines[i];
        }
      }
    }
  }

  /** The rule is line by line: the errors of two stretches of lines are those of each, in order. */
  /** Every error is a malformed entry. */
  lemma EntryErrorsMalformed(g: Grammars, lines: seq<string>)
    ensures forall v :: v in EntryErrors(g, lines) ==> v.MalformedEntry? && IsEntry(v.entry) && !MatchesAny(g, v.entry)
  {
    forall v | v in EntryErrors(g, lines)
      ensures v.MalformedEntry? && IsEntry(v.entry) && !MatchesAny(g, v.entry)
    {
      EntryErrorsSpec(g, lines, v);
    }
  }

  lemma {:induction false} EntryErrorsAppend(g: Grammars, a: seq<string>, b: seq<string>)
    ensures EntryErrors(g, a + b) == EntryErrors(g, a) + EntryErrors(g, b)
    decreases |a|
  {
    if |a| == 0 {
      assert a + b == b;
    } else {
      assert (a + b)[1..] == a[1..] + b;
      EntryErrorsAppend(g, a[1..], b);
    }
  }

  /** Lines that are empty or carry no evidence never draw an error, whatever the grammars say. */
  lemma NonEntriesIgnored(g: Grammars, a: seq<string>, line: string, b: seq<string>)
    requires !IsEntry(line)
    ensures EntryErrors(g, a + [line] + b) == EntryErrors(g, a + b)
  {
    EntryErrorsAppend(g, a + [line], b);
    EntryErrorsAppend(g, a, [line]);
    EntryErrorsAppend(g, a, b);
    assert EntryErrors(g, [line]) == [] by {
      assert [line][1..] == [];
    }
  }

  /** Any other standard answers with its sentinel without reading the document. */
  lemma OtherStandard(doc: Document, params: Params, g: Grammars)
    requires StandardOf(params) != Gost
    ensures Check(doc, params, g) == Message(NotImplementedMessage(StandardOf(params)))
  {
  }

  /** Under GOST, a document with a bibliography title is judged by the block after its first title. */
  lemma GostBlock(doc: Document, params: Params, g: Grammars)
    requires StandardOf(params) == Gost
    ensures var texts := Texts(doc.paragraphs);
      FirstHeader(texts).Some? ==> Check(doc, params, g) == CheckBlock(Block(texts, FirstHeader(texts).value), g)
  {
  }

  /** Under GOST, the no-section sentinel is returned exactly when no paragraph is a bibliography title. */
  lemma NoSectionIff(doc: Document, params: Params, g: Grammars)
    requires StandardOf(params) == Gost
    ensures Check(doc, params, g) == Message(NoSectionMessage) <==>
      forall i :: 0 <= i < |doc.paragraphs| ==> !IsHeader(Strip(doc.paragraphs[i].text))
  {
    var texts := Texts(doc.paragraphs);
    var r := FirstHeader(texts);
    if r.Some? {
      assert IsHeader(Strip(doc.paragraphs[r.value].text));
      BlockNeverNoSection(Block(texts, r.value), g);
    }
  }

  /** A block's verdict is never the no-section sentinel. */
  lemma BlockNeverNoSection(block: seq<string>, g: Grammars)
    ensures CheckBlock(block, g) != Message(NoSectionMessage)
  {
    assert PassedMessage[0] != NoSectionMessage[0];
    assert EmptySectionMessage[0] != NoSectionMessage[0];
  }

  /** The empty-section sentinel is returned exactly when no line of the block is an entry, even if it has other text. */
  lemma EmptySectionIff(block: seq<string>, g: Grammars)
    ensures CheckBlock(block, g) == Message(EmptySectionMessage) <==> !HasEntry(block)
  {
    assert PassedMessage[11] != EmptySectionMessage[11];
  }

  /**
   * A block with an entry passes exactly when every entry matches a grammar, and
   * otherwise reports exactly the malformed entries.
   */
  lemma EntriesVerdict(block: seq<string>, g: Grammars, v: Violation)
    requires HasEntry(block)
    ensures var r := CheckBlock(block, g);
      && (r == Message(PassedMessage) <==> forall i :: 0 <= i < |block| && IsEntry(block[i]) ==> MatchesAny(g, block[i]))
      && (r.Errors? ==> (v in r.violations <==>
            exists i :: 0 <= i < |block| && IsEntry(block[i]) && !MatchesAny(g, block[i]) && v == MalformedEntry(block[i])))
  {
    EntryErrorsSpec(g, block, v);
    if exists i :: 0 <= i < |block| && IsEntry(block[i]) && !MatchesAny(g, block[i]) {
      var i :| 0 <= i < |block| && IsEntry(block[i]) && !MatchesAny(g, block[i]);
      EntryErrorsSpec(g, block, MalformedEntry(block[i]));
    }
    var e := EntryErrors(g, block);
    if |e| > 0 {
      EntryErrorsSpec(g, block, e[0]);
    }
  }

  /** Every message of the check is a non-empty sentence that does not open with a dash. */
  lemma MessageNotBullet(doc: Document, params: Params, g: Grammars)
    ensures var r := Check(doc, params, g);
      r.Message? ==> |r.text| > 0 && r.text[0] != '-'
  {
    assert NotImplementedMessage(StandardOf(params))[0] == 'R';
  }
}

=== FILE: structure.dfy ===
/**
 * The structure checker (modules/structure.py): heading presence, required
 * sections found by case-insensitive prefix, the missing-sections report and the
 * order of the sections that were found.
 */
module Structure {
  import opened Opt
  import opened Text
  import opened DocModel
  import opened Violations

  const PassedMessage: string := "Structure check passed"

  const DefaultSections: seq<string> :=
    ["Оглавление", "Введение", "Основная часть", "Заключение", "Список литературы"]

  /** The checker's parameters; `None` is a key absent from the parameter dict. */
  datatype Params = Params(requireHeadings: Option<bool>, requiredSections: Option<seq<string>>)

  function RequireHeadings(p: Params): bool {
    p.requireHeadings.GetOr(true)
  }

  function RequiredSections(p: Params): seq<string> {
    p.requiredSections.GetOr(DefaultSections)
  }

  /** Absent keys fall back to headings required and the five standard sections. */
  lemma DefaultParams()
    ensures RequireHeadings(Params(None, None))
    ensures RequiredSections(Params(None, None)) == DefaultSections
    ensures |RequiredSections(Params(None, None))| == 5
  {
  }

  /** A paragraph counts as a heading when its style name starts with `Heading`. */
  predicate IsHeading(p: Paragraph) {
    "Heading" <= p.style
  }

  function HasHeading(paras: seq<Paragraph>): (b: bool)
    ensures b <==> exists i :: 0 <= i < |paras| && IsHeading(paras[i])
  {
    if |paras| == 0 then false
    else if IsHeading(paras[0]) then true
    else
      var rest := HasHeading(paras[1..]);
      assert forall i :: 1 <= i < |paras| ==> paras[i] == paras[1..][i - 1];
      rest
  }

  /** The headings error: at most one, present exactly when headings are required and none exist. */
  function HeadingErrors(paras: seq<Paragraph>, require: bool): (r: seq<Violation>)
    ensures r == [] || r == [NoHeadings]
    ensures r == [NoHeadings] <==> require && forall i :: 0 <= i < |paras| ==> !IsHeading(paras[i])
  {
    if require && !HasHeading(paras) then [NoHeadings] else []
  }

  /** Section name `name` credits a paragraph whose trimmed text starts with it, ignoring case. */
  predicate Credits(name: string, text: string) {
    Lower(name) <= Lower(Strip(text))
  }

  /** The index of the first required name, from `from` on, that credits `text`. */
  function FirstCredit(text: string, required: seq<string>, from: nat): (r: Option<nat>)
    requires from <= |required|
    ensures r.Some? ==> from <= r.value < |required| && Credits(required[r.value], text)
    ensures r.Some? ==> forall j :: from <= j < r.value ==> !Credits(required[j], text)
    ensures r.None? ==> forall j :: from <= j < |required| ==> !Credits(required[j], text)
    decreases |required| - from
  {
    if from == |required| then None
    else if Credits(required[from], text) then Some(from)
    else FirstCredit(text, required, from + 1)
  }

  /**
   * The section a paragraph is credited to: the first name in required order that
   * is a case-insensitive prefix of its trimmed text, or none.
   */
  function CreditedTo(text: string, required: seq<string>): (r: Option<string>)
    ensures r.Some? <==> exists k :: 0 <= k < |required| && Credits(required[k], text)
    ensures r.Some? ==> exists k :: (0 <= k < |required| && required[k] == r.value
      && Credits(required[k], text)
      && forall j :: 0 <= j < k ==> !Credits(required[j], text))
  {
    match FirstCredit(text, required, 0)
    case Some(k) => Some(required[k])
    case None => None
  }

  /** The section each paragraph is credited to, paragraph by paragraph. */
  function Credited(paras: seq<Paragraph>, required: seq<string>): (c: seq<Option<string>>)
    ensures |c| == |paras|
  {
    seq(|paras|, i requires 0 <= i < |paras| => CreditedTo(paras[i].text, required))
  }

  /**
   * `found_sections` after the loop, from the credit of each paragraph: every
   * credited section with the index of the LAST paragraph credited to it (a later
   * paragraph overwrites the index recorded by an earlier one).
   */
  function FoundIn(credits: seq<Option<string>>): (m: map<string, nat>)
    ensures forall s :: s in m ==> m[s] < |credits| && credits[m[s]] == Some(s)
    decreases |credits|
  {
    if |credits| == 0 then map[]
    else
      var last := |credits| - 1;
      var prefix := credits[..last];
      var prev := FoundIn(prefix);
      assert forall i :: 0 <= i < last ==> prefix[i] == credits[i];
      match credits[last]
      case Some(s) => prev[s := last]
      case None => prev
  }

  /** A section is recorded exactly when some paragraph is credited to it. */
  lemma {:induction false} FoundInDomain(credits: seq<Option<string>>, s: string)
    ensures s in FoundIn(credits) <==> exists i :: 0 <= i < |credits| && credits[i] == Some(s)
    decreases |credits|
  {
    if |credits| > 0 {
      var last := |credits| - 1;
      var prefix := credits[..last];
      FoundInDomain(prefix, s);
      if exists i :: 0 <= i < |credits| && credits[i] == Some(s) {
        var i :| 0 <= i < |credits| && credits[i] == Some(s);
        if i < last {
          assert prefix[i] == Some(s);
        }
      }
      if exists i :: 0 <= i < last && prefix[i] == Some(s) {
        var i :| 0 <= i < last && prefix[i] == Some(s);
        assert credits[i] == Some(s);
      }
    }
  }

  /** No paragraph after the recorded one is credited to the same section. */
  lemma {:induction false} FoundInLast(credits: seq<Option<string>>, s: string)
    requires s in FoundIn(credits)
    ensures forall i :: FoundIn(credits)[s] < i < |credits| ==> credits[i] != Some(s)
    decreases |credits|
  {
    var last := |credits| - 1;
    var prefix := credits[..last];
    if credits[last] != Some(s) {
      FoundInLast(prefix, s);
      assert forall i :: 0 <= i < last ==> prefix[i] == credits[i];
    }
  }

  function Found(paras: seq<Paragraph>, required: seq<string>): map<string, nat> {
    FoundIn(Credited(paras, required))
  }

  /** A required section is missing when no paragraph is credited to it. */
  ghost predicate NeverCredited(paras: seq<Paragraph>, required: seq<string>, s: string) {
    forall i :: 0 <= i < |paras| ==> CreditedTo(paras[i].text, required) != Some(s)
  }

  /**
   * The recorded position of a section is the last paragraph credited to it, and a
   * section is recorded exactly when some paragraph is credited to it.
   */
  lemma FoundSpec(paras: seq<Paragraph>, required: seq<string>, s: string)
    ensures s in Found(paras, required) <==> !NeverCredited(paras, required, s)
    ensures s in Found(paras, required) ==>
      var i := Found(paras, required)[s];
      && i < |paras| && CreditedTo(paras[i].text, required) == Some(s)
      && forall j :: i < j < |paras| ==> CreditedTo(paras[j].text, required) != Some(s)
  {
    FoundDomain(paras, required, s);
    if s in Found(paras, required) {
      FoundLast(paras, required, s);
    }
  }

  /** The first half of FoundSpec: recorded iff some paragraph is credited. */
  lemma FoundDomain(paras: seq<Paragraph>, required: seq<string>, s: string)
    ensures s in Found(paras, required) <==> !NeverCredited(paras, required, s)
  {
    var c := Credited(paras, required);
    FoundInDomain(c, s);
    if !NeverCredited(paras, required, s) {
      var i :| 0 <= i < |paras| && CreditedTo(paras[i].text, required) == Some(s);
      assert c[i] == Some(s);
    }
    if s in FoundIn(c) {
      var i :| 0 <= i < |c| && c[i] == Some(s);
      assert CreditedTo(paras[i].text, required) == Some(s);
    }
  }

  /** The second half of FoundSpec: the recorded paragraph is the last credited one. */
  lemma FoundLast(paras: seq<Paragraph>, required: seq<string>, s: string)
    requires s in Found(paras, required)
    ensures var i := Found(paras, required)[s];
      && i < |paras| && CreditedTo(paras[i].text, required) == Some(s)
      && forall j :: i < j < |paras| ==> CreditedTo(paras[j].text, required) != Some(s)
  {
    var c := Credited(paras, required);
    FoundInLast(c, s);
    var i := FoundIn(c)[s];
    forall j | i < j < |paras| ensures CreditedTo(paras[j].text, required) != Some(s) {
      assert c[j] != Some(s);
    }
  }

  /** The required sections absent from `found`, in required order. */
  function Missing(required: seq<string>, found: map<string, nat>): (r: seq<string>)
    ensures |r| <= |required|
    ensures forall s :: s in r <==> s in required && s !in found
  {
    if |required| == 0 then []
    else (if required[0] in found then [] else [required[0]]) + Missing(required[1..], found)
  }

  /**
   * `idx` picks out `r` from `required`: strictly increasing positions, `r[k]` is the
   * name at `idx[k]`, and the positions are exactly those of names absent from `found`.
   */
  predicate PicksUnfound(idx: seq<nat>, required: seq<string>, found: map<string, nat>, r: seq<string>) {
    && |idx| == |r|
    && (forall k :: 0 <= k < |idx| ==> idx[k] < |required| && r[k] == required[idx[k]])
    && (forall k, l :: 0 <= k < l < |idx| ==> idx[k] < idx[l])
    && (forall j :: 0 <= j < |required| ==> (required[j] !in found <==> j in idx))
  }

  /**
   * The missing list is the subsequence of `required` absent from `found`: it keeps
   * the required order, and a name listed twice is missing twice.
   */
  lemma {:induction false} MissingInRequiredOrder(required: seq<string>, found: map<string, nat>)
    ensures exists idx :: PicksUnfound(idx, required, found, Missing(required, found))
  {
    if |required| == 0 {
      var none: seq<nat> := [];
      assert PicksUnfound(none, required, found, Missing(required, found));
    } else {
      var rest := Missing(required[1..], found);
      MissingInRequiredOrder(required[1..], found);
      var idx' :| PicksUnfound(idx', required[1..], found, rest);
      var idx := PicksCons(idx', required, found, rest);
      assert Missing(required, found) == (if required[0] in found then [] else [required[0]]) + rest;
      assert PicksUnfound(idx, required, found, Missing(required, found));
    }
  }

  /** The step of the induction: positions in the tail, shifted by one, and 0 when the head is missing. */
  lemma PicksCons(idx': seq<nat>, required: seq<string>, found: map<string, nat>, rest: seq<string>)
    returns (idx: seq<nat>)
    requires |required| > 0 && PicksUnfound(idx', required[1..], found, rest)
    ensures PicksUnfound(idx, required, found, (if required[0] in found then [] else [required[0]]) + rest)
  {
    var shifted := Shifted(idx', required, found, rest);
    if required[0] in found {
      assert [] + rest == rest;
      idx := shifted;
    } else {
      idx := PrependHead(shifted, required, found, rest);
    }
  }

  /** A missing head is picked at position 0, in front of the shifted tail positions. */
  lemma PrependHead(shifted: seq<nat>, required: seq<string>, found: map<string, nat>, rest: seq<string>)
    returns (idx: seq<nat>)
    requires |required| > 0 && required[0] !in found
    requires |shifted| == |rest| && 0 !in shifted
    requires forall k :: 0 <= k < |shifted| ==> 0 < shifted[k] < |required| && rest[k] == required[shifted[k]]
    requires forall k, l :: 0 <= k < l < |shifted| ==> shifted[k] < shifted[l]
    requires forall j :: 1 <= j < |required| ==> (required[j] !in found <==> j in shifted)
    ensures PicksUnfound(idx, required, found, [required[0]] + rest)
  {
    idx := [0] + shifted;
    var r := [required[0]] + rest;
    forall k | 0 <= k < |idx| ensures idx[k] < |required| && r[k] == required[idx[k]] {
      if k > 0 {
        assert idx[k] == shifted[k - 1] && r[k] == rest[k - 1];
      }
    }
    forall k, l | 0 <= k < l < |idx| ensures idx[k] < idx[l] {
      assert idx[l] == shifted[l - 1];
      if k > 0 {
        assert idx[k] == shifted[k - 1];
      }
    }
    forall j | 0 <= j < |required| ensures required[j] !in found <==> j in idx {
      assert j in idx <==> j == 0 || j in shifted;
    }
  }

  /** The tail's positions shifted by one pick the same names out of the whole list, and never 0. */
  lemma Shifted(idx': seq<nat>, required: seq<string>, found: map<string, nat>, rest: seq<string>)
    returns (shifted: seq<nat>)
    requires |required| > 0 && PicksUnfound(idx', required[1..], found, rest)
    ensures |shifted| == |rest| && 0 !in shifted
    ensures forall k :: 0 <= k < |shifted| ==> 0 < shifted[k] < |required| && rest[k] == required[shifted[k]]
    ensures forall k, l :: 0 <= k < l < |shifted| ==> shifted[k] < shifted[l]
    ensures forall j :: 1 <= j < |required| ==> (required[j] !in found <==> j in shifted)
  {
    shifted := seq(|idx'|, k requires 0 <= k < |idx'| => idx'[k] + 1);
    forall k | 0 <= k < |shifted| ensures 0 < shifted[k] < |required| && rest[k] == required[shifted[k]] {
      assert required[1..][idx'[k]] == required[shifted[k]];
    }
    forall j | 1 <= j < |required| ensures required[j] !in found <==> j in shifted {
      ShiftedMember(idx', shifted, required, found, rest, j);
    }
  }

  /** A position of the whole list is among the shifted ones iff the position before it is among the tail's. */
  lemma ShiftedMember(idx': seq<nat>, shifted: seq<nat>, required: seq<string>, found: map<string, nat>, rest: seq<string>, j: nat)
    requires |required| > 0 && PicksUnfound(idx', required[1..], found, rest)
    requires shifted == seq(|idx'|, k requires 0 <= k < |idx'| => idx'[k] + 1)
    requires 1 <= j < |required|
    ensures required[j] !in found <==> j in shifted
  {
    assert required[j] == required[1..][j - 1];
    if j - 1 in idx' {
      var k :| 0 <= k < |idx'| && idx'[k] == j - 1;
      assert shifted[k] == j;
    }
    if j in shifted {
      var k :| 0 <= k < |shifted| && shifted[k] == j;
      assert idx'[k] == j - 1;
    }
  }

  /** The missing list of a concatenation is the concatenation of the missing lists. */
  lemma {:induction false} MissingConcat(a: seq<string>, b: seq<string>, found: map<string, nat>)
    ensures Missing(a + b, found) == Missing(a, found) + Missing(b, found)
  {
    if |a| > 0 {
      assert (a + b)[1..] == a[1..] + b;
      MissingConcat(a[1..], b, found);
    } else {
      assert a + b == b;
    }
  }

  function MissingErrors(required: seq<string>, found: map<string, nat>): seq<Violation> {
    var missing := Missing(required, found);
    if |missing| > 0 then [MissingSections(missing)] else []
  }

  /** The loop of lines 42-48: one error each time a found section sits before the previous one. */
  function OrderErrors(required: seq<string>, found: map<string, nat>, prevPos: int, prevName: string): seq<Violation> {
    if |required| == 0 then []
    else if required[0] in found then
      var pos := found[required[0]];
      (if pos < prevPos then [SectionOrder(required[0], prevName)] else [])
        + OrderErrors(required[1..], found, pos, required[0])
    else OrderErrors(required[1..], found, prevPos, prevName)
  }

  /** The found sections, in required order (a name listed twice appears twice). */
  function FoundInOrder(required: seq<string>, found: map<string, nat>): (r: seq<string>)
    ensures |r| <= |required|
    ensures forall s :: s in r ==> s in found
  {
    if |required| == 0 then []
    else (if required[0] in found then [required[0]] else []) + FoundInOrder(required[1..], found)
  }

  /**
   * Reference definition of the order errors: one per adjacent pair of found
   * sections whose positions decrease, naming the later section and its predecessor.
   */
  function Descents(sections: seq<string>, found: map<string, nat>): (r: seq<Violation>)
    requires forall s :: s in sections ==> s in found
    ensures |sections| > 0 ==> |r| <= |sections| - 1
    ensures |sections| == 0 ==> r == []
    ensures forall v :: v in r <==> exists k :: (1 <= k < |sections|
      && found[sections[k]] < found[sections[k - 1]]
      && v == SectionOrder(sections[k], sections[k - 1]))
  {
    if |sections| < 2 then []
    else
      var rest := Descents(sections[1..], found);
      assert forall k :: 1 <= k < |sections| - 1 ==> sections[1..][k] == sections[k + 1];
      (if found[sections[1]] < found[sections[0]] then [SectionOrder(sections[1], sections[0])] else [])
        + rest
  }

  /** No order error is reported exactly when the found positions never decrease. */
  lemma {:induction false} DescentsEmptyIff(sections: seq<string>, found: map<string, nat>)
    requires forall s :: s in sections ==> s in found
    ensures Descents(sections, found) == []
      <==> forall i, j :: 0 <= i < j < |sections| ==> found[sections[i]] <= found[sections[j]]
    decreases |sections|
  {
    if |sections| >= 2 {
      DescentsEmptyIff(sections[1..], found);
      var tail := sections[1..];
      if Descents(sections, found) == [] {
        forall i, j | 0 <= i < j < |sections| ensures found[sections[i]] <= found[sections[j]] {
          if i > 0 {
            assert tail[i - 1] == sections[i] && tail[j - 1] == sections[j];
          } else if j > 1 {
            assert tail[0] == sections[1] && tail[j - 1] == sections[j];
          }
        }
      }
      if forall i, j :: 0 <= i < j < |sections| ==> found[sections[i]] <= found[sections[j]] {
        forall i, j | 0 <= i < j < |tail| ensures found[tail[i]] <= found[tail[j]] {
          assert tail[i] == sections[i + 1] && tail[j] == sections[j + 1];
        }
      }
    }
  }

  lemma {:induction false} OrderErrorsFrom(required: seq<string>, found: map<string, nat>, prev: string)
    requires prev in found
    ensures OrderErrors(required, found, found[prev], prev) == Descents([prev] + FoundInOrder(required, found), found)
    decreases |required|
  {
    if |required| > 0 {
      var s := required[0];
      OrderErrorsFrom(required[1..], found, if s in found then s else prev);
      if s in found {
        var tail := FoundInOrder(required[1..], found);
        assert ([prev] + FoundInOrder(required, found))[1..] == [s] + tail;
      } else {
        assert FoundInOrder(required, found) == FoundInOrder(required[1..], found);
      }
    }
  }

  /** The order loop, started as the source starts it, reports exactly the descents. */
  lemma {:induction false} OrderErrorsAreDescents(required: seq<string>, found: map<string, nat>, name: string)
    ensures OrderErrors(required, found, -1, name) == Descents(FoundInOrder(required, found), found)
    decreases |required|
  {
    if |required| > 0 {
      var s := required[0];
      if s in found {
        OrderErrorsFrom(required[1..], found, s);
        assert FoundInOrder(required, found) == [s] + FoundInOrder(required[1..], found);
      } else {
        OrderErrorsAreDescents(required[1..], found, name);
        assert FoundInOrder(required, found) == FoundInOrder(required[1..], found);
        assert OrderErrors(required, found, -1, name) == OrderErrors(required[1..], found, -1, name);
      }
    }
  }

  /** The order part: checked only when at least two distinct sections were found. */
  function OrderPart(required: seq<string>, found: map<string, nat>): seq<Violation> {
    if |found| > 1 then OrderErrors(required, found, -1, "") else []
  }

  /** All violations, in the order the source appends them. */
  function Errors(doc: Document, params: Params): seq<Violation> {
    var required := RequiredSections(params);
    var found := Found(doc.paragraphs, required);
    HeadingErrors(doc.paragraphs, RequireHeadings(params))
      + MissingErrors(required, found)
      + OrderPart(required, found)
  }

  /** `StructureCheck.check`. */
  function Check(doc: Document, params: Params): (r: Verdict)
    ensures r.Message? <==> |Errors(doc, params)| == 0
    ensures r.Message? ==> r.text == PassedMessage
  {
    Conclude(Errors(doc, params), PassedMessage)
  }

  /** The order part holds order errors only: one per descent among the found sections. */
  lemma OrderPartSpec(required: seq<string>, found: map<string, nat>)
    ensures forall v :: v in OrderPart(required, found) ==> v.SectionOrder?
    ensures |found| > 1 ==> OrderPart(required, found) == Descents(FoundInOrder(required, found), found)
    ensures |found| <= 1 ==> OrderPart(required, found) == []
  {
    OrderErrorsAreDescents(required, found, "");
  }

  /** The order part holds nothing but order errors. */
  lemma OrderPartKinds(required: seq<string>, found: map<string, nat>)
    ensures forall v :: v in OrderPart(required, found) ==> v.SectionOrder?
  {
    OrderPartSpec(required, found);
  }

  /** A section recorded in `found` and listed as required shows up in `FoundInOrder`. */
  lemma {:induction false} FoundInOrderHas(required: seq<string>, found: map<string, nat>, s: string)
    requires s in required && s in found
    ensures s in FoundInOrder(required, found)
    decreases |required|
  {
    if required[0] != s {
      FoundInOrderHas(required[1..], found, s);
    }
  }

  /** Every recorded section is one of the required names. */
  lemma FoundAreRequired(paras: seq<Paragraph>, required: seq<string>, s: string)
    requires s in Found(paras, required)
    ensures s in required
  {
    FoundSpec(paras, required, s);
    var i :| 0 <= i < |paras| && CreditedTo(paras[i].text, required) == Some(s);
  }

  /** Never more than one error per required section, plus one. */
  lemma ErrorsBound(doc: Document, params: Params)
    ensures |Errors(doc, params)| <= |RequiredSections(params)| + 1
  {
    var required := RequiredSections(params);
    var found := Found(doc.paragraphs, required);
    OrderPartSpec(required, found);
    if |found| > 1 {
      var sections := FoundInOrder(required, found);
      assert |sections| > 0 by {
        var s :| s in found;
        FoundAreRequired(doc.paragraphs, required, s);
        FoundInOrderHas(required, found, s);
      }
    } else if |Missing(required, found)| > 0 {
      assert |required| > 0;
    }
  }

  /** The headings error is reported exactly when headings are required and none exist. */
  lemma NoHeadingsIff(doc: Document, params: Params)
    ensures NoHeadings in Errors(doc, params)
      <==> RequireHeadings(params) && forall i :: 0 <= i < |doc.paragraphs| ==> !IsHeading(doc.paragraphs[i])
  {
    var required := RequiredSections(params);
    var found := Found(doc.paragraphs, required);
    OrderPartSpec(required, found);
    assert NoHeadings !in MissingErrors(required, found) + OrderPart(required, found);
  }

  /** An index into a three-part concatenation lands in exactly one part. */
  lemma ConcatIndex<T>(a: seq<T>, b: seq<T>, c: seq<T>, i: nat)
    requires i < |a + b + c|
    ensures i < |a| ==> (a + b + c)[i] == a[i] && (a + b + c)[i] in a
    ensures |a| <= i < |a| + |b| ==> (a + b + c)[i] == b[i - |a|] && (a + b + c)[i] in b
    ensures |a| + |b| <= i ==> (a + b + c)[i] == c[i - |a| - |b|] && (a + b + c)[i] in c
  {
  }

  /** With the headings error in front, a missing-sections error is reported iff some required section was not found. */
  lemma MissingErrorIff(required: seq<string>, found: map<string, nat>, h: seq<Violation>)
    requires h == [] || h == [NoHeadings]
    ensures var r := h + MissingErrors(required, found) + OrderPart(required, found);
      ((exists v :: v in r && v.MissingSections?) <==> exists s :: s in required && s !in found)
  {
    var r := h + MissingErrors(required, found) + OrderPart(required, found);
    if exists s :: s in required && s !in found {
      var s :| s in required && s !in found;
      MissingReported(required, found, h, s);
    }
    if exists v :: v in r && v.MissingSections? {
      var v :| v in r && v.MissingSections?;
      MissingOrigin(required, found, h, v);
      var s := Missing(required, found)[0];
      assert s in Missing(required, found);
    }
  }

  /** A required section that was not found makes the missing-sections error appear. */
  lemma MissingReported(required: seq<string>, found: map<string, nat>, h: seq<Violation>, s: string)
    requires s in required && s !in found
    ensures MissingSections(Missing(required, found)) in h + MissingErrors(required, found) + OrderPart(required, found)
  {
    assert s in Missing(required, found);
    var m := MissingErrors(required, found);
    assert m == [MissingSections(Missing(required, found))];
    assert (h + m + OrderPart(required, found))[|h|] == m[0];
  }

  /** A missing-sections error in the list means the missing list is not empty. */
  lemma MissingOrigin(required: seq<string>, found: map<string, nat>, h: seq<Violation>, v: Violation)
    requires h == [] || h == [NoHeadings]
    requires v in h + MissingErrors(required, found) + OrderPart(required, found) && v.MissingSections?
    ensures |Missing(required, found)| > 0
  {
    OrderPartKinds(required, found);
    assert v in MissingErrors(required, found);
  }

  /** Every missing-sections error lists exactly the required sections that were not found. */
  lemma MissingErrorLists(required: seq<string>, found: map<string, nat>, h: seq<Violation>)
    requires h == [] || h == [NoHeadings]
    ensures var r := h + MissingErrors(required, found) + OrderPart(required, found);
      (forall v :: v in r && v.MissingSections? ==> v.sections == Missing(required, found))
  {
    OrderPartKinds(required, found);
  }

  /** The missing-sections error appears at most once. */
  lemma AtMostOneMissingError(required: seq<string>, found: map<string, nat>, h: seq<Violation>)
    requires h == [] || h == [NoHeadings]
    ensures var r := h + MissingErrors(required, found) + OrderPart(required, found);
      (forall i, j :: 0 <= i < j < |r| && r[i].MissingSections? ==> !r[j].MissingSections?)
  {
    OrderPartKinds(required, found);
    var m := MissingErrors(required, found);
    var o := OrderPart(required, found);
    var r := h + m + o;
    forall i, j | 0 <= i < j < |r| && r[i].MissingSections? ensures !r[j].MissingSections? {
      ConcatIndex(h, m, o, i);
      ConcatIndex(h, m, o, j);
      if r[i] in o {
        assert false;
      }
    }
  }

  /**
   * One missing-sections error at most; there is one exactly when some required
   * section is never credited, and it lists exactly those sections, in required
   * order and with a name listed twice appearing twice.
   */
  lemma MissingSpec(doc: Document, params: Params)
    ensures var r := Errors(doc, params);
      var required := RequiredSections(params);
      && ((exists v :: v in r && v.MissingSections?)
           <==> exists s :: s in required && NeverCredited(doc.paragraphs, required, s))
      && (forall v :: v in r && v.MissingSections? ==>
            forall s :: s in v.sections <==> s in required && NeverCredited(doc.paragraphs, required, s))
      && (forall v :: v in r && v.MissingSections? ==>
            exists idx :: PicksUnfound(idx, required, Found(doc.paragraphs, required), v.sections))
      && (forall i, j :: 0 <= i < j < |r| && r[i].MissingSections? ==> !r[j].MissingSections?)
  {
    var required := RequiredSections(params);
    var paras := doc.paragraphs;
    var found := Found(paras, required);
    var h := HeadingErrors(paras, RequireHeadings(params));
    MissingErrorIff(required, found, h);
    MissingErrorLists(required, found, h);
    AtMostOneMissingError(required, found, h);
    MissingInRequiredOrder(required, found);
    forall s | s in required ensures s !in found <==> NeverCredited(paras, required, s) {
      FoundSpec(paras, required, s);
    }
  }

  /** An order error in the assembled list comes from the order part, hence from a descent. */
  lemma OrderErrorFromDescent(required: seq<string>, found: map<string, nat>, h: seq<Violation>, v: Violation)
    requires h == [] || h == [NoHeadings]
    requires v in h + MissingErrors(required, found) + OrderPart(required, found) && v.SectionOrder?
    ensures |found| > 1
    ensures var sections := FoundInOrder(required, found);
      exists k :: 1 <= k < |sections| && found[sections[k]] < found[sections[k - 1]]
        && v == SectionOrder(sections[k], sections[k - 1])
  {
    OrderPartSpec(required, found);
    assert v in OrderPart(required, found);
  }

  /**
   * Order errors appear only when at least two sections were found, and each names
   * a found section whose position is smaller than that of the found section before
   * it in required order.
   */
  lemma OrderSpec(doc: Document, params: Params, v: Violation)
    requires v in Errors(doc, params) && v.SectionOrder?
    ensures var required := RequiredSections(params);
      var f := Found(doc.paragraphs, required);
      var sections := FoundInOrder(required, f);
      && |f| > 1
      && exists k :: 1 <= k < |sections| && f[sections[k]] < f[sections[k - 1]]
           && v == SectionOrder(sections[k], sections[k - 1])
  {
    var required := RequiredSections(params);
    var found := Found(doc.paragraphs, required);
    OrderErrorFromDescent(required, found, HeadingErrors(doc.paragraphs, RequireHeadings(params)), v);
  }

  /** The order part is empty exactly when the found positions never decrease in required order. */
  lemma OrderPartEmptyIff(required: seq<string>, found: map<string, nat>)
    ensures var sections := FoundInOrder(required, found);
      (OrderPart(required, found) == [] <==> forall i, j :: 0 <= i < j < |sections| ==> found[sections[i]] <= found[sections[j]])
  {
    var sections := FoundInOrder(required, found);
    OrderPartSpec(required, found);
    DescentsEmptyIff(sections, found);
    if |found| <= 1 {
      forall i, j | 0 <= i < j < |sections| ensures found[sections[i]] <= found[sections[j]] {
        OneKey(found, sections[i], sections[j]);
      }
    }
  }

  /** With the headings and missing errors in front, the list is free of order errors iff the found positions never decrease. */
  lemma NoOrderErrorIff(required: seq<string>, found: map<string, nat>, h: seq<Violation>)
    requires h == [] || h == [NoHeadings]
    ensures var sections := FoundInOrder(required, found);
      (forall v :: v in h + MissingErrors(required, found) + OrderPart(required, found) ==> !v.SectionOrder?)
        <==> forall i, j :: 0 <= i < j < |sections| ==> found[sections[i]] <= found[sections[j]]
  {
    OrderPartKinds(required, found);
    OrderPartEmptyIff(required, found);
    var pre := h + MissingErrors(required, found);
    var o := OrderPart(required, found);
    assert forall v :: v in pre ==> !v.SectionOrder?;
    if o != [] {
      assert o[0] in pre + o;
    }
  }

  /** No order error is reported exactly when the found sections appear in required order. */
  lemma InOrderIff(doc: Document, params: Params)
    ensures var required := RequiredSections(params);
      var f := Found(doc.paragraphs, required);
      var sections := FoundInOrder(required, f);
      (forall v :: v in Errors(doc, params) ==> !v.SectionOrder?)
        <==> forall i, j :: 0 <= i < j < |sections| ==> f[sections[i]] <= f[sections[j]]
  {
    var required := RequiredSections(params);
    var found := Found(doc.paragraphs, required);
    NoOrderErrorIff(required, found, HeadingErrors(doc.paragraphs, RequireHeadings(params)));
  }

  /** Two keys of a map with at most one key are the same key. */
  lemma OneKey(m: map<string, nat>, a: string, b: string)
    requires |m| <= 1 && a in m && b in m
    ensures a == b
  {
    if a != b {
      assert {a, b} <= m.Keys;
      assert |{a, b}| == 2;
      SubsetCard({a, b}, m.Keys);
    }
  }

  lemma SubsetCard(a: set<string>, b: set<string>)
    requires a <= b
    ensures |a| <= |b|
  {
    assert b == a + (b - a);
  }
}

=== FILE: tables.dfy ===
/**
 * The table checker (modules/tables.py). Each table is paired with its caption,
 * the first paragraph that reads `Табл. N – Title` and precedes that table before
 * any other; the caption's number is compared with a document-wide counter, its
 * title with the title rules, and every cell is checked for text. Every caption
 * number is also looked up among the references `таблица N` / `табл. N` of all
 * paragraphs; since that scan includes the caption itself, which reads
 * `Табл. N`, the lookup always succeeds (`NoUnreferencedError`).
 */
module Tables {
  import opened Opt
  import opened Text
  import opened DocModel
  import opened Violations
  import opened Patterns

  const CaptionPrefix: string := "Табл."
  const ReferenceKeywords: seq<string> := ["таблица", "табл."]

  /** The checker's parameters; `None` is a key absent from the parameter dict. */
  datatype Params = Params(useChapterNumbering: Option<bool>)

  function ChapterMode(p: Params): bool {
    p.useChapterNumbering.GetOr(false)
  }

  // ---------------------------------------------------------------------------
  // Pairing tables with captions

  /**
   * The first table, from `j` on, with at least `i + 1` paragraphs before it in
   * document order: the first table that paragraph `i` of the body can precede.
   */
  function NextTableFrom(tables: seq<Table>, i: nat, j: nat): (r: Option<nat>)
    ensures r.Some? ==> j <= r.value < |tables| && tables[r.value].parasBefore >= i + 1
    ensures r.Some? ==> forall m :: j <= m < r.value ==> tables[m].parasBefore < i + 1
    ensures r.None? ==> forall m :: j <= m < |tables| ==> tables[m].parasBefore < i + 1
    decreases |tables| - j
  {
    if j >= |tables| then None
    else if tables[j].parasBefore >= i + 1 then Some(j)
    else NextTableFrom(tables, i, j + 1)
  }

  function NextTable(tables: seq<Table>, i: nat): Option<nat> {
    NextTableFrom(tables, i, 0)
  }

  /** The caption each paragraph carries, if any. */
  function Captions(doc: Document): (r: seq<Option<Caption>>)
    ensures |r| == |doc.paragraphs|
    ensures forall i :: 0 <= i < |r| && r[i].Some? ==> |r[i].value.title| > 0
  {
    seq(|doc.paragraphs|, i requires 0 <= i < |doc.paragraphs| => ParseCaption(CaptionPrefix, doc.paragraphs[i].text))
  }

  /** Paragraph `i` is a caption and the next table after it is table `t`. */
  predicate CaptionFor(tables: seq<Table>, captions: seq<Option<Caption>>, i: nat, t: nat)
    requires i < |captions|
  {
    captions[i].Some? && NextTable(tables, i) == Some(t)
  }

  /** The first paragraph, from `i` on, that is the caption of table `t`. */
  function CaptionFrom(tables: seq<Table>, captions: seq<Option<Caption>>, t: nat, i: nat): (r: Option<nat>)
    ensures r.Some? ==> i <= r.value < |captions| && CaptionFor(tables, captions, r.value, t)
    ensures r.Some? ==> forall m :: i <= m < r.value ==> !CaptionFor(tables, captions, m, t)
    ensures r.None? ==> forall m :: i <= m < |captions| ==> !CaptionFor(tables, captions, m, t)
    decreases |captions| - i
  {
    if i >= |captions| then None
    else if CaptionFor(tables, captions, i, t) then Some(i)
    else CaptionFrom(tables, captions, t, i + 1)
  }

  /** The caption paragraph of table `t`: the first caption whose next table is `t`. */
  function CaptionIndex(tables: seq<Table>, captions: seq<Option<Caption>>, t: nat): Option<nat> {
    CaptionFrom(tables, captions, t, 0)
  }

  // ---------------------------------------------------------------------------
  // Per-table rules

  /** One error per cell, row by row, whose text is blank (strips to nothing). */
  function EmptyCellErrors(number: string, t: nat, rows: seq<seq<string>>): seq<Violation>
    decreases |rows|
  {
    if |rows| == 0 then [] else RowErrors(number, t, rows[0]) + EmptyCellErrors(number, t, rows[1..])
  }

  function RowErrors(number: string, t: nat, row: seq<string>): seq<Violation>
    decreases |row|
  {
    if |row| == 0 then []
    else (if IsBlank(row[0]) then [EmptyCell(number, t)] else []) + RowErrors(number, t, row[1..])
  }

  /** Every error of a row is the empty-cell error of that table, at most one per cell. */
  lemma {:induction false} RowErrorsShape(number: string, t: nat, row: seq<string>)
    ensures forall v :: v in RowErrors(number, t, row) ==> v == EmptyCell(number, t)
    ensures |RowErrors(number, t, row)| <= |row|
    decreases |row|
  {
    if |row| > 0 {
      RowErrorsShape(number, t, row[1..]);
    }
  }

  /** Every error of the cell rule is the empty-cell error of that table. */
  lemma {:induction false} EmptyCellErrorsShape(number: string, t: nat, rows: seq<seq<string>>)
    ensures forall v :: v in EmptyCellErrors(number, t, rows) ==> v == EmptyCell(number, t)
    decreases |rows|
  {
    if |rows| > 0 {
      RowErrorsShape(number, t, rows[0]);
      EmptyCellErrorsShape(number, t, rows[1..]);
    }
  }

  /** No empty-cell error for a row exactly when every cell of it has text. */
  lemma {:induction false} RowErrorsEmptyIff(number: string, t: nat, row: seq<string>)
    ensures RowErrors(number, t, row) == [] <==> forall j :: 0 <= j < |row| ==> |Strip(row[j])| > 0
    decreases |row|
  {
    if |row| > 0 {
      StripEmptyIffBlank(row[0]);
      RowErrorsEmptyIff(number, t, row[1..]);
      assert forall j :: 1 <= j < |row| ==> row[j] == row[1..][j - 1];
    }
  }

  /** No empty-cell error exactly when every cell has text. */
  lemma {:induction false} EmptyCellErrorsEmptyIff(number: string, t: nat, rows: seq<seq<string>>)
    ensures EmptyCellErrors(number, t, rows) == [] <==>
      forall i, j :: 0 <= i < |rows| && 0 <= j < |rows[i]| ==> |Strip(rows[i][j])| > 0
    decreases |rows|
  {
    if |rows| > 0 {
      RowErrorsEmptyIff(number, t, rows[0]);
      EmptyCellErrorsEmptyIff(number, t, rows[1..]);
      assert forall i :: 1 <= i < |rows| ==> rows[i] == rows[1..][i - 1];
    }
  }

  /**
   * The errors of a table with caption paragraph `c` and caption `cap`: a number
   * other than `expected`, the title rules, and the empty cells.
   */
  function CaptionedErrors(t: nat, c: nat, cap: Caption, expected: string, alignment: Alignment, rows: seq<seq<string>>): seq<Violation>
    requires |cap.title| > 0
  {
    CaptionErrors(TableKind, t, c, cap, expected, alignment) + EmptyCellErrors(cap.number, t, rows)
  }

  /** A captioned table's errors: its numbering error exactly when the number is not the expected one, and errors naming only it. */
  lemma CaptionedErrorsSpec(t: nat, c: nat, cap: Caption, expected: string, alignment: Alignment, rows: seq<seq<string>>)
    requires |cap.title| > 0
    ensures var r := CaptionedErrors(t, c, cap, expected, alignment, rows);
      && (forall v :: v in r ==> !v.MissingTableCaption? && !v.CaptionFormat? && !v.Unreferenced?)
      && (forall v :: v in r && v.WrongNumber? ==> v == WrongNumber(TableKind, t, expected, cap.number))
      && (WrongNumber(TableKind, t, expected, cap.number) in r <==> cap.number != expected)
      && (forall v :: v in r && v.EmptyCell? ==> v.table == t)
  {
    CaptionErrorsSpec(TableKind, t, c, cap, expected, alignment);
    EmptyCellErrorsShape(cap.number, t, rows);
  }

  /**
   * The context a table is checked in: the tables, each paragraph's caption, text,
   * alignment and chapter, and each table's caption paragraph (`pairing`).
   */
  datatype Context = Context(tables: seq<Table>, captions: seq<Option<Caption>>, texts: seq<string>,
                             alignments: seq<Alignment>, chapters: seq<string>, chapterMode: bool,
                             pairing: seq<Option<nat>>)
  {
    predicate Valid() {
      && |captions| == |texts| == |alignments| == |chapters|
      && |pairing| == |tables|
      && (forall i :: 0 <= i < |captions| && captions[i].Some? ==> |captions[i].value.title| > 0)
      && (forall t :: 0 <= t < |pairing| && pairing[t].Some? ==>
            pairing[t].value < |captions| && captions[pairing[t].value].Some?)
    }
  }

  /** The context read off a document: captions parsed, chapters tracked, each table paired with its caption. */
  function ContextOf(doc: Document, params: Params): (x: Context)
    ensures x.Valid() && x.tables == doc.tables && x.captions == Captions(doc) && x.texts == Texts(doc.paragraphs)
    ensures forall t :: 0 <= t < |doc.tables| ==> x.pairing[t] == CaptionIndex(doc.tables, Captions(doc), t)
  {
    var texts := Texts(doc.paragraphs);
    var captions := Captions(doc);
    Context(doc.tables, captions, texts,
            seq(|doc.paragraphs|, i requires 0 <= i < |doc.paragraphs| => doc.paragraphs[i].alignment),
            Chapters(texts, "0"), ChapterMode(params),
            seq(|doc.tables|, t requires 0 <= t < |doc.tables| => CaptionIndex(doc.tables, captions, t)))
  }

  /** Table `t` of the context has a caption. */
  predicate HasCaption(x: Context, t: nat)
    requires x.Valid() && t < |x.tables|
  {
    x.pairing[t].Some?
  }

  /** The caption of a table of the context that has one. */
  function CaptionAt(x: Context, t: nat): Caption
    requires x.Valid() && t < |x.tables| && HasCaption(x, t)
  {
    x.captions[x.pairing[t].value].value
  }

  /** The errors of table `t` when the counter expects `k`. */
  function TableErrors(x: Context, t: nat, k: nat): (r: seq<Violation>)
    requires x.Valid() && t < |x.tables|
  {
    match x.pairing[t]
    case None => [MissingTableCaption(t)]
    case Some(c) =>
      var text := x.texts[c];
      match x.captions[c]
      case None => [CaptionFormat(TableKind, t, c, text)]
      case Some(cap) =>
        CaptionedErrors(t, c, cap, ExpectedNumber(x.chapterMode, x.chapters[c], k), x.alignments[c], x.tables[t].rows)
  }

  /**
   * The value of the caption counter at each table from `t` on, starting from `k`:
   * it advances past each table that has a caption and stays put otherwise.
   */
  function Counters(x: Context, t: nat, k: nat): (r: seq<nat>)
    requires x.Valid() && t <= |x.tables|
    ensures |r| == |x.tables| - t
    decreases |x.tables| - t
  {
    if t == |x.tables| then []
    else [k] + Counters(x, t + 1, if HasCaption(x, t) then k + 1 else k)
  }

  /** The errors of each table, each checked against the counter's value there. */
  function Parts(x: Context): (r: seq<seq<Violation>>)
    requires x.Valid()
    ensures |r| == |x.tables|
  {
    var ks := Counters(x, 0, 1);
    seq(|x.tables|, t requires 0 <= t < |x.tables| => TableErrors(x, t, ks[t]))
  }

  /** The errors of every table, in table order. */
  function Scan(x: Context): seq<Violation>
    requires x.Valid()
  {
    Flatten(Parts(x))
  }

  /** The caption numbers of the captioned tables from `t` on, in table order. */
  function Labels(x: Context, t: nat): seq<string>
    requires x.Valid()
    decreases |x.tables| - t
  {
    if t >= |x.tables| then []
    else (if HasCaption(x, t) then [CaptionAt(x, t).number] else []) + Labels(x, t + 1)
  }

  /** How many of the tables before `t` are captioned. */
  function CountCaptioned(x: Context, t: nat): nat
    requires x.Valid() && t <= |x.tables|
  {
    if t == 0 then 0 else CountCaptioned(x, t - 1) + (if HasCaption(x, t - 1) then 1 else 0)
  }

  /**
   * The number expected of captioned table `t`: one more than the captioned tables
   * before it, prefixed in chapter mode by the chapter of its caption paragraph.
   */
  function ExpectedFor(x: Context, t: nat): string
    requires x.Valid() && t < |x.tables| && HasCaption(x, t)
  {
    ExpectedNumber(x.chapterMode, x.chapters[x.pairing[t].value], 1 + CountCaptioned(x, t))
  }

  function References(x: Context): set<string> {
    AllReferences(x.texts, ReferenceKeywords, NumberShape)
  }

  function Errors(x: Context): seq<Violation>
    requires x.Valid()
  {
    Scan(x) + UnreferencedErrors(TableKind, Labels(x, 0), References(x))
  }

  /**
   * `TablesCheck.check`: the per-table errors in table order, then the unreferenced
   * captions. A table draws the missing-caption error exactly when no caption paragraph
   * is paired with it, and no caption-format error is ever reported.
   */
  function Check(doc: Document, params: Params): (r: seq<Violation>)
    ensures forall t :: 0 <= t < |doc.tables| ==>
      (MissingTableCaption(t) in r <==> CaptionIndex(doc.tables, Captions(doc), t).None?)
    ensures forall v :: v in r ==> !v.CaptionFormat?
  {
    var x := ContextOf(doc, params);
    MissingCaptionsIff(x);
    NoCaptionFormatError(x);
    Errors(x)
  }

  // ---------------------------------------------------------------------------
  // Properties

  /**
   * The counter at table `t0 + i` is one more than the captioned tables before it:
   * it never resynchronises with the numbers actually found.
   */
  lemma {:induction false} CountersClosedForm(x: Context, t0: nat, i: nat)
    requires x.Valid() && t0 + i < |x.tables|
    ensures Counters(x, t0, 1 + CountCaptioned(x, t0))[i] == 1 + CountCaptioned(x, t0 + i)
    decreases i
  {
    if i > 0 {
      CountersClosedForm(x, t0 + 1, i - 1);
    }
  }

  /** The counter's value at table `t` of the scan. */
  function CounterAt(x: Context, t: nat): nat
    requires x.Valid() && t < |x.tables|
  {
    Counters(x, 0, 1)[t]
  }

  /** The counter at table `t` is one more than the captioned tables before it. */
  lemma CounterAtClosedForm(x: Context, t: nat)
    requires x.Valid() && t < |x.tables|
    ensures CounterAt(x, t) == 1 + CountCaptioned(x, t)
  {
    CountersClosedForm(x, 0, t);
  }

  /** The scan reports exactly the errors of each table under the counter's value there. */
  lemma ScanSpec(x: Context, v: Violation)
    requires x.Valid()
    ensures v in Scan(x) <==> exists t :: 0 <= t < |x.tables| && InTable(x, t, v)
  {
    var parts := Parts(x);
    FlattenSpec(parts, v);
    if v in Scan(x) {
      var t :| 0 <= t < |parts| && v in parts[t];
      assert InTable(x, t, v);
    }
    if exists t :: 0 <= t < |x.tables| && InTable(x, t, v) {
      var t :| 0 <= t < |x.tables| && InTable(x, t, v);
      assert v in parts[t];
    }
  }

  /** `v` is among the errors of table `t`. */
  predicate InTable(x: Context, t: nat, v: Violation)
    requires x.Valid() && t < |x.tables|
  {
    v in TableErrors(x, t, CounterAt(x, t))
  }

  /** Which table each per-table error names; the format and unreferenced errors never arise here. */
  lemma TableErrorsTags(x: Context, t: nat, k: nat)
    requires x.Valid() && t < |x.tables|
    ensures forall v :: v in TableErrors(x, t, k) ==>
      && !v.CaptionFormat? && !v.Unreferenced?
      && (v.MissingTableCaption? ==> v.table == t && !HasCaption(x, t))
      && (v.WrongNumber? ==> (
            && v.ordinal == t && HasCaption(x, t)
            && v == WrongNumber(TableKind, t, ExpectedNumber(x.chapterMode, x.chapters[x.pairing[t].value], k),
                                CaptionAt(x, t).number)))
      && (v.EmptyCell? ==> v.table == t && HasCaption(x, t))
  {
    match x.pairing[t]
    case None =>
    case Some(c) =>
      var cap := x.captions[c].value;
      CaptionedErrorsSpec(t, c, cap, ExpectedNumber(x.chapterMode, x.chapters[c], k), x.alignments[c], x.tables[t].rows);
  }

  /** What an error of the table scan says about the table it names. */
  predicate Tagged(x: Context, v: Violation)
    requires x.Valid()
  {
    && !v.CaptionFormat? && !v.Unreferenced?
    && (v.MissingTableCaption? ==> v.table < |x.tables| && !HasCaption(x, v.table))
    && (v.WrongNumber? ==> (
          && v.ordinal < |x.tables| && HasCaption(x, v.ordinal)
          && v == WrongNumber(TableKind, v.ordinal, ExpectedFor(x, v.ordinal), CaptionAt(x, v.ordinal).number)))
    && (v.EmptyCell? ==> v.table < |x.tables| && HasCaption(x, v.table))
  }

  /** Every error of the table scan names a table in range and agrees with that table's state. */
  lemma ScanTagged(x: Context)
    requires x.Valid()
    ensures forall v :: v in Scan(x) ==> Tagged(x, v)
  {
    forall v | v in Scan(x)
      ensures Tagged(x, v)
    {
      ScanSpec(x, v);
      var t :| 0 <= t < |x.tables| && InTable(x, t, v);
      InTableTagged(x, t, v);
    }
  }

  /** An error of table `t` agrees with that table's state. */
  lemma InTableTagged(x: Context, t: nat, v: Violation)
    requires x.Valid() && t < |x.tables| && InTable(x, t, v)
    ensures Tagged(x, v)
  {
    CounterAtClosedForm(x, t);
    TableErrorsTags(x, t, CounterAt(x, t));
  }

  /** A table yields its missing-caption error exactly when no caption precedes it. */
  lemma MissingCaptionIff(x: Context, t: nat)
    requires x.Valid() && t < |x.tables|
    ensures MissingTableCaption(t) in Errors(x) <==> !HasCaption(x, t)
  {
    var v := MissingTableCaption(t);
    ScanSpec(x, v);
    ScanTagged(x);
    UnreferencedSpec(TableKind, Labels(x, 0), References(x), v);
    if !HasCaption(x, t) {
      assert InTable(x, t, v);
    }
  }

  /** The caption-format error never appears. */
  /** `MissingCaptionIff` for every table at once. */
  lemma MissingCaptionsIff(x: Context)
    requires x.Valid()
    ensures forall t :: 0 <= t < |x.tables| ==> (MissingTableCaption(t) in Errors(x) <==> !HasCaption(x, t))
  {
    forall t | 0 <= t < |x.tables|
      ensures MissingTableCaption(t) in Errors(x) <==> !HasCaption(x, t)
    {
      MissingCaptionIff(x, t);
    }
  }

  lemma NoCaptionFormatError(x: Context)
    requires x.Valid()
    ensures forall v :: v in Errors(x) ==> !v.CaptionFormat?
  {
    ScanTagged(x);
    forall v | v in Errors(x)
      ensures !v.CaptionFormat?
    {
      UnreferencedSpec(TableKind, Labels(x, 0), References(x), v);
    }
  }

  /**
   * A captioned table draws a numbering error exactly when its number differs from
   * the closed-form expectation, and any numbering error naming it carries that
   * expectation and its number.
   */
  lemma WrongNumberIff(x: Context, t: nat)
    requires x.Valid() && t < |x.tables| && HasCaption(x, t)
    ensures var number := CaptionAt(x, t).number;
      WrongNumber(TableKind, t, ExpectedFor(x, t), number) in Errors(x) <==> number != ExpectedFor(x, t)
    ensures forall v :: v in Errors(x) && v.WrongNumber? && v.ordinal == t ==>
      v == WrongNumber(TableKind, t, ExpectedFor(x, t), CaptionAt(x, t).number)
  {
    var v := WrongNumber(TableKind, t, ExpectedFor(x, t), CaptionAt(x, t).number);
    var c := x.pairing[t].value;
    CounterAtClosedForm(x, t);
    CaptionedErrorsSpec(t, c, CaptionAt(x, t), ExpectedFor(x, t), x.alignments[c], x.tables[t].rows);
    assert InTable(x, t, v) <==> CaptionAt(x, t).number != ExpectedFor(x, t);
    ScanSpec(x, v);
    UnreferencedSpec(TableKind, Labels(x, 0), References(x), v);
    if v in Scan(x) {
      var t' :| 0 <= t' < |x.tables| && InTable(x, t', v);
      TableErrorsTags(x, t', CounterAt(x, t'));
    }
    ScanTagged(x);
    forall w | w in Errors(x) && w.WrongNumber? && w.ordinal == t
      ensures w == v
    {
      UnreferencedSpec(TableKind, Labels(x, 0), References(x), w);
    }
  }

  /** Each captioned table whose number no reference names draws an unreferenced error, and nothing else does. */
  lemma UnreferencedIff(x: Context, l: string)
    requires x.Valid()
    ensures Unreferenced(TableKind, l) in Errors(x) <==> l in Labels(x, 0) && l !in References(x)
  {
    var v := Unreferenced(TableKind, l);
    ScanTagged(x);
    UnreferencedSpec(TableKind, Labels(x, 0), References(x), v);
  }

  /** The caption prefix is one of the reference keywords, and the keywords are lower case and unnested. */
  lemma KeywordFacts()
    ensures Lower(CaptionPrefix) == "табл." && "табл." in ReferenceKeywords && Unnested(ReferenceKeywords, "табл.")
    ensures forall k :: 0 <= k < |ReferenceKeywords| ==> Lower(ReferenceKeywords[k]) == ReferenceKeywords[k]
  {
    assert Lower(CaptionPrefix) == "табл.";
    assert Lower("таблица") == "таблица";
    assert "таблица"[4] != "табл."[4];
  }

  /** Every caption number of the tables from `t` on is found by the reference scan of its own caption. */
  lemma {:induction false} LabelsReferenced(x: Context, t: nat)
    requires x.Valid()
    requires forall i :: 0 <= i < |x.captions| && x.captions[i].Some? ==>
      x.captions[i].value.number in FindLabels(x.texts[i], ReferenceKeywords, NumberShape)
    ensures forall l :: l in Labels(x, t) ==> l in References(x)
    decreases |x.tables| - t
  {
    if t < |x.tables| {
      LabelsReferenced(x, t + 1);
      if HasCaption(x, t) {
        AllReferencesSpec(x.texts, ReferenceKeywords, NumberShape, CaptionAt(x, t).number);
      }
    }
  }

  /**
   * The unreferenced rule never fires: the scan that collects references runs over
   * every paragraph, the caption included, and a caption `Табл. N – …` is itself a
   * reference `табл. N`.
   */
  lemma NoUnreferencedError(doc: Document, params: Params)
    ensures forall l :: Unreferenced(TableKind, l) !in Check(doc, params)
  {
    var x := ContextOf(doc, params);
    KeywordFacts();
    forall i | 0 <= i < |x.captions| && x.captions[i].Some?
      ensures x.captions[i].value.number in FindLabels(x.texts[i], ReferenceKeywords, NumberShape)
    {
      assert x.captions[i] == ParseCaption(CaptionPrefix, doc.paragraphs[i].text);
      CaptionReferencesItself(CaptionPrefix, ReferenceKeywords, "табл.", doc.paragraphs[i].text);
    }
    LabelsReferenced(x, 0);
    forall l
      ensures Unreferenced(TableKind, l) !in Check(doc, params)
    {
      UnreferencedIff(x, l);
    }
  }
}

=== FILE: template.dfy ===
/**
 * The check template (modules/template.py): the parameters of four checkers with
 * the template's own defaults, the ordered map of their results, and the Markdown
 * report with its total error count. Reading the file, the clock and writing the
 * report are outside the model: the body XML paragraphs, the time stamp and the
 * rendering of one error arrive as parameters, and the report is returned as its
 * lines.
 */
module Template {
  import opened Opt
  import opened Text
  import opened DocModel
  import opened Violations
  import Structure
  import PageParams
  import Formatting
  import References

  /** The result keys, in the order `apply` fills the map. */
  const StructureKey: string := "structure"
  const PageParamsKey: string := "page_params"
  const FormattingKey: string := "formatting"
  const ReferencesKey: string := "references"

  const StructureDefault: Structure.Params := Structure.Params(Some(true), None)
  const PageDefault: PageParams.Params :=
    PageParams.Params(Some("A4"), Some(PageParams.Margins(2.0, 1.0, 2.0, 2.0)))
  const FormattingDefault: Formatting.Params := Formatting.Params(Some("Times New Roman"), Some(12.0))
  const ReferencesDefault: References.Params := References.Params(Some("ГОСТ Р 7.0.5-2008"))

  datatype Template = Template(structure: Structure.Params, page: PageParams.Params,
                               formatting: Formatting.Params, references: References.Params)

  /**
   * Python's `given or default` on a parameter dict: a missing dict (`None`) and an
   * empty one (a `Params` with every key absent) both select the default.
   */
  function Or<P(==)>(given: Option<P>, empty: P, default: P): (r: P)
    ensures given.None? || given == Some(empty) ==> r == default
    ensures given.Some? && given.value != empty ==> r == given.value
  {
    match given
    case None => default
    case Some(p) => if p == empty then default else p
  }

  /**
   * `CheckTemplate.__init__`: every dict given with a recognised key is kept, every
   * other one is replaced by the template default, so no checker receives an empty dict.
   */
  function Make(structure: Option<Structure.Params>, page: Option<PageParams.Params>,
                formatting: Option<Formatting.Params>, references: Option<References.Params>): (t: Template)
    ensures structure.Some? && structure.value != Structure.Params(None, None) ==> t.structure == structure.value
    ensures page.Some? && page.value != PageParams.Params(None, None) ==> t.page == page.value
    ensures formatting.Some? && formatting.value != Formatting.Params(None, None) ==> t.formatting == formatting.value
    ensures references.Some? && references.value != References.Params(None) ==> t.references == references.value
    ensures structure.None? ==> t.structure == StructureDefault
    ensures page.None? ==> t.page == PageDefault
    ensures formatting.None? ==> t.formatting == FormattingDefault
    ensures references.None? ==> t.references == ReferencesDefault
    ensures t.structure != Structure.Params(None, None) && t.page != PageParams.Params(None, None)
    ensures t.formatting != Formatting.Params(None, None) && t.references != References.Params(None)
  {
    Template(Or(structure, Structure.Params(None, None), StructureDefault),
             Or(page, PageParams.Params(None, None), PageDefault),
             Or(formatting, Formatting.Params(None, None), FormattingDefault),
             Or(references, References.Params(None), ReferencesDefault))
  }

  /**
   * The template's page default asks for a 2 cm left margin, while a page dict
   * that names only the page size falls back to the checker's own 3 cm.
   */
  lemma LeftMarginDefaults()
    ensures PageParams.MarginsOf(Make(None, None, None, None).page).left == 2.0
    ensures PageParams.MarginsOf(Make(None, Some(PageParams.Params(None, None)), None, None).page).left == 2.0
    ensures PageParams.MarginsOf(Make(None, Some(PageParams.Params(Some("A4"), None)), None, None).page).left == 3.0
  {
  }

  /** With no dicts, the checkers run with headings required, A4, Times New Roman 12 and GOST R 7.0.5-2008. */
  lemma Defaults()
    ensures var t := Make(None, None, None, None);
      && Structure.RequireHeadings(t.structure)
      && Structure.RequiredSections(t.structure) == Structure.DefaultSections
      && PageParams.Profile(t.page) == "A4"
      && Formatting.ExpectedFont(t.formatting) == "Times New Roman"
      && Formatting.ExpectedHalfPoints(t.formatting) == 24.0
      && References.StandardOf(t.references) == References.Gost
  {
  }

  /** One entry of the result map. */
  datatype Result = Result(key: string, verdict: Verdict)

  /**
   * `CheckTemplate.apply`: the four checks in a fixed order. The formatting check
   * reads the body XML, given here as its paragraphs; the bibliography grammars are
   * those of the references module.
   */
  function Apply(t: Template, doc: Document, bodyXml: seq<Paragraph>, grammars: References.Grammars): (r: seq<Result>)
    ensures |r| == 4
    ensures r[0].key == StructureKey && r[1].key == PageParamsKey
    ensures r[2].key == FormattingKey && r[3].key == ReferencesKey
  {
    [Result(StructureKey, Structure.Check(doc, t.structure)),
     Result(PageParamsKey, PageParams.Check(doc, t.page)),
     Result(FormattingKey, Formatting.Check(bodyXml, t.formatting)),
     Result(ReferencesKey, References.Check(doc, t.references, grammars))]
  }

  // ---------------------------------------------------------------------------
  // The report

  const Title: string := "# Отчет о проверке документа"
  const StampPrefix: string := "Дата и время: "
  const ErrorsHeading: string := "Ошибки:"
  const Bullet: string := "- "

  /** Python's `str.capitalize` under the case map: the first character upper-cased, the rest lower-cased. */
  function Capitalize(s: string): (r: string)
    ensures |r| == |s|
  {
    if |s| == 0 then "" else [UpperChar(s[0])] + Lower(s[1..])
  }

  /** The total line: `**Общее количество ошибок: N**`. */
  function TotalLine(n: nat): string {
    "**Общее количество ошибок: " + NatToString(n) + "**"
  }

  /** The errors of the list-valued results; a string result adds nothing. */
  function Total(results: seq<Result>): nat {
    if |results| == 0 then 0
    else (if results[0].verdict.Errors? then |results[0].verdict.violations| else 0) + Total(results[1..])
  }

  function Bullets(errors: seq<Violation>, show: Violation -> string): (r: seq<string>)
    ensures |r| == |errors|
  {
    seq(|errors|, i requires 0 <= i < |errors| => Bullet + show(errors[i]))
  }

  /** The lines of one result: its heading, the message or the bulleted errors, and a blank line. */
  function SectionLines(result: Result, show: Violation -> string): seq<string> {
    ["## " + Capitalize(result.key)]
      + (match result.verdict
         case Message(text) => [text]
         case Errors(errors) => [ErrorsHeading] + Bullets(errors, show))
      + [""]
  }

  function Sections(results: seq<Result>, show: Violation -> string): seq<string> {
    if |results| == 0 then [] else SectionLines(results[0], show) + Sections(results[1..], show)
  }

  /** `CheckTemplate._save_report`, as the lines the file receives; `now` is the formatted time stamp. */
  function Report(results: seq<Result>, now: string, show: Violation -> string): (r: seq<string>)
    ensures |r| > 3 && r[0] == Title && r[|r| - 1] == TotalLine(Total(results))
  {
    [Title, StampPrefix + now, ""] + Sections(results, show) + [TotalLine(Total(results))]
  }

  /** `apply` with an optional report: the report exists exactly when one is asked for. */
  function ApplyAndReport(t: Template, doc: Document, bodyXml: seq<Paragraph>, grammars: References.Grammars,
                          reportWanted: bool, now: string, show: Violation -> string): (r: (seq<Result>, Option<seq<string>>))
    ensures r.0 == Apply(t, doc, bodyXml, grammars)
    ensures r.1.Some? <==> reportWanted
    ensures r.1.Some? ==> r.1.value == Report(r.0, now, show)
  {
    var results := Apply(t, doc, bodyXml, grammars);
    (results, if reportWanted then Some(Report(results, now, show)) else None)
  }

  // ---------------------------------------------------------------------------
  // Properties of the report

  predicate IsBullet(line: string) {
    Bullet <= line
  }

  function CountBullets(lines: seq<string>): nat {
    if |lines| == 0 then 0 else (if IsBullet(lines[0]) then 1 else 0) + CountBullets(lines[1..])
  }

  /** Lines none of which opens with a dash contribute no bullet. */
  lemma {:induction false} NoBullets(lines: seq<string>)
    requires forall i :: 0 <= i < |lines| ==> |lines[i]| == 0 || lines[i][0] != '-'
    ensures CountBullets(lines) == 0
    decreases |lines|
  {
    if |lines| > 0 {
      NoBullets(lines[1..]);
    }
  }

  lemma {:induction false} CountBulletsAppend(a: seq<string>, b: seq<string>)
    ensures CountBullets(a + b) == CountBullets(a) + CountBullets(b)
    decreases |a|
  {
    if |a| == 0 {
      assert a + b == b;
    } else {
      assert (a + b)[1..] == a[1..] + b;
      CountBulletsAppend(a[1..], b);
    }
  }

  lemma {:induction false} BulletsCount(errors: seq<Violation>, show: Violation -> string)
    ensures CountBullets(Bullets(errors, show)) == |errors|
    decreases |errors|
  {
    if |errors| > 0 {
      var b := Bullets(errors, show);
      assert b == [b[0]] + Bullets(errors[1..], show);
      CountBulletsAppend([b[0]], Bullets(errors[1..], show));
      BulletsCount(errors[1..], show);
      assert IsBullet(b[0]);
    }
  }

  /** A result whose message is not itself a bullet writes one bullet line per error. */
  predicate PlainMessage(r: Result) {
    r.verdict.Message? ==> !IsBullet(r.verdict.text)
  }

  lemma SectionBullets(result: Result, show: Violation -> string)
    requires PlainMessage(result)
    ensures CountBullets(SectionLines(result, show)) ==
      (if result.verdict.Errors? then |result.verdict.violations| else 0)
  {
    var head := ["## " + Capitalize(result.key)];
    assert !IsBullet(head[0]) by { assert head[0][0] == '#'; }
    assert CountBullets(head) == 0;
    assert CountBullets([""]) == 0;
    match result.verdict
    case Message(text) =>
      assert CountBullets([text]) == 0;
      CountBulletsAppend(head, [text]);
      CountBulletsAppend(head + [text], [""]);
    case Errors(errors) =>
      var body := [ErrorsHeading] + Bullets(errors, show);
      assert !IsBullet(ErrorsHeading) by { assert ErrorsHeading[0] != Bullet[0]; }
      CountBulletsAppend([ErrorsHeading], Bullets(errors, show));
      assert CountBullets([ErrorsHeading]) == 0;
      BulletsCount(errors, show);
      CountBulletsAppend(head, body);
      CountBulletsAppend(head + body, [""]);
  }

  /**
   * The report's total is the number of error lines it writes: one bullet per
   * error of a list result, none for a string result, provided no message is
   * itself written as a bullet.
   */
  lemma {:induction false} ReportCountsBullets(results: seq<Result>, now: string, show: Violation -> string)
    requires forall i :: 0 <= i < |results| ==> PlainMessage(results[i])
    ensures CountBullets(Report(results, now, show)) == Total(results)
  {
    SectionsBullets(results, show);
    var head := [Title, StampPrefix + now, ""];
    assert (StampPrefix + now)[0] == StampPrefix[0];
    NoBullets(head);
    NoBullets([TotalLine(Total(results))]);
    CountBulletsAppend(head, Sections(results, show));
    CountBulletsAppend(head + Sections(results, show), [TotalLine(Total(results))]);
  }

  lemma {:induction false} SectionsBullets(results: seq<Result>, show: Violation -> string)
    requires forall i :: 0 <= i < |results| ==> PlainMessage(results[i])
    ensures CountBullets(Sections(results, show)) == Total(results)
    decreases |results|
  {
    if |results| > 0 {
      SectionBullets(results[0], show);
      SectionsBullets(results[1..], show);
      CountBulletsAppend(SectionLines(results[0], show), Sections(results[1..], show));
    }
  }

  /** Every check's message is a pass message or a bibliography sentinel, never a bullet. */
  lemma ApplyMessagesPlain(t: Template, doc: Document, bodyXml: seq<Paragraph>, grammars: References.Grammars)
    ensures var r := Apply(t, doc, bodyXml, grammars);
      PlainMessage(r[0]) && PlainMessage(r[1]) && PlainMessage(r[2]) && PlainMessage(r[3])
  {
    var s := Structure.Check(doc, t.structure);
    var p := PageParams.Check(doc, t.page);
    var f := Formatting.Check(bodyXml, t.formatting);
    var b := References.Check(doc, t.references, grammars);
    PassMessagePlain(StructureKey, s, Structure.PassedMessage);
    PassMessagePlain(PageParamsKey, p, PageParams.PassedMessage);
    PassMessagePlain(FormattingKey, f, Formatting.PassedMessage);
    References.MessageNotBullet(doc, t.references, grammars);
    var r := Apply(t, doc, bodyXml, grammars);
    assert r[0] == Result(StructureKey, s);
    assert r[1] == Result(PageParamsKey, p);
    assert r[2] == Result(FormattingKey, f);
    assert r[3] == Result(ReferencesKey, b);
  }

  /** A result whose only message is a pass message that does not open with a dash is plain. */
  lemma PassMessagePlain(key: string, v: Verdict, passed: string)
    requires v.Message? ==> v.text == passed
    requires |passed| > 0 && passed[0] != '-'
    ensures PlainMessage(Result(key, v))
  {
  }

  /** The report of `apply` carries one bullet per error and closes with that count. */
  lemma ApplyReportCounts(t: Template, doc: Document, bodyXml: seq<Paragraph>, grammars: References.Grammars,
                          now: string, show: Violation -> string)
    ensures var results := Apply(t, doc, bodyXml, grammars);
      var lines := Report(results, now, show);
      && CountBullets(lines) == Total(results)
      && lines[|lines| - 1] == TotalLine(CountBullets(lines))
  {
    var results := Apply(t, doc, bodyXml, grammars);
    ApplyMessagesPlain(t, doc, bodyXml, grammars);
    assert forall i :: 0 <= i < |results| ==> PlainMessage(results[i]) by {
      forall i | 0 <= i < |results|
        ensures PlainMessage(results[i])
      {
        assert i == 0 || i == 1 || i == 2 || i == 3;
      }
    }
    ReportCountsBullets(results, now, show);
  }
}

=== FILE: text.dfy ===
/**
 * Strings as the checkers see them: Python `str` values modelled as `seq<char>`
 * (one `char` per Unicode code point, as in Python).
 *
 * Python's Unicode-wide `upper`/`lower`/`isupper` are approximated by an explicit
 * case map covering Basic Latin and the Cyrillic block U+0400..U+045F; `\d` and
 * `isdigit` are approximated by the ASCII digits. Whitespace follows `str.isspace`
 * exactly.
 */
module Text {

  /** Python's `str.isspace` on one character; also what the regex class `\s` matches. */
  predicate IsSpace(c: char) {
    || ('\t' <= c <= '\r')
    || ('\U{1C}' <= c <= ' ')
    || c == '\U{85}' || c == '\U{A0}' || c == '\U{1680}'
    || ('\U{2000}' <= c <= '\U{200A}')
    || c == '\U{2028}' || c == '\U{2029}' || c == '\U{202F}' || c == '\U{205F}' || c == '\U{3000}'
  }

  predicate IsDigit(c: char) {
    '0' <= c <= '9'
  }

  /** Upper-case letters of the case map: Latin A-Z and Cyrillic U+0400..U+042F (Ѐ..Я). */
  predicate IsUpperChar(c: char) {
    ('A' <= c <= 'Z') || ('\U{0400}' <= c <= '\U{042F}')
  }

  /** Lower-case letters of the case map: Latin a-z and Cyrillic U+0430..U+045F (а..џ). */
  predicate IsLowerChar(c: char) {
    ('a' <= c <= 'z') || ('\U{0430}' <= c <= '\U{045F}')
  }

  function LowerChar(c: char): (d: char)
    ensures !IsUpperChar(d)
    ensures IsUpperChar(c) ==> IsLowerChar(d)
    ensures !IsUpperChar(c) ==> d == c
  {
    if 'A' <= c <= 'Z' then (c as int + 32) as char
    else if '\U{0410}' <= c <= '\U{042F}' then (c as int + 32) as char
    else if '\U{0400}' <= c <= '\U{040F}' then (c as int + 80) as char
    else c
  }

  function UpperChar(c: char): (d: char)
    ensures !IsLowerChar(d)
    ensures IsLowerChar(c) ==> IsUpperChar(d)
    ensures !IsLowerChar(c) ==> d == c
  {
    if 'a' <= c <= 'z' then (c as int - 32) as char
    else if '\U{0430}' <= c <= '\U{044F}' then (c as int - 32) as char
    else if '\U{0450}' <= c <= '\U{045F}' then (c as int - 80) as char
    else c
  }

  /** Lower-casing undoes upper-casing on every lower-case letter, and vice versa. */
  lemma CaseMapRoundTrip(c: char)
    ensures IsLowerChar(c) ==> LowerChar(UpperChar(c)) == c
    ensures IsUpperChar(c) ==> UpperChar(LowerChar(c)) == c
  {
  }

  /** `str.lower()` under the case map. */
  function Lower(s: string): string {
    seq(|s|, i requires 0 <= i < |s| => LowerChar(s[i]))
  }

  /** `str.upper()` under the case map. */
  function Upper(s: string): string {
    seq(|s|, i requires 0 <= i < |s| => UpperChar(s[i]))
  }

  /** Case mapping commutes with taking a prefix. */
  lemma LowerPrefix(s: string, n: nat)
    requires n <= |s|
    ensures Lower(s[..n]) == Lower(s)[..n]
    ensures Upper(s[..n]) == Upper(s)[..n]
  {
  }

  /** Case mapping commutes with concatenation. */
  lemma CaseConcat(a: string, b: string)
    ensures Lower(a + b) == Lower(a) + Lower(b)
    ensures Upper(a + b) == Upper(a) + Upper(b)
  {
  }

  /** A prefix stays a prefix after case mapping. */
  lemma CasePrefixMonotone(p: string, s: string)
    requires p <= s
    ensures Lower(p) <= Lower(s)
    ensures Upper(p) <= Upper(s)
  {
    LowerPrefix(s, |p|);
  }

  /** A text that is all whitespace. */
  predicate IsBlank(s: string) {
    forall i :: 0 <= i < |s| ==> IsSpace(s[i])
  }

  /** `r` is `s[a..b]` and everything of `s` outside `a..b` is whitespace. */
  predicate TrimmedAt(s: string, r: string, a: int, b: int) {
    && 0 <= a <= b <= |s| && r == s[a..b]
    && (forall i :: 0 <= i < a ==> IsSpace(s[i]))
    && (forall i :: b <= i < |s| ==> IsSpace(s[i]))
  }

  /**
   * Python `str.strip()`: the text between the first and the last non-whitespace
   * character; empty exactly when the text is all whitespace.
   */
  function Strip(s: string): (r: string)
    ensures |r| <= |s|
    ensures exists a, b :: TrimmedAt(s, r, a, b)
    ensures |r| == 0 <==> forall i :: 0 <= i < |s| ==> IsSpace(s[i])
    ensures |r| > 0 ==> !IsSpace(r[0]) && !IsSpace(r[|r| - 1])
    decreases |s|
  {
    if |s| > 0 && IsSpace(s[0]) then
      var r := Strip(s[1..]);
      assert forall i :: 1 <= i < |s| ==> s[i] == s[1..][i - 1];
      TrimmedDropFirst(s, r);
      r
    else if |s| > 0 && IsSpace(s[|s| - 1]) then
      var r := Strip(s[..|s| - 1]);
      assert forall i :: 0 <= i < |s| - 1 ==> s[i] == s[..|s| - 1][i];
      TrimmedDropLast(s, s[..|s| - 1], r);
      r
    else
      assert TrimmedAt(s, s, 0, |s|);
      s
  }

  /** Trimming the text after a leading space trims the whole text. */
  lemma TrimmedDropFirst(s: string, r: string)
    requires |s| > 0 && IsSpace(s[0])
    requires exists a, b :: TrimmedAt(s[1..], r, a, b)
    ensures exists a, b :: TrimmedAt(s, r, a, b)
  {
    var a, b :| TrimmedAt(s[1..], r, a, b);
    assert s[1..][a..b] == s[a + 1..b + 1];
    assert forall i :: 1 <= i < |s| ==> s[i] == s[1..][i - 1];
    assert TrimmedAt(s, r, a + 1, b + 1);
  }

  /** Trimming the text before a trailing space trims the whole text. */
  lemma TrimmedDropLast(s: string, t: string, r: string)
    requires |s| > 0 && IsSpace(s[|s| - 1]) && t == s[..|s| - 1]
    requires exists a, b :: TrimmedAt(t, r, a, b)
    ensures exists a, b :: TrimmedAt(s, r, a, b)
  {
    var a, b :| TrimmedAt(t, r, a, b);
    assert s[..|s| - 1][a..b] == s[a..b];
    assert forall i :: 0 <= i < |s| - 1 ==> s[i] == s[..|s| - 1][i];
    assert TrimmedAt(s, r, a, b);
  }

  /** Strip removes whitespace only: a text with no whitespace at either end is its own strip. */
  lemma StripKeepsInner(s: string)
    requires |s| > 0 && !IsSpace(s[0]) && !IsSpace(s[|s| - 1])
    ensures Strip(s) == s
  {
  }

  /** A text strips to nothing exactly when it is blank. */
  lemma StripEmptyIffBlank(s: string)
    ensures |Strip(s)| == 0 <==> IsBlank(s)
  {
  }

  /** A stripped text is its own strip. */
  lemma StripIdempotent(s: string)
    ensures Strip(Strip(s)) == Strip(s)
  {
  }

  /** Python `sub in s`: `sub` occurs somewhere in `s`. */
  predicate Contains(s: string, sub: string)
    decreases |s|
  {
    sub <= s || (|s| > 0 && Contains(s[1..], sub))
  }

  /** `Contains` holds exactly when `sub` is a prefix of some suffix of `s`. */
  lemma {:induction false} ContainsIff(s: string, sub: string)
    ensures Contains(s, sub) <==> exists i :: 0 <= i <= |s| && sub <= s[i..]
    decreases |s|
  {
    assert s[0..] == s;
    if |s| > 0 {
      ContainsIff(s[1..], sub);
      if exists i :: 0 <= i <= |s| && sub <= s[i..] {
        var i :| 0 <= i <= |s| && sub <= s[i..];
        if i > 0 {
          assert s[1..][i - 1..] == s[i..];
        }
      }
      if Contains(s[1..], sub) {
        var i :| 0 <= i <= |s| - 1 && sub <= s[1..][i..];
        assert s[1..][i..] == s[i + 1..];
      }
    }
  }

  /** Python `s.startswith(p)` for some `p` in `prefixes` (a regex `^(a|b|...)` on text). */
  predicate StartsWithAny(s: string, prefixes: seq<string>) {
    exists k :: 0 <= k < |prefixes| && prefixes[k] <= s
  }

  predicate AllDigits(s: string) {
    forall i :: 0 <= i < |s| ==> IsDigit(s[i])
  }

  /** Python `str.isdigit()`: non-empty and made of digits only. */
  predicate IsDigitString(s: string) {
    |s| > 0 && AllDigits(s)
  }

  /** Length of the longest run of digits at the start of `s` (what a greedy `\d*` consumes). */
  function DigitRun(s: string): (n: nat)
    ensures n <= |s|
    ensures forall i :: 0 <= i < n ==> IsDigit(s[i])
    ensures n < |s| ==> !IsDigit(s[n])
  {
    if |s| > 0 && IsDigit(s[0]) then 1 + DigitRun(s[1..]) else 0
  }

  /** Length of the longest run of whitespace at the start of `s` (what a greedy `\s*` consumes). */
  function SpaceRun(s: string): (n: nat)
    ensures n <= |s|
    ensures forall i :: 0 <= i < n ==> IsSpace(s[i])
    ensures n < |s| ==> !IsSpace(s[n])
  {
    if |s| > 0 && IsSpace(s[0]) then 1 + SpaceRun(s[1..]) else 0
  }

  /** A greedy `\d*` over a string of digits stops exactly where the digits end. */
  lemma {:induction false} DigitRunOf(d: string, rest: string)
    requires AllDigits(d)
    requires |rest| == 0 || !IsDigit(rest[0])
    ensures DigitRun(d + rest) == |d|
    decreases |d|
  {
    if |d| == 0 {
      assert d + rest == rest;
    } else {
      assert (d + rest)[1..] == d[1..] + rest;
      DigitRunOf(d[1..], rest);
    }
  }

  /** A greedy `\s*` over whitespace stops exactly where the whitespace ends. */
  lemma {:induction false} SpaceRunOf(w: string, rest: string)
    requires forall i :: 0 <= i < |w| ==> IsSpace(w[i])
    requires |rest| == 0 || !IsSpace(rest[0])
    ensures SpaceRun(w + rest) == |w|
    decreases |w|
  {
    if |w| == 0 {
      assert w + rest == rest;
    } else {
      assert (w + rest)[1..] == w[1..] + rest;
      SpaceRunOf(w[1..], rest);
    }
  }

  function DigitChar(d: nat): (c: char)
    requires d < 10
    ensures IsDigit(c)
  {
    ('0' as int + d) as char
  }

  function DigitValue(c: char): (d: nat)
    requires IsDigit(c)
    ensures d < 10 && DigitChar(d) == c
  {
    c as int - '0' as int
  }

  /** Python `str(n)` for a natural number: its decimal digits, without leading zeros. */
  function NatToString(n: nat): (r: string)
    ensures IsDigitString(r)
    ensures r[0] == '0' ==> n == 0
    decreases n
  {
    if n < 10 then [DigitChar(n)] else NatToString(n / 10) + [DigitChar(n % 10)]
  }

  /** Python `int(s)` on a string of digits. */
  function DigitsValue(s: string): nat
    requires AllDigits(s)
  {
    if |s| == 0 then 0 else 10 * DigitsValue(s[..|s| - 1]) + DigitValue(s[|s| - 1])
  }

  /** `int(str(n)) == n`. */
  lemma {:induction false} NatToStringRoundTrip(n: nat)
    ensures DigitsValue(NatToString(n)) == n
    decreases n
  {
    var r := NatToString(n);
    if n >= 10 {
      NatToStringRoundTrip(n / 10);
      assert r[..|r| - 1] == NatToString(n / 10);
      assert DigitValue(r[|r| - 1]) == n % 10;
    } else {
      assert DigitValue(r[0]) == n;
      assert r[..0] == [];
    }
  }

  /** Distinct numbers print differently. */
  lemma NatToStringInjective(a: nat, b: nat)
    requires a != b
    ensures NatToString(a) != NatToString(b)
  {
    NatToStringRoundTrip(a);
    NatToStringRoundTrip(b);
  }

  function TotalLength(parts: seq<string>): nat {
    if |parts| == 0 then 0 else |parts[0]| + TotalLength(parts[1..])
  }

  /**
   * Python `sep.join(parts)`: the parts in order with `sep` between neighbours, so
   * the result is as long as the parts together plus one separator per gap.
   */
  function Join(parts: seq<string>, sep: string): (r: string)
    ensures |parts| > 0 ==> parts[0] <= r
    ensures |parts| > 0 ==> |r| == TotalLength(parts) + (|parts| - 1) * |sep|
    ensures |parts| == 0 ==> r == ""
  {
    if |parts| == 0 then ""
    else if |parts| == 1 then parts[0]
    else parts[0] + sep + Join(parts[1..], sep)
  }
}

=== FILE: violations.dfy ===
/**
 * What the checkers report. The source formats each violation as a Russian or
 * English sentence; the model keeps the facts that sentence is built from.
 * Paragraph and table positions are 0-based indices (the messages print them
 * plus one); page sections are 1-based, as the source enumerates them.
 */
module Violations {
  import opened Opt

  /** The three kinds of numbered element that share caption and numbering rules. */
  datatype Kind = TableKind | FigureKind | AppendixKind

  datatype Side = LeftSide | RightSide | TopSide | BottomSide

  /** Appendix numbering: `1, 2, 3` or `А, Б, В`. */
  datatype NumberStyle = Numeric | Alpha

  datatype Violation =
    // structure checker
    | NoHeadings
    | MissingSections(sections: seq<string>)
    | SectionOrder(name: string, previous: string)
    // page parameters checker
    | PageSize(section: nat, width: real, height: real)
    | MarginTooSmall(section: nat, side: Side, actual: real, minimum: real)
    // run formatting checker
    | RunFormat(page: nat, wrongFont: Option<string>, wrongHalfPoints: Option<int>, excerpt: string)
    // bibliography checker
    | MalformedEntry(entry: string)
    // tables, figures and appendices
    | MissingTableCaption(table: nat)
    | MissingFigureCaption(ordinal: nat, paragraph: nat)
    | CaptionFormat(kind: Kind, ordinal: nat, paragraph: nat, text: string)
    | WrongNumber(kind: Kind, ordinal: nat, expected: string, found: string)
    | TitleNotCapitalised(kind: Kind, number: string, paragraph: nat)
    | TitleEndsWithPeriod(kind: Kind, number: string, paragraph: nat)
    | NotCentred(kind: Kind, number: string, paragraph: nat)
    | EmptyCell(number: string, table: nat)
    | Unreferenced(kind: Kind, number: string)
    | MissingIllustrationsList
    | IllustrationsListNotInToc
    | AppendixStyle(paragraph: nat, number: string, style: NumberStyle)
    | AppendixWrongNumber(paragraph: nat, ordinal: nat, found: string)
    | AppendixNotRightAligned(number: string, paragraph: nat)
    | AppendixNoPageBreak(number: string, paragraph: nat)
    | AppendixMissingTitle(number: string, paragraph: nat)
    | AppendixBeforeReferences(number: string, paragraph: nat)
    | AppendixBeforeIllustrations(number: string, paragraph: nat)
    | AppendixNotInToc(entry: string)

  /**
   * What a checker that can pass with a string returns: the string (a pass message
   * or, for the bibliography, one of its sentinels) or the list of violations.
   */
  datatype Verdict = Message(text: string) | Errors(violations: seq<Violation>)

  /** Python's `errors if errors else message`. */
  function Conclude(errors: seq<Violation>, passed: string): (r: Verdict)
    ensures r.Message? <==> |errors| == 0
    ensures r.Message? ==> r.text == passed
    ensures r.Errors? ==> r.violations == errors
  {
    if |errors| > 0 then Errors(errors) else Message(passed)
  }

  /** The lists of several checks or items, one after another. */
  function Flatten(parts: seq<seq<Violation>>): seq<Violation>
    decreases |parts|
  {
    if |parts| == 0 then [] else parts[0] + Flatten(parts[1..])
  }

  /** An error of the flattened list is an error of one of the parts. */
  lemma {:induction false} FlattenSpec(parts: seq<seq<Violation>>, v: Violation)
    ensures v in Flatten(parts) <==> exists i :: 0 <= i < |parts| && v in parts[i]
    decreases |parts|
  {
    if |parts| > 0 {
      FlattenSpec(parts[1..], v);
      if exists i :: 0 <= i < |parts| && v in parts[i] {
        var i :| 0 <= i < |parts| && v in parts[i];
        if i > 0 {
          assert v in parts[1..][i - 1];
        }
      }
    }
  }
}
